=== FILE: README.md ===
# jiit-tt-parser core, modelled in Dafny

`jiit_tt_parser` reads the timetable workbooks of JIIT (Jaypee Institute of
Information Technology). It turns them into a list of class events. Each
event has:

- a kind: lecture, tutorial, practical or talk;
- its student batches, such as `F2..F6`;
- the course code and the course's name;
- the classroom and the lecturers;
- the period and the day.

This project models the parts of the program that compute:

- **Cell parser** (`Event.from_string`), in modules `Events`, `Batches`, `Tokens` and `CodeResolver`. It models:
  - the hard-coded corrections;
  - the batch grammar: ranges such as `F2-F6`, glued batches such as `F2F3F6F7`, and bare numbers that inherit the previous letter;
  - the course-code repair ladder;
  - the classroom/lecturer token classifier;
  - the lecturer-name normalisation.
- **Periods** (`Period.from_string`, `Period.__add__`, `split_hour_min`), in module `TimeSpan`. The afternoon shift is modelled, and so is the least common cover of two periods.
- **Sheet walk** (`get_time_row`, `get_day_row`, `get_periods`, `is_end_of_day`, `search_merged_cells`, `parse_day` and `parse_events`), in modules `Walker` and `Timetable`. The workbook is modelled as an immutable `Sheet.Grid`, which holds:
  - cell values;
  - the fill theme of the first column;
  - the merged rectangles.
- **Sheet helpers** of `utils.py`, in module `Sheet`.
- **Side tables**, built from other workbooks:
  - the course tables of `parse_courses.py` (module `CourseTable`);
  - the faculty tables of `parse_faculty.py` (module `FacultyTable`);
  - the electives table of `parse_electives.py` (module `ElectiveTable`);
  - the shared "later update wins" overlay of dictionaries (module `Tables`).

Python exceptions become `Wrappers.Result` failures, and each failure carries a `PyError`:

- `ValueError` when an unpacking gets the wrong number of parts;
- `IndexError` when an index is out of range;
- `KeyError` when a display key is missing;
- `Diverges` when a loop never ends.

Module `Text` holds the string primitives the program takes from Python, such as `strip`, `split`, `find`, `replace` and `int()`.

Cited paths are relative to the repository root.

## Model

| member | source | states |
|---|---|---|
| TimeSpan.SplitHourMin | jiit_tt_parser/parser/parse_events.py:576-584 | the hour and minute are non-negative when the text has no minus sign, and the minute is 0 when the text has no `:` or `.` (the values are fixed by `TimeSpan.ReadPlain` and `TimeSpan.ReadHourMinute`) |
| TimeSpan.FromString | jiit_tt_parser/parser/parse_events.py:34-49 | success needs exactly one `-`; a result is a valid period whose start hour is at least 8 and whose end hour is at least 9, after the afternoon shift (values: `TimeSpan.FromStringRoundTrip` for `h.mm` headers, `TimeSpan.PlainHeader` for bare hours) |
| TimeSpan.ReadPlain | jiit_tt_parser/parser/parse_events.py:581-583 | a bare hour reads as its decimal value with minute 0 |
| TimeSpan.ReadHourMinute | jiit_tt_parser/parser/parse_events.py:577-580 | `h.mm` and `h:mm` read as the values of the two digit strings |
| TimeSpan.PlainHeader | jiit_tt_parser/parser/parse_events.py:34-49 | a header of two bare hours reads as whole hours after the afternoon shift, and fails exactly when a shifted hour is past 23 |
| TimeSpan.BareHourHeader | jiit_tt_parser/parser/parse_events.py:34-49 | `9-10` reads as 09:00 to 10:00 |
| TimeSpan.FromStringRoundTrip | jiit_tt_parser/parser/parse_events.py:34-49 | a valid period starting between 8:00 and 19:59 and ending between 9:00 and 20:59, written as a 12-hour header, reads back as itself |
| TimeSpan.MorningHeader | jiit_tt_parser/parser/parse_events.py:34-49 | `9.00-9.55` reads as 09:00 to 09:55 |
| TimeSpan.AfternoonHeader | jiit_tt_parser/parser/parse_events.py:42-45 | `2.00-2.55` is shifted to 14:00 to 14:55 |
| TimeSpan.DashCountMatters | jiit_tt_parser/parser/parse_events.py:35 | a header with no dash, or with several dashes, fails to unpack |
| TimeSpan.Add | jiit_tt_parser/parser/parse_events.py:51-60 | the sum covers both periods, and each of its ends is one of the operands' ends |
| TimeSpan.AddIsLeastCover | jiit_tt_parser/parser/parse_events.py:51-60 | any period covering both operands covers their sum |
| TimeSpan.AddCommutes | jiit_tt_parser/parser/parse_events.py:51-60 | `p + q == q + p` |
| TimeSpan.AddAssociates | jiit_tt_parser/parser/parse_events.py:51-60 | `(p + q) + s == p + (q + s)` |
| TimeSpan.AddIdempotent | jiit_tt_parser/parser/parse_events.py:51-60 | `p + p == p` |
| Batches.MatchRange | jiit_tt_parser/parser/parse_events.py:342-348 | a match is a well-formed letter/number/dash/letter?/number group that spells out the text |
| Batches.MatchRangeComplete | jiit_tt_parser/parser/parse_events.py:342-348 | every well-formed range text is matched, giving back its own groups (no false negatives) |
| Batches.ParseRangeExpands | jiit_tt_parser/parser/parse_events.py:342-364 | `L<a>-L<b>` and `L<a>-<b>` with a ≤ b expand to every batch from L<a> to L<b> |
| Batches.ParseRangeLetterMismatch | jiit_tt_parser/parser/parse_events.py:355-357 | a range whose second letter differs from its first fails |
| Batches.ParseRangeDescending | jiit_tt_parser/parser/parse_events.py:359-361 | a range whose end is below its start fails |
| Batches.ParseConcatenated | jiit_tt_parser/parser/parse_events.py:367-375 | it succeeds exactly when the glued pairs are found, and yields their texts in order |
| Batches.PairsComplete | jiit_tt_parser/parser/parse_events.py:367-375 | gluing well-formed pairs and splitting the result gives back the same pairs |
| Batches.ConcatenatedExample | jiit_tt_parser/parser/parse_events.py:367-375 | `F2F3F6F7` splits into F2, F3, F6, F7 |
| Batches.ParseBatches | jiit_tt_parser/parser/parse_events.py:260-325 | a blank text gives no batches, and a text of plain names only gives its parts verbatim |
| Batches.ParseBatchesYieldsCodes | jiit_tt_parser/parser/parse_events.py:287-325 | every batch produced by expansion is a capital letter followed by digits |
| Batches.BareNumberInherits | jiit_tt_parser/parser/parse_events.py:310-314 | a bare number is prefixed with the letter of the part before it |
| Batches.BareNumberFirstFails | jiit_tt_parser/parser/parse_events.py:311-313 | a bare number with no earlier letter is an error |
| Batches.UnknownPartFails | jiit_tt_parser/parser/parse_events.py:322-323 | a part matching no rule is an error |
| Batches.SingleRange | jiit_tt_parser/parser/parse_events.py:260-325 | a lone range expands to its full batch list |
| Batches.RangeThenNumber | jiit_tt_parser/parser/parse_events.py:260-325 | `F2-F6,7` gives the range followed by F7 |
| Batches.ConcatenatedBatches | jiit_tt_parser/parser/parse_events.py:260-375 | a lone glued text gives its pairs |
| Batches.NotStringOnly | jiit_tt_parser/parser/parse_events.py:328-339 | a part that holds a digit is not a plain name |
| CodeResolver.ShortComplete | jiit_tt_parser/parser/parse_events.py:843-857 | every short-form code is recognised as short and gives back its parts |
| CodeResolver.MediumComplete | jiit_tt_parser/parser/parse_events.py:843-857 | every medium-form code is recognised as medium and gives back its parts |
| CodeResolver.FullComplete | jiit_tt_parser/parser/parse_events.py:843-857 | every full-form code is recognised as full and gives back its parts |
| CodeResolver.ClassifyFormat | jiit_tt_parser/parser/parse_events.py:843-857 | the class is 1, 2 or 3 exactly when the full, medium or short pattern is the first to match, and 0 otherwise |
| CodeResolver.ClassifyWellFormed | jiit_tt_parser/parser/parse_events.py:843-857 | a well-formed code of each shape is classified as that shape |
| CodeResolver.FixMalformedCode | jiit_tt_parser/parser/parse_events.py:860-899 | a code of no full shape is returned alone; otherwise there are 20 candidates for a one-character middle and 1 otherwise, each of the repaired shape |
| CodeResolver.DroppedDigitRecovered | jiit_tt_parser/parser/parse_events.py:860-899 | when a full code has lost one of its two middle digits, the original is among the candidates |
| CodeResolver.RepairedIsOwnCandidate | jiit_tt_parser/parser/parse_events.py:860-899 | a code that is already repaired is its own only candidate |
| CodeResolver.LookupShort | jiit_tt_parser/parser/parse_events.py:942-954 | any name found is a value of the table; a code that is not short is looked up directly |
| CodeResolver.LookupMedium | jiit_tt_parser/parser/parse_events.py:927-939 | a known code gives its own name; an unknown code that is not medium gives nothing |
| CodeResolver.LookupFull | jiit_tt_parser/parser/parse_events.py:902-924 | the first candidate present in the table gives the name, and any name is a value of the table |
| CodeResolver.FullFallsBack | jiit_tt_parser/parser/parse_events.py:910-922 | when no repaired candidate is a key, a full code gives its medium form's name if that name is non-empty, and otherwise its short key's name |
| CodeResolver.MediumOutcome | jiit_tt_parser/parser/parse_events.py:927-939 | a medium code gives its own name when the table has one, and otherwise its short key's name |
| CodeResolver.LookupSub | jiit_tt_parser/parser/parse_events.py:807-840 | an empty code or an empty table gives nothing, a known code gives its name, and any result is a name in the table |
| CodeResolver.ShortTailCut | jiit_tt_parser/parser/parse_events.py:942-954 | a short code is looked up by its key without the tail |
| CodeResolver.MediumFallsBackToShort | jiit_tt_parser/parser/parse_events.py:927-939 | an unknown medium code falls back to its short key |
| CodeResolver.RepairFindsName | jiit_tt_parser/parser/parse_events.py:807-924 | a code that lost a middle digit still finds the name the table keeps under the full code |
| Tokens.ExtractSubstrings | jiit_tt_parser/parser/parse_events.py:228-257 | every token is non-empty, stripped and free of delimiters |
| Tokens.ExtractSplitsAt | jiit_tt_parser/parser/parse_events.py:228-257 | a delimiter splits the token list into the tokens on its left and the tokens on its right |
| Tokens.ExtractUndelimited | jiit_tt_parser/parser/parse_events.py:228-257 | a text with no delimiter is one token, its stripped self, or no token when it is blank |
| Tokens.ParseClassroomTeacherFormat | jiit_tt_parser/parser/parse_events.py:746-775 | a match splits the text into a room (capital letters, then digits) and a teacher starting with a letter |
| Tokens.ClassroomTeacherRoundTrip | jiit_tt_parser/parser/parse_events.py:746-775 | a room glued to a teacher name splits back into the two |
| Tokens.GetNewFaculty | jiit_tt_parser/parser/parse_events.py:617-638 | a name is produced exactly when the `NF` pattern matches, spelled from its parts |
| Tokens.NewFacultyRoundTrip | jiit_tt_parser/parser/parse_events.py:617-638 | `NF` + letters + digits matches with those parts |
| Tokens.GetTeachingAssistant | jiit_tt_parser/parser/parse_events.py:591-614 | a name is produced exactly when the `TA` pattern matches: "Teaching Assistant" and the number |
| Tokens.TeachingAssistantRoundTrip | jiit_tt_parser/parser/parse_events.py:591-614 | `TA<n>` and `TA-<n>` both read as Teaching Assistant n |
| Tokens.NumberIsNotRoom | jiit_tt_parser/parser/parse_events.py:641-648 | a standalone number is never a classroom code |
| Tokens.CheckClassroomConcatenation | jiit_tt_parser/parser/parse_events.py:703-743 | there is a result exactly when some position holds a room code followed by room numbers, and that position's rooms are joined |
| Tokens.ParseClassAndFaculty | jiit_tt_parser/parser/parse_events.py:651-700 | the decision table: no token, one token, a concatenated room, a first token that is a room, or a last token that is a room |
| Tokens.ParseClassAndFacultyPermutes | jiit_tt_parser/parser/parse_events.py:651-700 | the room and the lecturers are a rearrangement of the input tokens (same multiset) |
| Tokens.ClassroomConcatenation | jiit_tt_parser/parser/parse_events.py:703-743 | lecturers followed by a room code and numbers yield the joined rooms and the lecturers |
| Tokens.LeadingClassroomNotConcatenated | jiit_tt_parser/parser/parse_events.py:651-743 | numbers after a leading room are kept as lecturers |
| Events.DisplayKind | jiit_tt_parser/parser/parse_events.py:204 | the display succeeds exactly for L, T and P; any other first letter raises KeyError |
| Events.Clean | jiit_tt_parser/parser/parse_events.py:88 | the cleaned text has no line break or no-break space, and it is empty exactly when the cell is blank |
| Events.Correct | jiit_tt_parser/parser/parse_events.py:92-102 | a correction that does not fire leaves the text alone; only the `PBG` correction can fail, on the exact text `PBG` |
| Events.CorrectionsOutcome | jiit_tt_parser/parser/parse_events.py:92-105 | the correction table fails only on `PBG`, and it never makes a text empty or non-empty |
| Events.FixCode | jiit_tt_parser/parser/parse_events.py:138-141 | the code is stripped and then replaced by its alias when it has one |
| Events.SubjectName | jiit_tt_parser/parser/parse_events.py:142-145 | a code with no match in the table gives an empty name |
| Events.SubjectOfKey | jiit_tt_parser/parser/parse_events.py:142-145 | a code that is a key of the table gives its name |
| Events.SkipToAlnum | jiit_tt_parser/parser/parse_events.py:147-148 | it succeeds exactly when a letter or digit is left; the result is the suffix starting at the first one |
| Events.Tokenise | jiit_tt_parser/parser/parse_events.py:150-157 | a room glued to a teacher gives the two parts; otherwise the delimiter split |
| Events.Place | jiit_tt_parser/parser/parse_events.py:159-180 | each special rule takes its rooms and lecturers out of the token list without losing tokens; the default rule is the classifier |
| Events.FirstApplicableRule | jiit_tt_parser/parser/parse_events.py:159-180 | the first room rule whose trigger appears decides |
| Events.NoRuleApplies | jiit_tt_parser/parser/parse_events.py:179-180 | with no trigger the room comes from the classifier |
| Events.NormaliseAll | jiit_tt_parser/parser/parse_events.py:182-198 | each lecturer is normalised on its own, in order |
| Events.UnknownLecturerKept | jiit_tt_parser/parser/parse_events.py:182-198 | a plain unknown lecturer token is kept unchanged |
| Events.KnownLecturerNamed | jiit_tt_parser/parser/parse_events.py:184-191 | a known lecturer code becomes the title-cased name from the faculty table |
| Events.NewFacultyLecturer | jiit_tt_parser/parser/parse_events.py:192-194 | an `NF` placeholder becomes the spelled-out new faculty name |
| Events.ParseTalk | jiit_tt_parser/parser/parse_events.py:107-121 | a talk has kind Talk, no lecturers, code TALK, the cell's period and capitalised day, and a venue with no `-` |
| Events.TalkParts | jiit_tt_parser/parser/parse_events.py:107-115 | for a cell `b(mid-v)`, the talk fails exactly when the batches of `b` fail; otherwise its batches are those of `b`, each stripped, and its venue is `v` stripped |
| Events.ParseTyped | jiit_tt_parser/parser/parse_events.py:123-201 | the kind comes from the first letter, with the cell's period and capitalised day |
| Events.ParseEvent | jiit_tt_parser/parser/parse_events.py:79-206 | a blank cell gives no event, `PBG` fails, and any event has the shape of its cell |
| Events.StandardRoundTrip | jiit_tt_parser/parser/parse_events.py:79-206 | every well-formed `<kind><batch range>(<code>)<room>/<lecturer>` cell parses to its own parts |
| Events.ExampleEvent | jiit_tt_parser/parser/parse_events.py:79-206 | `LF2-F6(CS201)CR5/GM` is a lecture for F2..F6 of CS201 in CR5, and its lecturer is the normalised GM |
| Sheet.MaxBounds | jiit_tt_parser/utils/utils.py:11-22 | the bounds are at least 1, each is the row or column of a filled cell, and every filled cell lies within them |
| Sheet.BoundsUnique | jiit_tt_parser/utils/utils.py:11-22 | any pair with those three properties is the bounds |
| Sheet.IsEmptyRow | jiit_tt_parser/utils/utils.py:34-39 | true exactly when every cell of the row's first `cols` columns is empty |
| Sheet.SameMergedGroup | jiit_tt_parser/utils/utils.py:62-88 | true exactly when some merged rectangle holds both cells |
| Sheet.SameMergedGroupSymmetric | jiit_tt_parser/utils/utils.py:62-88 | the relation is symmetric |
| Sheet.MergedRangeFor | jiit_tt_parser/utils/utils.py:91-109 | nothing exactly when no rectangle holds the cell; otherwise the first rectangle, in sheet order, that holds it |
| Sheet.SameGroupWithItself | jiit_tt_parser/utils/utils.py:62-109 | a cell shares a group with itself exactly when some rectangle holds it |
| Walker.TimeRow | jiit_tt_parser/parser/parse_events.py:378-386 | with no header starting with 8 or 9 it is row 2 and all columns; otherwise it is the first header row, cut at the first empty header |
| Walker.DayRow | jiit_tt_parser/parser/parse_events.py:389-396 | -1 exactly when no row's first cell starts the day's name; otherwise the first such row |
| Walker.Periods | jiit_tt_parser/parser/parse_events.py:399-405 | it succeeds exactly when every header reads; then there is one valid period per column from 2 |
| Walker.IsEndOfDay | jiit_tt_parser/parser/parse_events.py:408-430 | a weekday ends when column 1 of the next row holds any value; Saturday ends on a theme-1 fill, at the edge of a merged group, or on an empty row |
| Walker.EndOfDayPastSheet | jiit_tt_parser/parser/parse_events.py:408-430 | below the sheet, only Saturday ends |
| Walker.SearchMerged | jiit_tt_parser/parser/parse_events.py:433-443 | nothing exactly when no one-row range spans the cell; otherwise the right edge of the first one that does |
| Walker.CellText | jiit_tt_parser/parser/parse_events.py:510 | the text has no line break, no no-break space and no lower-case letter, and it is stripped |
| Walker.PeriodAt | jiit_tt_parser/parser/parse_events.py:521-523 | the period covers the column's header, and the merge end's header when there is one |
| Walker.ColumnFrom | jiit_tt_parser/parser/parse_events.py:500-528 | every event of the column is parsed from its cell, lies above the end of the day, and comes in top-down order |
| Walker.ColumnComplete | jiit_tt_parser/parser/parse_events.py:500-528 | every cell above the end that parses to an event is in the column's list |
| Walker.ColumnStopsAtElective | jiit_tt_parser/parser/parse_events.py:512-513 | an elective heading ends the column |
| Walker.ColumnPastSheet | jiit_tt_parser/parser/parse_events.py:408-413 | below the sheet, a Saturday column is empty and any other day never ends |
| Walker.FirstRow | jiit_tt_parser/parser/parse_events.py:497-498 | the walk starts one row lower exactly when column 2 of the day's row starts with 9 |
| Walker.ParseDay | jiit_tt_parser/parser/parse_events.py:446-530 | every event is parsed from a cell of a column from 2 on, at or below the first row and above the end of the day; events are ordered by column, then by row |
| Walker.DayComplete | jiit_tt_parser/parser/parse_events.py:446-530 | every event cell of the day is found |
| Timetable.DayEvents | jiit_tt_parser/parser/parse_events.py:554-571 | a day the sheet does not name gives nothing; every event found comes from that day |
| Timetable.Week | jiit_tt_parser/parser/parse_events.py:552-573 | the week succeeds exactly when every day does, and every event comes from one of the days |
| Timetable.WeekKeeps | jiit_tt_parser/parser/parse_events.py:552-573 | every event of a day is in the week |
| Timetable.AllCourses | jiit_tt_parser/parser/parse_events.py:547-550 | the sheet's courses override the curriculum, and EC112 is set last |
| Timetable.Prepare | jiit_tt_parser/parser/parse_events.py:541-550 | it succeeds exactly when the headers and the course tables read |
| Timetable.ParseEvents | jiit_tt_parser/parser/parse_events.py:533-573 | it succeeds exactly when the set-up and every day read; every event belongs to some day |
| Timetable.ParseEventsKeeps | jiit_tt_parser/parser/parse_events.py:533-573 | every event cell of every named day is in the result |
| Tables.Overlay | jiit_tt_parser/parser/parse_courses.py:70-84 | a key is present when some table has it, and its value comes from the last table that has it |
| Tables.Collect | jiit_tt_parser/parser/parse_courses.py:58-85 | all tables read, or else the first failure is reported |
| Tables.OverlayResults | jiit_tt_parser/parser/parse_courses.py:58-85 | a key written by one table survives, and keeps that table's value when no later table writes it |
| CourseTable.ShortRow | jiit_tt_parser/parser/parse_courses.py:7-22 | a complete layout-1 row maps both codes to the stripped name; an incomplete row writes only the special code |
| CourseTable.SlashedRow | jiit_tt_parser/parser/parse_courses.py:24-41 | it fails exactly when a slashed code does not unpack into two parts; otherwise both halves and the whole map to the name |
| CourseTable.NumberedRow | jiit_tt_parser/parser/parse_courses.py:43-53 | the code, the code without 2 characters and without 5 map to the name |
| CourseTable.Extent | jiit_tt_parser/parser/parse_courses.py:7-53 | the block runs from its first row while the layout's loop condition holds, and stops where it fails |
| CourseTable.ParseDown | jiit_tt_parser/parser/parse_courses.py:4-55 | the table is the overlay of the block's row tables |
| CourseTable.ParseDownKeeps | jiit_tt_parser/parser/parse_courses.py:4-55 | a key of a row survives, and keeps that row's value when no later row writes it |
| CourseTable.HeaderAt | jiit_tt_parser/parser/parse_courses.py:62-84 | layout 1 exactly for a short-code header beside a subject-code header; layout 2 exactly for `SHORT FORM / SUBJECT CODE`, or `SUBJECT CODE` with `Name` on its left, beside `SUBJECT NAME`; layout 3 exactly for `SUBJECT CODE` beside `SUBJECT NAME` with no `Name` on its left; any layout has a code or name header on its right |
| CourseTable.Blocks | jiit_tt_parser/parser/parse_courses.py:60-84 | every header cell in the area is listed, in row-major order |
| CourseTable.ParseCourses | jiit_tt_parser/parser/parse_courses.py:58-85 | it succeeds exactly when every block reads |
| CourseTable.ParseCoursesWritten | jiit_tt_parser/parser/parse_courses.py:58-85 | every key comes from some block |
| CourseTable.ParseCoursesLast | jiit_tt_parser/parser/parse_courses.py:58-85 | a key of a block is present, with that block's value when no later block writes it |
| FacultyTable.SearchBounds | jiit_tt_parser/parser/parse_faculty.py:11-19 | the row bound is the sheet's; the column bound is cut before the first "Time Table Team" cell |
| FacultyTable.TeamFrom | jiit_tt_parser/parser/parse_faculty.py:14-17 | the first "Time Table Team" cell in row-major order, or none |
| FacultyTable.PairCells | jiit_tt_parser/parser/parse_faculty.py:32-33 | the code cells of odd columns, in column-major order |
| FacultyTable.GenerateFacultyMap | jiit_tt_parser/parser/parse_faculty.py:22-39 | a code is a key exactly when it heads a full code/name pair |
| FacultyTable.GenerateLastPair | jiit_tt_parser/parser/parse_faculty.py:32-37 | a code's last pair gives its name |
| FacultyTable.FacultySheetMap | jiit_tt_parser/parser/parse_faculty.py:22-39 | a missing sheet gives an empty table |
| FacultyTable.RunEnd | jiit_tt_parser/parser/parse_faculty.py:44 | the run of filled cells below the heading ends at the first empty cell |
| FacultyTable.Down | jiit_tt_parser/parser/parse_faculty.py:42-56 | the run reads exactly when every row does |
| FacultyTable.DownKeeps | jiit_tt_parser/parser/parse_faculty.py:42-56 | a key of a row survives, and keeps that row's value when no later row writes it |
| FacultyTable.Separator | jiit_tt_parser/parser/parse_faculty.py:46-50 | `-` wins over `;`, which wins over `:` |
| FacultyTable.Entry | jiit_tt_parser/parser/parse_faculty.py:52-53 | it fails exactly when the entry does not split into two parts; otherwise the stripped code maps to the stripped name |
| FacultyTable.EntryDash | jiit_tt_parser/parser/parse_faculty.py:46-53 | `code - name` reads as code to name |
| FacultyTable.EntryNoSeparator | jiit_tt_parser/parser/parse_faculty.py:52 | an entry with no separator fails to unpack |
| FacultyTable.FacultyDown | jiit_tt_parser/parser/parse_faculty.py:42-56 | the run reads exactly when every entry in it does |
| FacultyTable.Sem1Map | jiit_tt_parser/parser/parse_faculty.py:71-86 | a missing sheet gives an empty table; otherwise it is the scan of "Faculty Abbreviation with Names" headings |
| FacultyTable.Scan | jiit_tt_parser/parser/parse_faculty.py:78-84 | the scan reads exactly when every heading's block does |
| FacultyTable.ScanKeeps | jiit_tt_parser/parser/parse_faculty.py:109-130 | a key of a heading's block survives, and keeps that block's value when no later block writes it |
| FacultyTable.BcaDown | jiit_tt_parser/parser/parse_faculty.py:89-96 | the left cells are the keys, and each maps to the right cell of its last row |
| FacultyTable.Sem4Down | jiit_tt_parser/parser/parse_faculty.py:99-106 | the right cells are the keys, and each maps to the left cell of its last row |
| FacultyTable.BcaMap | jiit_tt_parser/parser/parse_faculty.py:109-118 | the scan of "Faculty Abbreviation" headings over their two-column lists |
| FacultyTable.Sem4Map | jiit_tt_parser/parser/parse_faculty.py:121-130 | the scan of "Faculty Names" headings over their swapped lists |
| FacultyTable.BcaSheetMap | jiit_tt_parser/parser/parse_faculty.py:133-142 | a missing sheet gives an empty table |
| FacultyTable.GetFacultyMap | jiit_tt_parser/parser/parse_faculty.py:157-172 | it fails only when the sem-1 sheet fails; otherwise it holds every key of the five tables, the last (fac128) table's entries win, and the second faculty workbook's entries survive wherever the two later tables are silent |
| FacultyTable.Merge | jiit_tt_parser/parser/parse_faculty.py:164-170 | a key comes from any table, and its value is the last table's that has it |
| ElectiveTable.MatchNumbered | jiit_tt_parser/parser/parse_electives.py:35-37 | there is no match exactly when no cut leaves a non-empty, line-break-free prefix and a digit run to the end; a match is such a cut, with the shortest prefix the digits allow |
| ElectiveTable.MatchNumberedComplete | jiit_tt_parser/parser/parse_electives.py:35-37 | a prefix not ending in a digit, followed by digits, matches into those parts |
| ElectiveTable.MatchNumberedAllDigits | jiit_tt_parser/parser/parse_electives.py:35-37 | an all-digit base of two or more digits splits after its first digit, as the lazy prefix does |
| ElectiveTable.BeforeSlash | jiit_tt_parser/parser/parse_electives.py:32 | the base is the text before the first slash |
| ElectiveTable.RowTable | jiit_tt_parser/parser/parse_electives.py:27-41 | every key maps to the stripped subject; an unslashed code is the only key, while a slashed code keeps its base and the next number |
| ElectiveTable.ParseElectives | jiit_tt_parser/parser/parse_electives.py:25-43 | a key is present exactly when some row writes it, with the value of the last row that does |
| ElectiveTable.NextCodeDiffers | jiit_tt_parser/parser/parse_electives.py:38 | the next code always differs from the base |

## Left out

- Character classes are ASCII only. `IsSpace`, `IsLetter`, `IsDigit`, `Upper` and `Lower` in `Text` do not follow Python's Unicode tables. The cell texts the program reads are ASCII apart from the no-break space, which is modelled explicitly.
- `str.title` is a parameter (`title: string -> string`). No contract depends on its behaviour.
- `print` calls (parse_events.py:89, 202-204) are left out as output. The one exception is `print(ev)` at line 204, which calls `Event.__str__` (lines 208-225). That method looks the event type up in a dictionary, so a first letter other than L, T or P raises `KeyError` and aborts the parse. `Events.DisplayKind` keeps that failure. The rest of the display text is left out.
- `Period.__str__` (lines 62-63) is display only and is not modelled.
- All file and network I/O is left out: `load_workbook`, `load_map`, `download`, `cvt_xls_to_xlsx`, `print_worksheet`, `load_worksheet`, and `pd.read_excel` in parse_electives.py. The workbook is given as a `Sheet.Grid`. The JSON maps are given as tables. The electives file is given as its rows.
- `parse_electives` at parse_events.py:545 is called and its result discarded. It is not part of `Timetable.ParseEvents`.
- The `KeyError` from `curriculum["courses"]` (line 548) is not modelled. The curriculum's course table is given directly.
- `sheet.merged_cells.sorted()` (line 543) is a parameter. `Timetable.ParseEvents` requires it to hold the sheet's merged rectangles: `multiset(ranges) == multiset(g.merged)`.
- openpyxl rejects rows and columns below 1. The walk never asks for them, and `Sheet.Grid` answers `None` there.
- Timetable.ParseEvents: events are returned as `Walker.Found`, which holds the cell's row and column next to the event. This is what lets the contracts say which cell each event came from.
- Walker.ColumnPastSheet: on a day other than Saturday, a column that runs past the last row never ends in the source (line 413 keeps reading empty cells). The model reports this as a `Diverges` failure rather than looping.
- Walker.ParseDay takes the cell cleaning and the cell parser from its `Walk` value. `Timetable.DayWalk` fills them in with `Walker.CellText` and `Events.ParseEvent`.
- FacultyTable.BcaDown and FacultyTable.Sem4Down state their tables through `ListKey` and `ListName`. These are the stripped left and right cells of each row.
- `check_list_classroom_teacher_format` (parse_events.py:778-804) and `contains_number` are never called by the program and are not modelled.
- The other files of the repository are not part of this model: the command-line entry point, the downloaders, the JSON exporters and the commented-out `generate_faculty_128`.

=== FILE: batches.dfy ===
/** The batch grammar of jiit_tt_parser/parser/parse_events.py
    (`parse_batches`, `parse_range`, `parse_concatenated`,
    `is_string_only_format`): `C1-C3,5` or `F2F3F6F7` becomes an ordered list
    of batch names. A bare number takes the most recently seen letter. */
module Batches {
  import opened Wrappers
  import opened Text

  /** A batch name as the letter-number grammar produces it: one upper-case
      letter followed by decimal digits. */
  predicate IsBatchCode(b: string) {
    |b| >= 2 && IsUpper(b[0]) && IsDigits(b[1..])
  }

  // ---------------------------------------------------------------------------
  // Ranges: ^([A-Z])(\d+)-([A-Z]?)(\d+)$
  // ---------------------------------------------------------------------------

  /** The four groups of the range pattern. */
  datatype RangeGroups = RangeGroups(letter: char, first: string, endLetter: string, last: string) {
    predicate WellFormed() {
      IsUpper(letter) && IsDigits(first) && IsDigits(last) && |endLetter| <= 1 && AllUpper(endLetter)
    }

    function Text(): string {
      [letter] + first + "-" + endLetter + last
    }
  }

  /** `re.match(r"^([A-Z])(\d+)-([A-Z]?)(\d+)$", s)` */
  function MatchRange(s: string): (r: Option<RangeGroups>)
    ensures r.Some? ==> r.value.WellFormed() && Chomp(s) == r.value.Text()
  {
    var t := Chomp(s);
    if |t| < 4 || !IsUpper(t[0]) then None
    else
      var n := DigitRun(t, 1);
      if n == 0 || 1 + n >= |t| || t[1 + n] != '-' then None
      else
        var m := if 2 + n < |t| && IsUpper(t[2 + n]) then 1 else 0;
        var last := t[2 + n + m..];
        if IsDigits(last) then
          RangeTextSplits(t, n, m);
          Some(RangeGroups(t[0], t[1..1 + n], t[2 + n..2 + n + m], last))
        else None
  }

  /** The text cut into letter, first number, dash, end letter and last number
      gives well-formed groups whose text is the whole. */
  lemma RangeTextSplits(t: string, n: nat, m: nat)
    requires 2 + n + m <= |t| && t[1 + n] == '-' && m <= 1 && n > 0
    requires IsUpper(t[0]) && forall k :: 1 <= k < 1 + n ==> IsDigit(t[k])
    requires m == 1 ==> IsUpper(t[2 + n])
    requires IsDigits(t[2 + n + m..])
    ensures var g := RangeGroups(t[0], t[1..1 + n], t[2 + n..2 + n + m], t[2 + n + m..]);
      g.WellFormed() && g.Text() == t
  {
    var u := [t[0]] + t[1..1 + n] + "-" + t[2 + n..2 + n + m] + t[2 + n + m..];
    forall i | 0 <= i < |t| ensures u[i] == t[i] {
    }
    var d := t[1..1 + n];
    assert IsDigits(d) by {
      forall k | 0 <= k < |d| ensures IsDigit(d[k]) {
        assert d[k] == t[1 + k];
      }
    }
  }

  /** Every text of the range shape is recognised, with its own groups. */
  lemma MatchRangeComplete(g: RangeGroups)
    requires g.WellFormed()
    ensures MatchRange(g.Text()) == Some(g)
  {
    var t := g.Text();
    assert t[|t| - 1] == g.last[|g.last| - 1];
    assert Chomp(t) == t;
    var n := DigitRun(t, 1);
    assert t[1..1 + |g.first|] == g.first;
    assert t[1 + |g.first|] == '-';
    assert n == |g.first|;
    var rest := t[2 + n..];
    assert rest == g.endLetter + g.last;
  }

  /** `r` is the batches `L a`, `L a+1`, ..., `L b` in order. */
  predicate Enumerates(r: seq<string>, letter: char, a: nat, b: nat) {
    && |r| == b - a + 1
    && forall k :: 0 <= k < |r| ==> r[k] == [letter] + NatToString(a + k)
  }

  /** `[f"{L}{i}" for i in range(a, b + 1)]` */
  function RangeList(letter: char, a: nat, b: nat): (r: seq<string>)
    requires a <= b
    ensures Enumerates(r, letter, a, b)
  {
    seq(b - a + 1, k requires 0 <= k < b - a + 1 => [letter] + NatToString(a + k))
  }

  /** `parse_range`: the shape must match, an end letter (when present) must be
      the start letter, and the start must not exceed the end. */
  function ParseRange(s: string): (r: Result<seq<string>>)
    ensures match MatchRange(s)
      case None => r.Failure?
      case Some(g) =>
        && (r.Success? <==> (g.endLetter == "" || g.endLetter == [g.letter]) && DigitsValue(g.first) <= DigitsValue(g.last))
        && (r.Success? ==> Enumerates(r.value, g.letter, DigitsValue(g.first), DigitsValue(g.last)))
  {
    match MatchRange(s)
    case None => Failure(ValueError("Invalid range format"))
    case Some(g) =>
      if g.endLetter != "" && g.endLetter != [g.letter] then
        Failure(ValueError("Range cannot span different letters"))
      else
        var a := DigitsValue(g.first);
        var b := DigitsValue(g.last);
        if a > b then Failure(ValueError("Invalid range order"))
        else Success(RangeList(g.letter, a, b))
  }

  /** `L a-b` and `L a-L b` with `a <= b` expand to the `b - a + 1` batches
      `L a, L a+1, ..., L b`, numbers written without leading zeros. */
  lemma ParseRangeExpands(letter: char, first: string, sameLetter: bool, last: string)
    requires IsUpper(letter) && IsDigits(first) && IsDigits(last)
    requires DigitsValue(first) <= DigitsValue(last)
    ensures ParseRange([letter] + first + "-" + (if sameLetter then [letter] else "") + last)
         == Success(RangeList(letter, DigitsValue(first), DigitsValue(last)))
  {
    var g := RangeGroups(letter, first, if sameLetter then [letter] else "", last);
    MatchRangeComplete(g);
  }

  /** A range whose end letter differs from its start letter is rejected. */
  lemma ParseRangeLetterMismatch(letter: char, first: string, other: char, last: string)
    requires IsUpper(letter) && IsUpper(other) && letter != other
    requires IsDigits(first) && IsDigits(last)
    ensures ParseRange([letter] + first + "-" + [other] + last).Failure?
  {
    MatchRangeComplete(RangeGroups(letter, first, [other], last));
  }

  /** A descending range is rejected. */
  lemma ParseRangeDescending(letter: char, first: string, last: string)
    requires IsUpper(letter) && IsDigits(first) && IsDigits(last)
    requires DigitsValue(first) > DigitsValue(last)
    ensures ParseRange([letter] + first + "-" + last).Failure?
  {
    var g := RangeGroups(letter, first, "", last);
    MatchRangeComplete(g);
    assert MatchRange(g.Text()) == Some(g);
    assert g.Text() == [letter] + first + "-" + last;
  }

  // ---------------------------------------------------------------------------
  // Concatenations: ^[A-Z]\d+([A-Z]\d+)+$ and re.findall(r"([A-Z])(\d+)", s)
  // ---------------------------------------------------------------------------

  /** One letter-number pair. */
  datatype Pair = Pair(letter: char, number: string) {
    predicate WellFormed() {
      IsUpper(letter) && IsDigits(number)
    }

    function Text(): string {
      [letter] + number
    }
  }

  function PairsText(ps: seq<Pair>): string {
    if ps == [] then [] else ps[0].Text() + PairsText(ps[1..])
  }

  function PairTexts(ps: seq<Pair>): (r: seq<string>)
    ensures |r| == |ps| && forall k :: 0 <= k < |ps| ==> r[k] == ps[k].Text()
  {
    seq(|ps|, k requires 0 <= k < |ps| => ps[k].Text())
  }

  predicate AllWellFormed(ps: seq<Pair>) {
    forall k :: 0 <= k < |ps| ==> ps[k].WellFormed()
  }

  /** Reads the whole text as letter-number pairs, or fails. */
  function Pairs(s: string): (r: Option<seq<Pair>>)
    ensures r.Some? ==> AllWellFormed(r.value) && PairsText(r.value) == s
    decreases |s|
  {
    if s == [] then Some([])
    else if |s| >= 2 && IsUpper(s[0]) && IsDigit(s[1]) then
      var n := DigitRun(s, 1);
      var rest :- Pairs(s[1 + n..]);
      var p := Pair(s[0], s[1..1 + n]);
      PairCons(s, n, p, rest);
      Some([p] + rest)
    else None
  }

  /** The pair read at the front of `s`, followed by the pairs of the rest, covers `s`. */
  lemma PairCons(s: string, n: nat, p: Pair, rest: seq<Pair>)
    requires 0 < n && 1 + n <= |s| && p == Pair(s[0], s[1..1 + n])
    requires IsUpper(s[0]) && forall k :: 1 <= k < 1 + n ==> IsDigit(s[k])
    requires AllWellFormed(rest) && PairsText(rest) == s[1 + n..]
    ensures AllWellFormed([p] + rest) && PairsText([p] + rest) == s
  {
    var ps := [p] + rest;
    assert ps[0] == p && ps[1..] == rest;
    assert p.WellFormed() by {
      forall k | 0 <= k < n ensures IsDigit(p.number[k]) {
        assert p.number[k] == s[1 + k];
      }
    }
    assert s == p.Text() + s[1 + n..];
  }

  /** `re.match(r"^[A-Z]\d+([A-Z]\d+)+$", s)`: two or more pairs. */
  predicate IsConcatenated(s: string) {
    var ps := Pairs(Chomp(s));
    ps.Some? && |ps.value| >= 2
  }

  /** `re.findall(r"([A-Z])(\d+)", s)`: every pair, scanning left to right. */
  function FindPairs(s: string): (r: seq<Pair>)
    ensures AllWellFormed(r)
    decreases |s|
  {
    if |s| < 2 then []
    else if IsUpper(s[0]) && IsDigit(s[1]) then
      var n := DigitRun(s, 1);
      [Pair(s[0], s[1..1 + n])] + FindPairs(s[1 + n..])
    else FindPairs(s[1..])
  }

  /** `parse_concatenated` */
  function ParseConcatenated(s: string): (r: Result<seq<string>>)
    ensures r.Success? <==> FindPairs(s) != []
    ensures r.Success? ==> r.value == PairTexts(FindPairs(s))
  {
    var ps := FindPairs(s);
    if ps == [] then Failure(ValueError("No valid batch codes found"))
    else Success(PairTexts(ps))
  }

  /** The letter-number pairs of a text that is made only of such pairs
      are rendered back in order. */
  lemma {:induction false} PairsComplete(ps: seq<Pair>)
    requires AllWellFormed(ps)
    ensures Pairs(PairsText(ps)) == Some(ps)
    ensures FindPairs(PairsText(ps)) == ps
    decreases |ps|
  {
    if ps != [] {
      var p := ps[0];
      var tail := PairsText(ps[1..]);
      assert tail != [] ==> IsUpper(tail[0]) by {
        if tail != [] {
          assert tail[0] == ps[1].letter;
        }
      }
      PairsComplete(ps[1..]);
      PairFront(p, tail);
      assert PairsText(ps) == [p.letter] + p.number + tail;
      assert ps == [p] + ps[1..];
    }
  }

  /** A pair followed by a letter (or nothing) is read as that pair. */
  lemma PairFront(p: Pair, tail: string)
    requires p.WellFormed() && (tail != [] ==> IsUpper(tail[0]))
    ensures var s := [p.letter] + p.number + tail;
      && DigitRun(s, 1) == |p.number|
      && s[1..1 + |p.number|] == p.number && s[1 + |p.number|..] == tail
  {
    var s := [p.letter] + p.number + tail;
    var n := |p.number|;
    assert s[1..1 + n] == p.number;
    assert 1 + n < |s| ==> s[1 + n] == tail[0];
    assert s[1 + n..] == tail;
  }

  /** A concatenated part splits into its pairs, in order. */
  lemma ConcatenatedIsPairs(s: string)
    requires IsConcatenated(s)
    ensures ParseConcatenated(s) == Success(PairTexts(Pairs(Chomp(s)).value))
  {
    var ps := Pairs(Chomp(s)).value;
    PairsComplete(ps);
    if Chomp(s) != s {
      FindPairsNewline(Chomp(s));
    }
  }

  /** A final newline adds no pair. */
  lemma {:induction false} FindPairsNewline(t: string)
    ensures FindPairs(t + "\n") == FindPairs(t)
    decreases |t|
  {
    var s := t + "\n";
    if |t| >= 2 && IsUpper(t[0]) && IsDigit(t[1]) {
      var n := DigitRun(t, 1);
      assert s[1..1 + n] == t[1..1 + n];
      assert DigitRun(s, 1) == n by {
        if 1 + n < |t| {
          assert s[1 + n] == t[1 + n];
        } else {
          assert s[1 + n] == '\n';
        }
      }
      assert s[1 + n..] == t[1 + n..] + "\n";
      FindPairsNewline(t[1 + n..]);
    } else if |t| >= 2 {
      assert s[1..] == t[1..] + "\n";
      FindPairsNewline(t[1..]);
    } else if |t| == 1 {
      assert !IsDigit(s[1]);
      assert s[1..] == "\n";
    }
  }

  /** `F2F3F6F7` gives `F2, F3, F6, F7`. */
  lemma ConcatenatedExample()
    ensures ParseConcatenated("F2F3F6F7") == Success(["F2", "F3", "F6", "F7"])
  {
    var ps := [Pair('F', "2"), Pair('F', "3"), Pair('F', "6"), Pair('F', "7")];
    ExamplePairs(ps);
    PairsComplete(ps);
  }

  lemma ExamplePairs(ps: seq<Pair>)
    requires ps == [Pair('F', "2"), Pair('F', "3"), Pair('F', "6"), Pair('F', "7")]
    ensures AllWellFormed(ps)
    ensures PairsText(ps) == "F2F3F6F7" && PairTexts(ps) == ["F2", "F3", "F6", "F7"]
  {
    ExamplePairsText(ps);
    var texts := PairTexts(ps);
    assert texts[0] == "F2" && texts[1] == "F3" && texts[2] == "F6" && texts[3] == "F7";
  }

  lemma ExamplePairsText(ps: seq<Pair>)
    requires ps == [Pair('F', "2"), Pair('F', "3"), Pair('F', "6"), Pair('F', "7")]
    ensures PairsText(ps) == "F2F3F6F7"
  {
    assert PairsText(ps[3..]) == "F7";
    assert PairsText(ps[2..]) == "F6" + "F7";
    assert PairsText(ps[1..]) == "F3" + "F6F7";
  }

  // ---------------------------------------------------------------------------
  // parse_batches
  // ---------------------------------------------------------------------------

  /** `re.match(r"^[A-Z]\d+$", s)` */
  predicate IsSingle(s: string) {
    IsBatchCode(Chomp(s))
  }

  /** `re.search(r"[A-Z]\d+", s)` */
  predicate HasBatchCode(s: string) {
    exists i :: 0 <= i < |s| - 1 && IsUpper(s[i]) && IsDigit(s[i + 1])
  }

  /** `is_string_only_format`: no letter-number pair anywhere and not a
      bare number. */
  predicate IsStringOnly(part: string) {
    !IsSingle(part) && !HasBatchCode(part) && !IsDigits(part)
  }

  /** The comma-separated parts, spaces removed, blank parts dropped. */
  function Parts(s: string): seq<string> {
    NonBlank(Split(RemoveChar(s, ' '), ','))
  }

  predicate AllStringOnly(parts: seq<string>) {
    forall k :: 0 <= k < |parts| ==> IsStringOnly(parts[k])
  }

  /** The letter a part makes current, if it sets one. */
  function LetterOf(part: string): Option<char> {
    if '-' in part then
      match MatchRange(part)
      case Some(g) => Some(g.letter)
      case None => None
    else if IsConcatenated(part) then
      var ps := FindPairs(part);
      if ps == [] then None else Some(Last(ps).letter)
    else if IsDigits(part) then None
    else if IsSingle(part) then Some(part[0])
    else None
  }

  /** One iteration of the loop of `parse_batches`: the batches the part
      contributes and the current letter after it. */
  function ExpandPart(part: string, current: Option<char>): (r: Result<(seq<string>, Option<char>)>)
    ensures r.Success? ==> r.value.1 == (if LetterOf(part).Some? then LetterOf(part) else current)
  {
    if part == [] then Success(([], current))
    else if '-' in part then
      var out :- ParseRange(part);
      Success((out, Some(MatchRange(part).value.letter)))
    else if IsConcatenated(part) then
      var out :- ParseConcatenated(part);
      Success((out, Some(Last(FindPairs(part)).letter)))
    else if IsDigits(part) then
      match current
      case None => Failure(ValueError("Number found without a preceding letter"))
      case Some(letter) => Success(([[letter] + part], current))
    else if IsSingle(part) then Success(([part], Some(part[0])))
    else Failure(ValueError("Invalid batch format"))
  }

  /** The loop of `parse_batches` from a given current letter. */
  function Expand(parts: seq<string>, current: Option<char>): Result<(seq<string>, Option<char>)>
  {
    if parts == [] then Success(([], current))
    else
      var head :- ExpandPart(parts[0], current);
      var tail :- Expand(parts[1..], head.1);
      Success((head.0 + tail.0, tail.1))
  }

  /** `parse_batches` */
  function ParseBatches(s: string): (r: Result<seq<string>>)
    ensures Strip(s) == [] ==> r == Success([])
    ensures Strip(s) != [] && AllStringOnly(Parts(s)) ==> r == Success(Parts(s))
  {
    if Strip(s) == [] then Success([])
    else
      var parts := Parts(s);
      if AllStringOnly(parts) then Success(parts)
      else
        var expanded :- Expand(parts, None);
        Success(expanded.0)
  }

  // ---------------------------------------------------------------------------
  // Properties of the loop
  // ---------------------------------------------------------------------------

  /** Running the loop over two lists of parts in a row is running it over
      their concatenation: the current letter carries across. */
  lemma {:induction false} ExpandAppend(a: seq<string>, b: seq<string>, current: Option<char>)
    ensures Expand(a + b, current) ==
      match Expand(a, current)
      case Failure(e) => Failure(e)
      case Success(x) =>
        match Expand(b, x.1)
        case Failure(e) => Failure(e)
        case Success(y) => Success((x.0 + y.0, y.1))
    decreases |a|
  {
    if a == [] {
      assert a + b == b;
      match Expand(b, current)
      case Failure(e) =>
      case Success(y) =>
        assert [] + y.0 == y.0;
    } else {
      assert (a + b)[0] == a[0];
      assert (a + b)[1..] == a[1..] + b;
      match ExpandPart(a[0], current)
      case Failure(e) =>
      case Success(h) =>
        ExpandAppend(a[1..], b, h.1);
        match Expand(a[1..], h.1)
        case Failure(e) =>
        case Success(x) =>
          match Expand(b, x.1)
          case Failure(e) =>
          case Success(y) =>
            assert h.0 + (x.0 + y.0) == (h.0 + x.0) + y.0;
    }
  }

  /** The current letter stays an upper-case letter. */
  lemma LetterOfIsUpper(part: string)
    requires LetterOf(part).Some?
    ensures IsUpper(LetterOf(part).value)
  {
    if !('-' in part) && IsConcatenated(part) {
      var ps := FindPairs(part);
      assert Last(ps).WellFormed();
    } else if !('-' in part) && !IsConcatenated(part) && !IsDigits(part) && IsSingle(part) {
      assert Chomp(part)[0] == part[0];
    }
  }

  /** Parts without a trailing newline, as `strip()` leaves them. */
  predicate Unchomped(parts: seq<string>) {
    forall k :: 0 <= k < |parts| ==> Chomp(parts[k]) == parts[k]
  }

  /** Outside the free-form branch, every produced batch is one upper-case
      letter followed by digits. */
  lemma {:induction false} ExpandYieldsCodes(parts: seq<string>, current: Option<char>)
    requires Unchomped(parts)
    requires current.Some? ==> IsUpper(current.value)
    requires Expand(parts, current).Success?
    ensures forall k :: 0 <= k < |Expand(parts, current).value.0| ==> IsBatchCode(Expand(parts, current).value.0[k])
    decreases |parts|
  {
    if parts != [] {
      var p := parts[0];
      var head := ExpandPart(p, current).value;
      assert Unchomped(parts[1..]) by {
        forall k | 0 <= k < |parts[1..]| ensures Chomp(parts[1..][k]) == parts[1..][k] {
          assert parts[1..][k] == parts[k + 1];
        }
      }
      if LetterOf(p).Some? {
        LetterOfIsUpper(p);
      }
      ExpandYieldsCodes(parts[1..], head.1);
      PartYieldsCodes(p, current);
    }
  }

  lemma PartYieldsCodes(p: string, current: Option<char>)
    requires Chomp(p) == p
    requires current.Some? ==> IsUpper(current.value)
    requires ExpandPart(p, current).Success?
    ensures forall k :: 0 <= k < |ExpandPart(p, current).value.0| ==> IsBatchCode(ExpandPart(p, current).value.0[k])
  {
    if p == [] {
    } else if '-' in p {
      RangeYieldsCodes(p);
    } else if IsConcatenated(p) {
      ConcatenatedYieldsCodes(p);
    } else if IsDigits(p) {
      var out := ExpandPart(p, current).value.0;
      assert out == [[current.value] + p];
      assert out[0][1..] == p;
    }
  }

  lemma RangeYieldsCodes(p: string)
    requires ParseRange(p).Success?
    ensures forall k :: 0 <= k < |ParseRange(p).value| ==> IsBatchCode(ParseRange(p).value[k])
  {
    var out := ParseRange(p).value;
    var g := MatchRange(p).value;
    forall k | 0 <= k < |out| ensures IsBatchCode(out[k]) {
      LetterNumber(g.letter, DigitsValue(g.first) + k);
    }
  }

  lemma LetterNumber(c: char, n: nat)
    requires IsUpper(c)
    ensures IsBatchCode([c] + NatToString(n))
  {
    assert ([c] + NatToString(n))[1..] == NatToString(n);
  }

  lemma ConcatenatedYieldsCodes(p: string)
    requires ParseConcatenated(p).Success?
    ensures forall k :: 0 <= k < |ParseConcatenated(p).value| ==> IsBatchCode(ParseConcatenated(p).value[k])
  {
    var out := ParseConcatenated(p).value;
    var ps := FindPairs(p);
    forall k | 0 <= k < |out| ensures IsBatchCode(out[k]) {
      assert ps[k].WellFormed();
      assert out[k][1..] == ps[k].number;
    }
  }

  /** Every batch `parse_batches` returns outside the free-form branch is a
      letter followed by digits. */
  lemma ParseBatchesYieldsCodes(s: string)
    requires ParseBatches(s).Success?
    requires Strip(s) != [] && !AllStringOnly(Parts(s))
    ensures forall k :: 0 <= k < |ParseBatches(s).value| ==> IsBatchCode(ParseBatches(s).value[k])
  {
    StrippedUnchomped(Parts(s));
    ExpandYieldsCodes(Parts(s), None);
  }

  lemma StrippedUnchomped(parts: seq<string>)
    requires AllStripped(parts)
    ensures Unchomped(parts)
  {
    forall k | 0 <= k < |parts| ensures Chomp(parts[k]) == parts[k] {
      StrippedUnchomp(parts[k]);
    }
  }

  lemma StrippedUnchomp(p: string)
    requires p != [] && p == Strip(p)
    ensures Chomp(p) == p
  {
    assert !IsSpace(p[|p| - 1]);
  }

  /** The loop over one part is that part's iteration. */
  lemma ExpandOne(part: string, current: Option<char>)
    ensures Expand([part], current) ==
      match ExpandPart(part, current)
      case Failure(e) => Failure(e)
      case Success(x) => Success(x)
  {
    assert [part][1..] == [];
    match ExpandPart(part, current)
    case Failure(e) =>
    case Success(x) =>
      assert x.0 + [] == x.0;
  }

  /** A bare number is written after the current letter, and is an error
      when there is none. */
  lemma ExpandNumber(number: string, current: Option<char>)
    requires IsDigits(number)
    ensures current.None? ==> ExpandPart(number, current).Failure?
    ensures current.Some? ==> ExpandPart(number, current) == Success(([[current.value] + number], current))
  {
    assert !('-' in number);
    assert !IsConcatenated(number) by {
      assert Chomp(number) == number;
      assert !IsUpper(number[0]);
    }
  }

  /** A bare number takes the letter of the most recent letter-setting part,
      whatever came before it. */
  lemma BareNumberInherits(before: seq<string>, code: string, number: string, current: Option<char>)
    requires LetterOf(code).Some? && IsDigits(number)
    requires Expand(before + [code], current).Success?
    ensures Expand(before + [code, number], current)
         == Success((Expand(before + [code], current).value.0 + [[LetterOf(code).value] + number], LetterOf(code)))
  {
    var x := Expand(before + [code], current).value;
    ExpandAppend(before + [code], [number], current);
    assert before + [code, number] == (before + [code]) + [number];
    ExpandAppend(before, [code], current);
    var y := Expand(before, current).value;
    ExpandOne(code, y.1);
    assert x.1 == LetterOf(code);
    ExpandOne(number, x.1);
    ExpandNumber(number, x.1);
  }

  /** A bare number before any letter is an error. */
  lemma BareNumberFirstFails(number: string, rest: seq<string>)
    requires IsDigits(number)
    ensures Expand([number] + rest, None).Failure?
  {
    ExpandNumber(number, None);
  }

  /** A part of no recognised shape is an error. */
  lemma UnknownPartFails(part: string, current: Option<char>)
    requires part != [] && !('-' in part) && !IsConcatenated(part) && !IsDigits(part) && !IsSingle(part)
    ensures ExpandPart(part, current).Failure?
  {
  }

  /** Text made of upper-case letters and digits only: no space, comma,
      dash or white space. */
  predicate Plain(s: string) {
    s != [] && forall i :: 0 <= i < |s| ==> IsUpper(s[i]) || IsDigit(s[i])
  }

  lemma PlainStrips(a: string)
    requires Plain(a)
    ensures ' ' !in a && ',' !in a && !('-' in a)
    ensures Strip(a) == a
  {
    StripKeeps(a, WhiteSpace);
    forall i | 0 <= i < |a| ensures a[i] != ' ' && a[i] != ',' && a[i] != '-' {
      assert IsUpper(a[i]) || IsDigit(a[i]);
    }
  }

  lemma PlainPart(a: string)
    requires Plain(a)
    ensures Strip(a) != [] && Parts(a) == [a]
  {
    PlainStrips(a);
    RemoveCharAbsent(a, ' ');
    SplitNoSep(a, ',');
  }

  /** A text with a letter followed by a digit is not free-form. */
  lemma NotStringOnly(parts: seq<string>, k: nat, i: nat)
    requires k < |parts| && i + 1 < |parts[k]|
    requires IsUpper(parts[k][i]) && IsDigit(parts[k][i + 1])
    ensures !AllStringOnly(parts)
  {
    assert HasBatchCode(parts[k]);
  }

  /** A range part expands to its batches and makes its letter current. */
  lemma ExpandRange(g: RangeGroups, current: Option<char>)
    requires g.WellFormed() && (g.endLetter == "" || g.endLetter == [g.letter])
    requires DigitsValue(g.first) <= DigitsValue(g.last)
    ensures ExpandPart(g.Text(), current)
         == Success((RangeList(g.letter, DigitsValue(g.first), DigitsValue(g.last)), Some(g.letter)))
  {
    var t := g.Text();
    MatchRangeComplete(g);
    assert ParseRange(t) == Success(RangeList(g.letter, DigitsValue(g.first), DigitsValue(g.last)));
    assert '-' in t by {
      assert t[1 + |g.first|] == '-';
    }
  }

  /** Outside the free-form branch, `parse_batches` returns what the loop
      produces from no current letter. */
  lemma ParseBatchesByLoop(s: string, out: (seq<string>, Option<char>))
    requires Strip(s) != [] && !AllStringOnly(Parts(s))
    requires Expand(Parts(s), None) == Success(out)
    ensures ParseBatches(s) == Success(out.0)
  {
  }

  /** Two comma-separated parts with no spaces, commas or surrounding white
      space are read as they are. */
  lemma TwoParts(a: string, b: string)
    requires a != [] && b != [] && ' ' !in a && ' ' !in b && ',' !in a && ',' !in b
    requires !IsSpace(a[0]) && !IsSpace(a[|a| - 1]) && !IsSpace(b[0]) && !IsSpace(b[|b| - 1])
    ensures Strip(a + "," + b) != [] && Parts(a + "," + b) == [a, b]
  {
    var s := a + "," + b;
    assert s == a + [','] + b;
    assert ' ' !in s;
    RemoveCharAbsent(s, ' ');
    SplitAt(a, b, ',');
    SplitNoSep(b, ',');
    assert Split(s, ',') == [a, b];
    StripKeeps(a, WhiteSpace);
    StripKeeps(b, WhiteSpace);
    NonBlankKeeps([a, b]);
    assert s[0] == a[0] && s[|s| - 1] == b[|b| - 1];
    StripKeeps(s, WhiteSpace);
  }

  /** The text of a range has no space or comma, starts with a letter and
      ends with a digit. */
  lemma RangeTextPlain(g: RangeGroups)
    requires g.WellFormed()
    ensures ' ' !in g.Text() && ',' !in g.Text()
    ensures forall i :: 0 <= i < |g.Text()| ==> IsUpper(g.Text()[i]) || IsDigit(g.Text()[i]) || g.Text()[i] == '-'
    ensures IsUpper(g.Text()[0]) && IsDigit(g.Text()[1]) && IsDigit(g.Text()[|g.Text()| - 1])
  {
    var t := g.Text();
    assert t[0] == g.letter && t[1] == g.first[0];
    assert t[|t| - 1] == g.last[|g.last| - 1];
    forall i | 0 <= i < |t| ensures IsUpper(t[i]) || IsDigit(t[i]) || t[i] == '-' {
      if i == 0 {
      } else if i < 1 + |g.first| {
        assert t[i] == g.first[i - 1];
      } else if i == 1 + |g.first| {
      } else if i < 2 + |g.first| + |g.endLetter| {
        assert t[i] == g.endLetter[i - 2 - |g.first|];
      } else {
        assert t[i] == g.last[i - 2 - |g.first| - |g.endLetter|];
      }
    }
  }

  lemma ExpandRangeThenNumber(g: RangeGroups, number: string)
    requires g.WellFormed() && (g.endLetter == "" || g.endLetter == [g.letter])
    requires DigitsValue(g.first) <= DigitsValue(g.last)
    requires IsDigits(number)
    ensures Expand([g.Text(), number], None)
         == Success((RangeList(g.letter, DigitsValue(g.first), DigitsValue(g.last)) + [[g.letter] + number], Some(g.letter)))
  {
    var t := g.Text();
    ExpandAppend([t], [number], None);
    assert [t, number] == [t] + [number];
    ExpandOne(t, None);
    ExpandRange(g, None);
    ExpandOne(number, Some(g.letter));
    ExpandNumber(number, Some(g.letter));
  }

  /** A range followed by a bare number: the number takes the range's letter,
      as in `C1-C3,5` giving C1, C2, C3, C5. */
  lemma RangeThenNumber(g: RangeGroups, number: string)
    requires g.WellFormed() && (g.endLetter == "" || g.endLetter == [g.letter])
    requires DigitsValue(g.first) <= DigitsValue(g.last)
    requires IsDigits(number)
    ensures ParseBatches(g.Text() + "," + number)
         == Success(RangeList(g.letter, DigitsValue(g.first), DigitsValue(g.last)) + [[g.letter] + number])
  {
    var t := g.Text();
    var s := t + "," + number;
    RangeTextPlain(g);
    assert Plain(number);
    PlainStrips(number);
    TwoParts(t, number);
    NotStringOnly([t, number], 0, 0);
    ExpandRangeThenNumber(g, number);
    ParseBatchesByLoop(s, Expand([t, number], None).value);
  }

  /** A cell's batch field that is a single range expands to that range. */
  lemma SingleRange(g: RangeGroups)
    requires g.WellFormed() && (g.endLetter == "" || g.endLetter == [g.letter])
    requires DigitsValue(g.first) <= DigitsValue(g.last)
    ensures ParseBatches(g.Text()) == Success(RangeList(g.letter, DigitsValue(g.first), DigitsValue(g.last)))
  {
    var t := g.Text();
    RangeTextPlain(g);
    RemoveCharAbsent(t, ' ');
    SplitNoSep(t, ',');
    StripKeeps(t, WhiteSpace);
    NonBlankKeeps([t]);
    assert Parts(t) == [t];
    NotStringOnly([t], 0, 0);
    ExpandOne(t, None);
    ExpandRange(g, None);
    ParseBatchesByLoop(t, Expand([t], None).value);
  }

  lemma PairsTextPlain(ps: seq<Pair>)
    requires AllWellFormed(ps) && ps != []
    ensures Plain(PairsText(ps))
    ensures IsUpper(PairsText(ps)[0]) && IsDigit(PairsText(ps)[1])
    decreases |ps|
  {
    var s := PairsText(ps);
    assert s == [ps[0].letter] + ps[0].number + PairsText(ps[1..]);
    if |ps| > 1 {
      PairsTextPlain(ps[1..]);
    }
    forall i | 0 <= i < |s| ensures IsUpper(s[i]) || IsDigit(s[i]) {
      if 1 <= i < 1 + |ps[0].number| {
        assert s[i] == ps[0].number[i - 1];
      } else if i >= 1 + |ps[0].number| {
        assert s[i] == PairsText(ps[1..])[i - 1 - |ps[0].number|];
      }
    }
  }

  /** A concatenated part expands to its pairs and makes the last pair's
      letter current. */
  lemma ExpandConcatenated(ps: seq<Pair>, current: Option<char>)
    requires AllWellFormed(ps) && |ps| >= 2
    ensures ExpandPart(PairsText(ps), current) == Success((PairTexts(ps), Some(Last(ps).letter)))
  {
    var s := PairsText(ps);
    PairsTextPlain(ps);
    PlainStrips(s);
    PairsComplete(ps);
    ChompNoNewline(s);
    assert IsConcatenated(s);
    ConcatenatedPart(s, current);
  }

  /** A concatenated part without a dash takes the concatenation branch. */
  lemma ConcatenatedPart(part: string, current: Option<char>)
    requires part != [] && '-' !in part && IsConcatenated(part) && FindPairs(part) != []
    ensures ExpandPart(part, current) == Success((PairTexts(FindPairs(part)), Some(Last(FindPairs(part)).letter)))
  {
  }

  /** A concatenation of two or more pairs gives one batch per pair, in
      order, as in `F2F3F6F7` giving F2, F3, F6, F7. */
  lemma ConcatenatedBatches(ps: seq<Pair>)
    requires AllWellFormed(ps) && |ps| >= 2
    ensures ParseBatches(PairsText(ps)) == Success(PairTexts(ps))
  {
    var s := PairsText(ps);
    PairsTextPlain(ps);
    PlainPart(s);
    NotStringOnly([s], 0, 0);
    ExpandConcatenated(ps, None);
    ExpandOne(s, None);
    ParseBatchesByLoop(s, Expand([s], None).value);
  }
}

=== FILE: coderesolver.dfy ===
/** The course-code repair ladder of jiit_tt_parser/parser/parse_events.py
    (`classify_format`, `fix_malformed_code`, `lookup_sub` and the three
    `lookup_*_format` helpers). A full code looks like `15B11CI111`: a
    two-digit prefix, a series letter, a one- or two-digit middle, a
    two-letter branch and a three- or four-digit tail. Dropping the prefix
    gives the medium form `B11CI111`; keeping only branch and tail gives the
    short form `CI111`. */
module CodeResolver {
  import opened Wrappers
  import opened Text

  /** The groups of a course code; absent groups are empty. */
  datatype Shape = Shape(prefix: string, series: string, middle: string, branch: string, tail: string) {
    function Text(): string {
      prefix + series + middle + branch + tail
    }

    /** `[A-Z]{2}\d{3,4}` */
    predicate BranchTail() {
      |branch| == 2 && AllUpper(branch) && 3 <= |tail| <= 4 && IsDigits(tail)
    }

    predicate ShortForm() {
      prefix == "" && series == "" && middle == "" && BranchTail()
    }

    /** `[A-Z]\d{1,2}[A-Z]{2}\d{3,4}` */
    predicate MediumForm() {
      prefix == "" && |series| == 1 && AllUpper(series) && 1 <= |middle| <= 2 && IsDigits(middle) && BranchTail()
    }

    /** `\d{2}[A-Z]\d{1,2}[A-Z]{2}\d{3,4}` */
    predicate FullForm() {
      |prefix| == 2 && IsDigits(prefix) && this.(prefix := "").MediumForm()
    }

    /** Branch and tail with a four-digit tail cut to three digits. */
    function ShortKey(): string
      requires BranchTail()
    {
      branch + tail[..3]
    }
  }

  // ---------------------------------------------------------------------------
  // Recognisers over exact text
  // ---------------------------------------------------------------------------

  function ShortExact(t: string): (r: Option<Shape>)
    ensures r.Some? ==> r.value.ShortForm() && r.value.Text() == t
  {
    if 5 <= |t| <= 6 && IsUpper(t[0]) && IsUpper(t[1]) && IsDigits(t[2..]) then
      var s := Shape("", "", "", t[..2], t[2..]);
      assert s.Text() == t;
      Some(s)
    else None
  }

  /** A series letter and middle digits in front of a short code. */
  function Medium(series: string, middle: string, b: Shape): (s: Shape)
    requires b.ShortForm()
    requires |series| == 1 && AllUpper(series) && 1 <= |middle| <= 2 && IsDigits(middle)
    ensures s.MediumForm() && s.Text() == series + middle + b.Text()
  {
    Shape("", series, middle, b.branch, b.tail)
  }

  /** A two-digit prefix in front of a medium code. */
  function Full(prefix: string, m: Shape): (s: Shape)
    requires m.MediumForm() && |prefix| == 2 && IsDigits(prefix)
    ensures s.FullForm() && s.Text() == prefix + m.Text()
  {
    var s := m.(prefix := prefix);
    assert s.(prefix := "") == m;
    s
  }

  function MediumExact(t: string): (r: Option<Shape>)
    ensures r.Some? ==> r.value.MediumForm() && r.value.Text() == t
  {
    if |t| < 2 || !IsUpper(t[0]) then None
    else
      var n := DigitRun(t, 1);
      if n < 1 || n > 2 then None
      else
        var series, middle, rest := t[..1], t[1..1 + n], t[1 + n..];
        match ShortExact(rest)
        case None => None
        case Some(b) =>
          assert IsDigits(middle) by {
            forall k | 0 <= k < |middle| ensures IsDigit(middle[k]) {
              assert middle[k] == t[1 + k];
            }
          }
          SliceConcat(t, 0, 1, 1 + n);
          SliceConcat(t, 0, 1 + n, |t|);
          assert t[0..|t|] == t;
          Some(Medium(series, middle, b))
  }

  function FullExact(t: string): (r: Option<Shape>)
    ensures r.Some? ==> r.value.FullForm() && r.value.Text() == t
  {
    if |t| < 2 || !IsDigit(t[0]) || !IsDigit(t[1]) then None
    else
      match MediumExact(t[2..])
      case None => None
      case Some(m) =>
        DigitPair(t);
        Some(Full(t[..2], m))
  }

  lemma DigitPair(t: string)
    requires |t| >= 2 && IsDigit(t[0]) && IsDigit(t[1])
    ensures IsDigits(t[..2]) && t[..2] + t[2..] == t
  {
  }

  lemma ShortComplete(s: Shape)
    requires s.ShortForm()
    ensures ShortExact(s.Text()) == Some(s)
  {
    var t := s.Text();
    assert t[..2] == s.branch && t[2..] == s.tail;
  }

  lemma MediumComplete(s: Shape)
    requires s.MediumForm()
    ensures MediumExact(s.Text()) == Some(s)
  {
    var t := s.Text();
    var n := |s.middle|;
    assert t[1..1 + n] == s.middle;
    assert DigitRun(t, 1) == n by {
      assert t[1 + n] == s.branch[0];
    }
    assert t[1 + n..] == s.(series := "", middle := "").Text();
    ShortComplete(s.(series := "", middle := ""));
    assert t[..1] == s.series;
  }

  /** Recognising the text of a well-formed full code gives back its groups. */
  lemma FullComplete(s: Shape)
    requires s.FullForm()
    ensures FullExact(s.Text()) == Some(s)
  {
    var t := s.Text();
    assert t[2..] == s.(prefix := "").Text();
    MediumComplete(s.(prefix := ""));
    assert t[..2] == s.prefix;
  }

  // ---------------------------------------------------------------------------
  // classify_format
  // ---------------------------------------------------------------------------

  /** `re.match(r"^...$", code)` for the three shapes. */
  function FullMatch(code: string): Option<Shape> {
    FullExact(Chomp(code))
  }

  function MediumMatch(code: string): Option<Shape> {
    MediumExact(Chomp(code))
  }

  function ShortMatch(code: string): Option<Shape> {
    ShortExact(Chomp(code))
  }

  /** `classify_format`: 1 full, 2 medium, 3 short, 0 unknown. */
  function ClassifyFormat(code: string): (r: int)
    ensures 0 <= r <= 3
    ensures r == 1 <==> FullMatch(code).Some?
    ensures r == 2 <==> FullMatch(code).None? && MediumMatch(code).Some?
    ensures r == 3 <==> FullMatch(code).None? && MediumMatch(code).None? && ShortMatch(code).Some?
  {
    if FullMatch(code).Some? then 1
    else if MediumMatch(code).Some? then 2
    else if ShortMatch(code).Some? then 3
    else 0
  }

  /** The three shapes exclude one another, so each well-formed code is
      classified by its own shape. */
  lemma ClassifyWellFormed(s: Shape)
    requires s.FullForm() || s.MediumForm() || s.ShortForm()
    ensures ClassifyFormat(s.Text()) == (if s.FullForm() then 1 else if s.MediumForm() then 2 else 3)
  {
    var t := s.Text();
    ShapeUnchomped(s);
    if s.FullForm() {
      FullComplete(s);
    } else if s.MediumForm() {
      MediumComplete(s);
      assert !IsDigit(t[0]);
    } else {
      ShortComplete(s);
      assert !IsDigit(t[0]);
      assert MediumExact(t).None? by {
        assert !IsDigit(t[1]);
      }
    }
  }

  /** A well-formed code has no final newline for `$` to skip. */
  lemma ShapeUnchomped(s: Shape)
    requires s.FullForm() || s.MediumForm() || s.ShortForm()
    ensures Chomp(s.Text()) == s.Text()
  {
    var t := s.Text();
    forall i | 0 <= i < |t| ensures t[i] != '\n' {
      ShapeChar(s, i);
    }
    ChompNoNewline(t);
  }

  /** Every character of a well-formed code is a letter or a digit. */
  lemma ShapeChar(s: Shape, i: nat)
    requires s.FullForm() || s.MediumForm() || s.ShortForm()
    requires i < |s.Text()|
    ensures IsUpper(s.Text()[i]) || IsDigit(s.Text()[i])
  {
    var t := s.Text();
    var a := |s.prefix|;
    var b := a + |s.series|;
    var c := b + |s.middle|;
    var d := c + |s.branch|;
    if i < a {
      assert t[i] == s.prefix[i];
    } else if i < b {
      assert t[i] == s.series[i - a];
    } else if i < c {
      assert t[i] == s.middle[i - b];
    } else if i < d {
      assert t[i] == s.branch[i - c];
    } else {
      assert t[i] == s.tail[i - d];
    }
  }

  // ---------------------------------------------------------------------------
  // fix_malformed_code
  // ---------------------------------------------------------------------------

  /** A corrected full code: the given two-digit middle and the tail cut to
      three digits. */
  function Candidate(s: Shape, middle: string): string
    requires s.BranchTail()
  {
    s.prefix + s.series + middle + s.branch + s.tail[..3]
  }

  /** What a candidate must look like: a full code with a two-digit middle
      and a three-digit tail. */
  predicate Repaired(t: string) {
    var r := FullExact(t);
    r.Some? && |r.value.middle| == 2 && |r.value.tail| == 3
  }

  /** The corrections of a full code: with a one-digit middle, the ten
      codes with a digit appended, then the ten with a digit prepended;
      otherwise the code itself with its tail cut to three digits. */
  function Candidates(s: Shape): (r: seq<string>)
    requires s.FullForm()
    ensures |r| == (if |s.middle| == 1 then 20 else 1)
    ensures |s.middle| == 1 ==> forall i :: 0 <= i < 10 ==> r[i] == Candidate(s, s.middle + [DigitChar(i)])
    ensures |s.middle| == 1 ==> forall i :: 0 <= i < 10 ==> r[10 + i] == Candidate(s, [DigitChar(i)] + s.middle)
    ensures |s.middle| != 1 ==> r == [Candidate(s, s.middle)]
  {
    if |s.middle| == 1 then
      seq(10, i requires 0 <= i < 10 => Candidate(s, s.middle + [DigitChar(i)]))
      + seq(10, i requires 0 <= i < 10 => Candidate(s, [DigitChar(i)] + s.middle))
    else [Candidate(s, s.middle)]
  }

  /** Every correction is a full code with a two-digit middle and a
      three-digit tail. */
  lemma CandidatesRepaired(s: Shape)
    requires s.FullForm()
    ensures forall k :: 0 <= k < |Candidates(s)| ==> Repaired(Candidates(s)[k])
  {
    var r := Candidates(s);
    forall k | 0 <= k < |r| ensures Repaired(r[k]) {
      if |s.middle| == 1 {
        if k < 10 {
          CandidateRepaired(s, s.middle + [DigitChar(k)]);
        } else {
          CandidateRepaired(s, [DigitChar(k - 10)] + s.middle);
        }
      } else {
        CandidateRepaired(s, s.middle);
      }
    }
  }

  /** `fix_malformed_code` */
  function FixMalformedCode(code: string): (r: seq<string>)
    ensures FullMatch(code).None? ==> r == [code]
    ensures FullMatch(code).Some? ==> |r| == (if |FullMatch(code).value.middle| == 1 then 20 else 1)
    ensures FullMatch(code).Some? ==> forall k :: 0 <= k < |r| ==> Repaired(r[k])
  {
    match FullMatch(code)
    case None => [code]
    case Some(s) =>
      CandidatesRepaired(s);
      Candidates(s)
  }

  lemma CandidateRepaired(s: Shape, middle: string)
    requires s.FullForm() && |middle| == 2 && IsDigits(middle)
    ensures Repaired(Candidate(s, middle))
  {
    var c := s.(middle := middle, tail := s.tail[..3]);
    assert c.Text() == Candidate(s, middle);
    FullComplete(c);
  }

  /** The corrections of a well-formed full code are its candidates. */
  lemma FixWellFormed(s: Shape)
    requires s.FullForm()
    ensures FixMalformedCode(s.Text()) == Candidates(s)
  {
    ShapeUnchomped(s);
    FullComplete(s);
  }

  /** A full code that lost one of its two middle digits is repaired: the
      intact code is among the candidates. */
  lemma DroppedDigitRecovered(s: Shape, keepFirst: bool)
    requires s.FullForm() && |s.middle| == 2 && |s.tail| == 3
    ensures s.Text() in FixMalformedCode(Dropped(s, keepFirst).Text())
  {
    FixWellFormed(Dropped(s, keepFirst));
    DroppedAmongCandidates(s, keepFirst);
  }

  lemma DroppedAmongCandidates(s: Shape, keepFirst: bool)
    requires s.FullForm() && |s.middle| == 2 && |s.tail| == 3
    ensures s.Text() in Candidates(Dropped(s, keepFirst))
  {
    var d := Dropped(s, keepFirst);
    DroppedCandidate(s, keepFirst);
    if keepFirst {
      assert s.middle == d.middle + [s.middle[1]];
      AppendedIsCandidate(d, s.middle[1]);
    } else {
      assert s.middle == [s.middle[0]] + d.middle;
      PrependedIsCandidate(d, s.middle[0]);
    }
  }

  /** The intact middle put back gives the intact code. */
  lemma DroppedCandidate(s: Shape, keepFirst: bool)
    requires s.FullForm() && |s.middle| == 2 && |s.tail| == 3
    ensures Candidate(Dropped(s, keepFirst), s.middle) == s.Text()
  {
    assert s.tail[..3] == s.tail;
  }

  lemma AppendedIsCandidate(d: Shape, c: char)
    requires d.FullForm() && |d.middle| == 1 && IsDigit(c)
    ensures Candidate(d, d.middle + [c]) in Candidates(d)
  {
    var i := DigitValue(c);
    assert DigitChar(i) == c;
    assert Candidates(d)[i] == Candidate(d, d.middle + [c]);
  }

  lemma PrependedIsCandidate(d: Shape, c: char)
    requires d.FullForm() && |d.middle| == 1 && IsDigit(c)
    ensures Candidate(d, [c] + d.middle) in Candidates(d)
  {
    var i := DigitValue(c);
    assert DigitChar(i) == c;
    assert Candidates(d)[10 + i] == Candidate(d, [c] + d.middle);
  }

  /** The code with one of its two middle digits left out. */
  function Dropped(s: Shape, keepFirst: bool): (d: Shape)
    requires s.FullForm() && |s.middle| == 2
    ensures d.FullForm() && |d.middle| == 1
  {
    s.(middle := if keepFirst then s.middle[..1] else s.middle[1..])
  }

  /** A full code that is already repaired is its own only candidate. */
  lemma RepairedIsOwnCandidate(s: Shape)
    requires s.FullForm() && |s.middle| == 2 && |s.tail| == 3
    ensures FixMalformedCode(s.Text()) == [s.Text()]
  {
    FixWellFormed(s);
    assert s.tail[..3] == s.tail;
    assert Candidate(s, s.middle) == s.Text();
  }

  // ---------------------------------------------------------------------------
  // Lookups
  // ---------------------------------------------------------------------------

  /** The first of the keys that the map holds. */
  function FirstKey(keys: seq<string>, m: map<string, string>): (r: Option<string>)
    ensures r.Some? ==> r.value in keys && r.value in m
    ensures r.None? <==> forall k :: 0 <= k < |keys| ==> keys[k] !in m
  {
    if keys == [] then None
    else if keys[0] in m then Some(keys[0])
    else FirstKey(keys[1..], m)
  }

  /** `lookup_short_format`: a four-digit tail is cut to three digits. */
  function LookupShort(code: string, m: map<string, string>): (r: Option<string>)
    ensures r.Some? ==> r.value in m.Values
    ensures ShortMatch(code).None? ==> r == Get(m, code)
  {
    match ShortMatch(code)
    case Some(s) => Get(m, s.ShortKey())
    case None => Get(m, code)
  }

  /** `lookup_medium_format`: a direct hit, else the short form of a medium
      code. */
  function LookupMedium(code: string, m: map<string, string>): (r: Option<string>)
    ensures r.Some? ==> r.value in m.Values
    ensures code in m ==> r == Some(m[code])
    ensures code !in m && MediumMatch(code).None? ==> r.None?
  {
    if code in m then Some(m[code])
    else
      match MediumMatch(code)
      case Some(s) => LookupShort(s.branch + s.tail, m)
      case None => None
  }

  /** Python truth of an optional string: `None` and `""` are false. */
  predicate Truthy(r: Option<string>) {
    r.Some? && r.value != ""
  }

  /** `lookup_full_format`: the first candidate the map holds; else the
      medium form without the two-digit prefix, if it yields a non-empty
      name; else the short form. */
  function LookupFull(code: string, m: map<string, string>): (r: Option<string>)
    ensures r.Some? ==> r.value in m.Values
    ensures FirstKey(FixMalformedCode(code), m).Some? ==> r == Some(m[FirstKey(FixMalformedCode(code), m).value])
  {
    match FirstKey(FixMalformedCode(code), m)
    case Some(k) => Some(m[k])
    case None =>
      var medium := LookupMedium(From(code, 2), m);
      if Truthy(medium) then medium
      else
        match FullMatch(code)
        case Some(s) => LookupShort(s.branch + s.tail, m)
        case None => None
  }

  /** `lookup_sub` */
  function LookupSub(code: string, m: map<string, string>): (r: Option<string>)
    ensures code == [] || m == map[] ==> r.None?
    ensures code != [] && code in m ==> r == Some(m[code])
    ensures r.Some? ==> r.value in m.Values
    ensures code != [] && code !in m && ClassifyFormat(Strip(code)) == 0 ==> r == Get(m, Strip(code))
  {
    if code == [] || m == map[] then None
    else if code in m then Some(m[code])
    else
      var c := Strip(code);
      match ClassifyFormat(c)
      case 1 => LookupFull(c, m)
      case 2 => LookupMedium(c, m)
      case 3 => LookupShort(c, m)
      case _ => Get(m, c)
  }

  /** A short code with a four-digit tail finds the three-digit key. */
  lemma ShortTailCut(s: Shape, m: map<string, string>)
    requires s.ShortForm()
    ensures LookupShort(s.Text(), m) == Get(m, s.ShortKey())
  {
    ShapeUnchomped(s);
    ShortComplete(s);
  }

  /** A medium code the map lacks falls back to its branch and tail. */
  lemma MediumFallsBackToShort(s: Shape, m: map<string, string>)
    requires s.MediumForm() && s.Text() !in m
    ensures LookupMedium(s.Text(), m) == Get(m, s.ShortKey())
  {
    ShapeUnchomped(s);
    MediumComplete(s);
    var b := s.(series := "", middle := "");
    assert b.Text() == s.branch + s.tail;
    ShortTailCut(b, m);
  }

  /** A full code none of whose repairs is a key falls back to its medium
      form, when the table gives that a non-empty name, and otherwise to its
      short form. */
  lemma FullFallsBack(s: Shape, m: map<string, string>)
    requires s.FullForm()
    requires forall k :: k in FixMalformedCode(s.Text()) ==> k !in m
    ensures var medium := s.(prefix := "").Text();
      LookupFull(s.Text(), m) == if medium in m && m[medium] != "" then Some(m[medium]) else Get(m, s.ShortKey())
  {
    var keys := FixMalformedCode(s.Text());
    assert FirstKey(keys, m).None?;
    FullPieces(s);
    FullFallbackStep(s.Text(), m, s);
    MediumOutcome(s.(prefix := ""), m);
    ShortTailCut(s.(prefix := "", series := "", middle := ""), m);
  }

  /** The texts a full code's fallbacks look up. */
  lemma FullPieces(s: Shape)
    requires s.FullForm()
    ensures From(s.Text(), 2) == s.(prefix := "").Text()
    ensures FullMatch(s.Text()) == Some(s)
    ensures s.(prefix := "", series := "", middle := "").Text() == s.branch + s.tail
  {
    var t := s.Text();
    SliceWithin(t, 2, |t|);
    assert t[2..] == s.(prefix := "").Text();
    ShapeUnchomped(s);
    FullComplete(s);
  }

  /** Past the repaired candidates, `lookup_full_format` tries the medium
      lookup of `code[2:]` and then the short lookup. */
  lemma FullFallbackStep(t: string, m: map<string, string>, s: Shape)
    requires FirstKey(FixMalformedCode(t), m).None? && FullMatch(t) == Some(s)
    ensures LookupFull(t, m) ==
      if Truthy(LookupMedium(From(t, 2), m)) then LookupMedium(From(t, 2), m) else LookupShort(s.branch + s.tail, m)
  {
  }

  /** A medium code finds its own name, or else its short form's. */
  lemma MediumOutcome(s: Shape, m: map<string, string>)
    requires s.MediumForm()
    ensures LookupMedium(s.Text(), m) == if s.Text() in m then Some(m[s.Text()]) else Get(m, s.ShortKey())
  {
    if s.Text() !in m {
      MediumFallsBackToShort(s, m);
    }
  }

  /** A full code that lost a middle digit still finds the intact code's
      name, when no other candidate is a key. */
  lemma RepairFindsName(s: Shape, keepFirst: bool, m: map<string, string>)
    requires s.FullForm() && |s.middle| == 2 && |s.tail| == 3
    requires s.Text() in m
    requires Dropped(s, keepFirst).Text() !in m
    requires forall k :: k in FixMalformedCode(Dropped(s, keepFirst).Text()) && k != s.Text() ==> k !in m
    ensures LookupSub(Dropped(s, keepFirst).Text(), m) == Some(m[s.Text()])
  {
    var d := Dropped(s, keepFirst);
    var t := d.Text();
    DroppedDigitRecovered(s, keepFirst);
    ClassifyWellFormed(d);
    ShapeStrips(d);
    var first := FirstKey(FixMalformedCode(t), m);
    assert first.Some?;
    assert first.value == s.Text();
  }

  /** A well-formed code has no surrounding white space. */
  lemma ShapeStrips(s: Shape)
    requires s.FullForm() || s.MediumForm() || s.ShortForm()
    ensures Strip(s.Text()) == s.Text()
  {
    var t := s.Text();
    ShapeChar(s, 0);
    ShapeChar(s, |t| - 1);
    StripKeeps(t, WhiteSpace);
  }
}

=== FILE: courses.dfy ===
/** The subject tables printed beside a timetable
    (jiit_tt_parser/parser/parse_courses.py): header cells announce a block of
    rows below them in one of three layouts, and each row of a block maps its
    codes to the subject's name. */
module CourseTable {
  import opened Wrappers
  import opened Text
  import opened Sheet
  import opened Tables

  /** The three layouts `parse_down` reads (`ftype` 1, 2 and 3). */
  datatype Layout =
    | ShortThenCode   // short code, full code, then the name
    | SlashedCodes    // `short/full` code, then the name
    | NumberedCodes   // a code starting with two digits and a letter, then the name

  // ---------------------------------------------------------------------------
  // Layout 1: short code, subject code, name
  // ---------------------------------------------------------------------------

  /** The subject code whose row is kept even when its other cells are empty. */
  const SpecialCode := "(19M21HS111)"

  /** The same code without its brackets. */
  const SpecialKey := "19M21HS111"

  /** The codes and name of a complete layout-1 row are all present. */
  predicate RowComplete(g: Grid, i: int, j: int) {
    g.Value(i, j).Some? && g.Value(i, j + 1).Some? && g.Value(i, j + 2).Some?
  }

  /** A code cell's text without its brackets and spaces. */
  function CodeKey(g: Grid, i: int, j: int): string {
    StripChars(g.Str(i, j), "() ")
  }

  /** The row's code cell reads `(19M21HS111)`. */
  predicate SpecialRow(g: Grid, i: int, j: int) {
    g.Value(i, j + 1) == Some(SpecialCode)
  }

  /** The special code's entry, when the row has it: the raw name text. */
  function SpecialEntry(g: Grid, i: int, j: int): (r: Table)
    ensures r.Keys == (if SpecialRow(g, i, j) then {SpecialKey} else {})
    ensures forall k :: k in r ==> r[k] == g.Str(i, j + 2)
  {
    if SpecialRow(g, i, j) then map[SpecialKey := g.Str(i, j + 2)] else map[]
  }

  /** A complete row's entries: both codes, the stripped name. */
  function CompleteEntries(g: Grid, i: int, j: int): (r: Table)
    ensures r.Keys == {CodeKey(g, i, j), CodeKey(g, i, j + 1)}
    ensures forall k :: k in r ==> r[k] == Strip(g.Str(i, j + 2))
  {
    var s := Strip(g.Str(i, j + 2));
    map[CodeKey(g, i, j) := s, CodeKey(g, i, j + 1) := s]
  }

  /** One layout-1 row: both codes, stripped of brackets and spaces, map to
      the stripped name; a row whose code cell reads `(19M21HS111)` also maps
      that code, unbracketed, to the raw name text, even when another cell of
      the row is empty. */
  function ShortRow(g: Grid, i: int, j: int): (r: Table)
    ensures RowComplete(g, i, j) ==>
      && r.Keys == {CodeKey(g, i, j), CodeKey(g, i, j + 1)}
      && forall k :: k in r ==> r[k] == Strip(g.Str(i, j + 2))
    ensures !RowComplete(g, i, j) ==>
      && r.Keys == (if SpecialRow(g, i, j) then {SpecialKey} else {})
      && forall k :: k in r ==> r[k] == g.Str(i, j + 2)
  {
    if !RowComplete(g, i, j) then SpecialEntry(g, i, j)
    else
      if SpecialRow(g, i, j) then
        SpecialOverwritten(g, i, j);
        SpecialEntry(g, i, j) + CompleteEntries(g, i, j)
      else CompleteEntries(g, i, j)
  }

  /** On a complete row the special entry is written again by the row's own
      code, with the stripped name. */
  lemma SpecialOverwritten(g: Grid, i: int, j: int)
    requires RowComplete(g, i, j) && SpecialRow(g, i, j)
    ensures SpecialEntry(g, i, j) + CompleteEntries(g, i, j) == CompleteEntries(g, i, j)
  {
    SpecialStripped();
    assert CodeKey(g, i, j + 1) == SpecialKey;
    Absorbed(SpecialEntry(g, i, j), CompleteEntries(g, i, j));
  }

  /** Updating by a table holding every key already written leaves that table. */
  lemma Absorbed(a: Table, b: Table)
    requires a.Keys <= b.Keys
    ensures a + b == b
  {
  }

  /** `"(19M21HS111)".strip("() ")` */
  lemma SpecialStripped()
    ensures StripChars(SpecialCode, "() ") == SpecialKey
  {
    assert SpecialCode == "(" + SpecialKey + ")";
    assert SpecialKey[0] == '1' && SpecialKey[|SpecialKey| - 1] == '1';
    StripCharsAround("(", SpecialKey, ")", "() ");
  }

  // ---------------------------------------------------------------------------
  // Layout 2: `short/full` code, name
  // ---------------------------------------------------------------------------

  /** The cell text that ends a layout-2 block. */
  const FacultyHeading := "Faculty Abbreviation with Names"

  /** `v.replace(" ", "").replace("\n", "")` */
  function Compact(v: string): (r: string)
    ensures ' ' !in r && '\n' !in r
    ensures forall c :: c in r ==> c in v
  {
    RemoveChar(RemoveChar(v, ' '), '\n')
  }

  /** Text without spaces or line breaks is already compact. */
  lemma CompactKeeps(v: string)
    requires ' ' !in v && '\n' !in v
    ensures Compact(v) == v
  {
    RemoveCharAbsent(v, ' ');
    RemoveCharAbsent(v, '\n');
  }

  /** A layout-2 code can be unpacked: at most one `/`. */
  predicate Unpacks(v: string) {
    '/' in v ==> |Split(v, '/')| == 2
  }

  /** The entries of a layout-2 code: the code, and when it holds a `/`
      the two halves around it as well, all mapping to `s`. */
  function SlashedTable(v: string, s: string): (r: Table)
    requires Unpacks(v)
    ensures forall k :: k in r ==> r[k] == s
    ensures '/' !in v ==> r.Keys == {Strip(v)}
    ensures '/' in v ==> r.Keys == {Strip(Split(v, '/')[0]), Strip(Split(v, '/')[1]), Strip(v)}
  {
    if '/' in v then
      var parts := Split(v, '/');
      map[Strip(parts[0]) := s, Strip(parts[1]) := s, Strip(v) := s]
    else map[Strip(v) := s]
  }

  /** One layout-2 row: the compacted code's entries, mapping to the name
      text as it stands. A code with more than one `/` cannot be unpacked
      into two halves and raises `ValueError`. */
  function SlashedRow(g: Grid, i: int, j: int): (r: Result<Table>)
    ensures r.Failure? <==> !Unpacks(Compact(g.Str(i, j)))
    ensures r.Success? ==> r.value == SlashedTable(Compact(g.Str(i, j)), g.Str(i, j + 1))
  {
    var v := Compact(g.Str(i, j));
    if Unpacks(v) then Success(SlashedTable(v, g.Str(i, j + 1)))
    else Failure(ValueError("too many values to unpack"))
  }

  /** A code `short/full` is entered under both halves and under the whole. */
  lemma SlashedPair(a: string, b: string)
    requires '/' !in a && '/' !in b
    ensures Split(a + "/" + b, '/') == [a, b]
  {
    SplitAt(a, b, '/');
    SplitNoSep(b, '/');
  }

  /** A code with two slashes is an error, not a partial entry. */
  lemma SlashedTriple(a: string, b: string, c: string)
    requires '/' !in a && '/' !in b && '/' !in c
    ensures |Split(a + "/" + b + "/" + c, '/')| == 3
  {
    assert a + "/" + b + "/" + c == a + ['/'] + (b + "/" + c);
    SplitAt(a, b + "/" + c, '/');
    SlashedPair(b, c);
  }

  // ---------------------------------------------------------------------------
  // Layout 3: numbered code, name
  // ---------------------------------------------------------------------------

  /** `str(v).strip().replace(" ", "").replace("\n", "")` */
  function NumberedText(g: Grid, i: int, j: int): string {
    Compact(Strip(g.Str(i, j)))
  }

  /** `len(v) > 3 and v[:2].isnumeric() and v[2:3].isalpha()`: two digits of
      the year, then a letter. */
  predicate CodeLike(v: string) {
    |v| > 3 && IsDigit(v[0]) && IsDigit(v[1]) && IsLetter(v[2])
  }

  /** One layout-3 row: the code, the code without its two year digits,
      and the code past its first five characters all map to the stripped
      name. */
  function NumberedRow(g: Grid, i: int, j: int): (r: Table)
    ensures var v := NumberedText(g, i, j);
      && r.Keys == {v, From(v, 2), From(v, 5)}
      && forall k :: k in r ==> r[k] == Strip(g.Str(i, j + 1))
  {
    var v := NumberedText(g, i, j);
    var s := Strip(g.Str(i, j + 1));
    map[v := s, From(v, 2) := s, From(v, 5) := s]
  }

  /** The three keys of a numbered row are distinct suffixes of its code,
      the last one empty when the code is five characters or shorter. */
  lemma NumberedKeys(v: string)
    requires CodeLike(v)
    ensures From(v, 2) == v[2..] && From(v, 2) != v
    ensures |v| >= 5 ==> From(v, 5) == v[5..]
    ensures |v| < 5 ==> From(v, 5) == []
  {
  }

  // ---------------------------------------------------------------------------
  // parse_down: one block
  // ---------------------------------------------------------------------------

  /** The block goes on at row `i`: always in layout 1, up to the faculty
      heading in layout 2, and while the code looks numbered in layout 3. */
  predicate Continues(g: Grid, layout: Layout, i: int, j: int) {
    match layout
    case ShortThenCode => true
    case SlashedCodes => g.Str(i, j) != FacultyHeading
    case NumberedCodes => CodeLike(NumberedText(g, i, j))
  }

  /** The table one row of a block writes. */
  function RowTable(g: Grid, layout: Layout, i: int, j: int): (r: Result<Table>)
    ensures layout != SlashedCodes ==> r.Success?
  {
    match layout
    case ShortThenCode => Success(ShortRow(g, i, j))
    case SlashedCodes => SlashedRow(g, i, j)
    case NumberedCodes => Success(NumberedRow(g, i, j))
  }

  /** The block goes on at every row from `i` to `e - 1`. */
  predicate ContinuesOn(g: Grid, layout: Layout, i: int, e: int, j: int) {
    forall x :: i <= x < e ==> Continues(g, layout, x, j)
  }

  lemma ContinuesOnStep(g: Grid, layout: Layout, i: int, e: int, j: int)
    requires Continues(g, layout, i, j) && ContinuesOn(g, layout, i + 1, e, j)
    ensures ContinuesOn(g, layout, i, e, j)
  {
  }

  /** The row where the block starting at `i` stops: the first row up to
      `r` where it does not go on, or the row after `r`. */
  function Extent(g: Grid, layout: Layout, i: int, j: int, r: int): (e: int)
    ensures i <= e && (e == i || e <= r + 1)
    ensures ContinuesOn(g, layout, i, e, j)
    ensures e <= r ==> !Continues(g, layout, e, j)
    decreases r + 1 - i
  {
    if i > r || !Continues(g, layout, i, j) then i
    else
      var e := Extent(g, layout, i + 1, j, r);
      ContinuesOnStep(g, layout, i, e, j);
      e
  }

  /** What each row from `i` to `e - 1` gives, in order. */
  function RowResults(g: Grid, layout: Layout, i: int, e: int, j: int): (rs: seq<Result<Table>>)
    requires i <= e
    ensures |rs| == e - i && forall k :: 0 <= k < e - i ==> rs[k] == RowTable(g, layout, i + k, j)
  {
    seq(e - i, k => RowTable(g, layout, i + k, j))
  }

  /** The tables of rows `i` to `e - 1`; the first row that raises ends the block. */
  function DownTables(g: Grid, layout: Layout, i: int, e: int, j: int): (r: Result<seq<Table>>)
    requires i <= e
    ensures r.Success? <==> forall x :: i <= x < e ==> RowTable(g, layout, x, j).Success?
  {
    var rs := RowResults(g, layout, i, e, j);
    RowsRead(g, layout, i, e, j, rs);
    Collect(rs)
  }

  lemma RowsRead(g: Grid, layout: Layout, i: int, e: int, j: int, rs: seq<Result<Table>>)
    requires |rs| == e - i && forall k :: 0 <= k < e - i ==> rs[k] == RowTable(g, layout, i + k, j)
    ensures (forall k :: 0 <= k < |rs| ==> rs[k].Success?) <==> forall x :: i <= x < e ==> RowTable(g, layout, x, j).Success?
  {
    if forall k :: 0 <= k < |rs| ==> rs[k].Success? {
      forall x | i <= x < e ensures RowTable(g, layout, x, j).Success? {
        assert rs[x - i].Success?;
      }
    }
  }

  /** `parse_down`: the rows of the block from `i` to where it stops, each
      updating the block's table in turn. */
  function ParseDown(g: Grid, layout: Layout, i: int, j: int, r: int): (t: Result<Table>)
    ensures var e := Extent(g, layout, i, j, r);
      t.Success? <==> forall x :: i <= x < e ==> RowTable(g, layout, x, j).Success?
    ensures t.Success? ==> Overlays(DownTables(g, layout, i, Extent(g, layout, i, j, r), j).value, t.value)
  {
    match DownTables(g, layout, i, Extent(g, layout, i, j, r), j)
    case Failure(err) => Failure(err)
    case Success(ts) => Success(Overlay(ts))
  }

  /** A key of a block is written by some row of it. */
  lemma ParseDownWritten(g: Grid, layout: Layout, i: int, j: int, r: int, k: string)
    requires ParseDown(g, layout, i, j, r).Success? && k in ParseDown(g, layout, i, j, r).value
    ensures var e := Extent(g, layout, i, j, r);
      exists x :: i <= x < e && k in RowTable(g, layout, x, j).value
  {
    var e := Extent(g, layout, i, j, r);
    var ts := DownTables(g, layout, i, e, j).value;
    var n :| 0 <= n < |ts| && k in ts[n];
    assert RowResults(g, layout, i, e, j)[n] == Success(ts[n]);
  }

  /** Every key a row of a block writes is in the block's table, with the
      value of the last row writing it. */
  lemma ParseDownKeeps(g: Grid, layout: Layout, i: int, j: int, r: int, x: int, k: string)
    requires ParseDown(g, layout, i, j, r).Success?
    requires i <= x < Extent(g, layout, i, j, r) && k in RowTable(g, layout, x, j).value
    ensures k in ParseDown(g, layout, i, j, r).value
    ensures (forall y :: x < y < Extent(g, layout, i, j, r) ==> k !in RowTable(g, layout, y, j).value)
      ==> ParseDown(g, layout, i, j, r).value[k] == RowTable(g, layout, x, j).value[k]
  {
    var e := Extent(g, layout, i, j, r);
    var rs := RowResults(g, layout, i, e, j);
    var read := RowReader(g, layout, j);
    ParseDownOverlay(g, layout, i, j, r);
    OverlayRun(rs, i, read, x, k);
    if forall y :: x < y < e ==> k !in RowTable(g, layout, y, j).value {
      assert forall y :: x < y < e ==> k !in read(y).value;
    }
  }

  /** A block that reads is the overlay of its rows' tables. */
  lemma ParseDownOverlay(g: Grid, layout: Layout, i: int, j: int, r: int)
    requires ParseDown(g, layout, i, j, r).Success?
    ensures var rs := RowResults(g, layout, i, Extent(g, layout, i, j, r), j);
      Collect(rs).Success? && ParseDown(g, layout, i, j, r).value == Overlay(Collect(rs).value)
  {
    var e := Extent(g, layout, i, j, r);
    assert DownTables(g, layout, i, e, j) == Collect(RowResults(g, layout, i, e, j));
  }

  /** Reads row `y` of a block of `layout` at column `j`. */
  function RowReader(g: Grid, layout: Layout, j: int): (read: int -> Result<Table>)
    ensures forall y :: read(y) == RowTable(g, layout, y, j)
  {
    y => RowTable(g, layout, y, j)
  }

  // ---------------------------------------------------------------------------
  // parse_courses: finding the blocks
  // ---------------------------------------------------------------------------

  /** Header texts naming the short-code column of layout 1. */
  const ShortHeaders: seq<string> := ["Short Subject Code", "CODE", "SHORT FORM"]

  /** Header texts naming the code column next to it. */
  const CodeHeaders: seq<string> := ["Subject Code", "SUBJECT CODE"]

  /** The layout whose header cell is at `(i, j)`, judged from the cell, the
      one to its right and, for `SUBJECT CODE`, the one to its left (there
      is none in the first column). */
  function HeaderAt(g: Grid, i: int, j: int): (l: Option<Layout>)
    ensures l == Some(ShortThenCode) <==> g.Str(i, j) in ShortHeaders && g.Str(i, j + 1) in CodeHeaders
    ensures l == Some(NumberedCodes) <==>
      g.Str(i, j) == "SUBJECT CODE" && g.Str(i, j + 1) == "SUBJECT NAME" && !(j > 1 && g.Str(i, j - 1) == "Name")
    ensures l == Some(SlashedCodes) <==>
      && g.Str(i, j + 1) == "SUBJECT NAME"
      && (|| g.Str(i, j) == "SHORT FORM / SUBJECT CODE"
          || (g.Str(i, j) == "SUBJECT CODE" && j > 1 && g.Str(i, j - 1) == "Name"))
    ensures l.Some? ==> g.Str(i, j + 1) in CodeHeaders || g.Str(i, j + 1) == "SUBJECT NAME"
  {
    var value := g.Str(i, j);
    var next := g.Str(i, j + 1);
    if value in ShortHeaders && next in CodeHeaders then Some(ShortThenCode)
    else if value == "SHORT FORM / SUBJECT CODE" && next == "SUBJECT NAME" then Some(SlashedCodes)
    else if value == "SUBJECT CODE" && next == "SUBJECT NAME" then
      Some(if j > 1 && g.Str(i, j - 1) == "Name" then SlashedCodes else NumberedCodes)
    else None
  }

  /** A header cell, with the layout of the block below it. */
  datatype Block = Block(row: int, col: int, layout: Layout)

  predicate IsBlock(g: Grid, b: Block) {
    HeaderAt(g, b.row, b.col) == Some(b.layout)
  }

  /** Row-major order of the scan. */
  predicate Before(a: Block, b: Block) {
    a.row < b.row || (a.row == b.row && a.col < b.col)
  }

  predicate Ascending(bs: seq<Block>) {
    forall m, n :: 0 <= m < n < |bs| ==> Before(bs[m], bs[n])
  }

  lemma AscendingAppend(a: seq<Block>, b: seq<Block>)
    requires Ascending(a) && Ascending(b)
    requires forall x, y :: x in a && y in b ==> Before(x, y)
    ensures Ascending(a + b)
  {
    var ab := a + b;
    forall m, n | 0 <= m < n < |ab| ensures Before(ab[m], ab[n]) {
      if n < |a| {
        assert ab[m] == a[m] && ab[n] == a[n];
      } else if m >= |a| {
        assert ab[m] == b[m - |a|] && ab[n] == b[n - |a|];
      } else {
        assert ab[m] in a && ab[n] in b;
      }
    }
  }

  /** The header cells of row `i` from column `j` to `cols`, left to right. */
  function RowBlocks(g: Grid, i: int, j: int, cols: int): (bs: seq<Block>)
    ensures forall b :: b in bs ==> IsBlock(g, b) && b.row == i && j <= b.col <= cols
    ensures forall y :: j <= y <= cols && HeaderAt(g, i, y).Some? ==> Block(i, y, HeaderAt(g, i, y).value) in bs
    ensures Ascending(bs)
    decreases cols + 1 - j
  {
    if j > cols then []
    else
      var rest := RowBlocks(g, i, j + 1, cols);
      match HeaderAt(g, i, j)
      case None => rest
      case Some(l) =>
        AscendingAppend([Block(i, j, l)], rest);
        [Block(i, j, l)] + rest
  }

  /** The header cells of rows `i` to `rows`, in the order the scan meets them. */
  function Blocks(g: Grid, i: int, rows: int, cols: int): (bs: seq<Block>)
    ensures forall b :: b in bs ==> IsBlock(g, b) && i <= b.row <= rows && 1 <= b.col <= cols
    ensures forall x, y :: i <= x <= rows && 1 <= y <= cols && HeaderAt(g, x, y).Some? ==> Block(x, y, HeaderAt(g, x, y).value) in bs
    ensures Ascending(bs)
    decreases rows + 1 - i
  {
    if i > rows then []
    else
      var here := RowBlocks(g, i, 1, cols);
      var rest := Blocks(g, i + 1, rows, cols);
      AscendingAppend(here, rest);
      here + rest
  }

  /** What the block under each header gives, in scan order. */
  function BlockResults(g: Grid, bs: seq<Block>, rows: int): (rs: seq<Result<Table>>)
    ensures |rs| == |bs| && forall k :: 0 <= k < |bs| ==> rs[k] == BlockTable(g, bs[k], rows)
  {
    seq(|bs|, k requires 0 <= k < |bs| => BlockTable(g, bs[k], rows))
  }

  /** `parse_down(sheet, i + 1, j, row, col, ftype)` for a header at `(i, j)`. */
  function BlockTable(g: Grid, b: Block, rows: int): Result<Table> {
    ParseDown(g, b.layout, b.row + 1, b.col, rows)
  }

  /** `parse_courses`: every header cell of the first `rows` rows and `cols`
      columns, row by row, reads the block below it into the table, later
      blocks overwriting earlier ones; the first block that raises is the
      outcome. */
  function ParseCourses(g: Grid, rows: int, cols: int): (r: Result<Table>)
    ensures r.Success? <==> forall b :: b in Blocks(g, 1, rows, cols) ==> BlockTable(g, b, rows).Success?
  {
    var bs := Blocks(g, 1, rows, cols);
    var rs := BlockResults(g, bs, rows);
    BlocksRead(g, bs, rows, rs);
    var ts :- Collect(rs);
    Success(Overlay(ts))
  }

  lemma BlocksRead(g: Grid, bs: seq<Block>, rows: int, rs: seq<Result<Table>>)
    requires |rs| == |bs| && forall k :: 0 <= k < |bs| ==> rs[k] == BlockTable(g, bs[k], rows)
    ensures (forall k :: 0 <= k < |rs| ==> rs[k].Success?) <==> forall b :: b in bs ==> BlockTable(g, b, rows).Success?
  {
    if forall k :: 0 <= k < |rs| ==> rs[k].Success? {
      forall b | b in bs ensures BlockTable(g, b, rows).Success? {
        var k :| 0 <= k < |bs| && bs[k] == b;
        assert rs[k].Success?;
      }
    }
  }

  /** A course key comes from some block. */
  lemma ParseCoursesWritten(g: Grid, rows: int, cols: int, k: string)
    requires ParseCourses(g, rows, cols).Success? && k in ParseCourses(g, rows, cols).value
    ensures exists b :: b in Blocks(g, 1, rows, cols) && k in BlockTable(g, b, rows).value
  {
    var bs := Blocks(g, 1, rows, cols);
    var rs := BlockResults(g, bs, rows);
    var ts := Collect(rs).value;
    var n :| 0 <= n < |ts| && k in ts[n];
    assert rs[n] == Success(ts[n]) && bs[n] in bs;
  }

  /** Every key of every block is a course key; the value is that of the
      last block in scan order writing the key. */
  lemma ParseCoursesLast(g: Grid, rows: int, cols: int, n: int, k: string)
    requires ParseCourses(g, rows, cols).Success?
    requires var bs := Blocks(g, 1, rows, cols);
      0 <= n < |bs| && k in BlockTable(g, bs[n], rows).value
    ensures k in ParseCourses(g, rows, cols).value
    ensures var bs := Blocks(g, 1, rows, cols);
      (forall m :: n < m < |bs| ==> k !in BlockTable(g, bs[m], rows).value)
      ==> ParseCourses(g, rows, cols).value[k] == BlockTable(g, bs[n], rows).value[k]
  {
    var bs := Blocks(g, 1, rows, cols);
    OverlayResults(BlockResults(g, bs, rows), n, k);
  }
}

=== FILE: electives.dfy ===
/** The code-to-subject loop of jiit_tt_parser/parser/parse_electives.py,
    over the rows pandas reads from the electives workbook. */
module ElectiveTable {
  import opened Wrappers
  import opened Text
  import opened Tables

  /** One data row: the code column and the subject column, each as
      `astype(str)` renders it. */
  datatype Row = Row(code: string, subject: string)

  /** Some cut leaves a non-empty, line-break-free prefix and a digit run
      reaching the end: the texts the pattern can match at all. */
  predicate Splits(t: string) {
    exists p :: 0 < p < |t| && '\n' !in t[..p] && IsDigits(t[p..])
  }

  /** `re.match(r"(.+?)(\d+)$", base)`: a non-empty prefix with no line
      break, then digits reaching the end of the text (or a final line
      break). The lazy prefix leaves the digits the longest run it can. */
  function MatchNumbered(base: string): (r: Option<(string, string)>)
    ensures r.Some? ==> var (prefix, num) := r.value;
      && prefix != [] && '\n' !in prefix && IsDigits(num) && Chomp(base) == prefix + num
      && (|prefix| > 1 ==> !IsDigit(prefix[|prefix| - 1]))
    ensures r.None? <==> !Splits(Chomp(base))
  {
    var t := Chomp(base);
    var n := TrailingDigits(t);
    var p := if n == |t| then 1 else |t| - n;
    if n == 0 || |t| < 2 then
      NoSplit(t, p);
      None
    else
      if '\n' in t[..p] then
        NoSplit(t, p);
        None
      else
        assert t == t[..p] + t[p..];
        assert IsDigits(t[p..]);
        Some((t[..p], t[p..]))
  }

  /** With no trailing digits, fewer than two characters, or a line break
      before the shortest cut, no cut works. */
  lemma NoSplit(t: string, p0: int)
    requires p0 == (if TrailingDigits(t) == |t| then 1 else |t| - TrailingDigits(t))
    requires TrailingDigits(t) == 0 || |t| < 2 || (0 <= p0 <= |t| && '\n' in t[..p0])
    ensures !Splits(t)
  {
    forall p | 0 < p < |t| && IsDigits(t[p..])
      ensures '\n' in t[..p]
    {
      var i :| 0 <= i < p0 && t[..p0][i] == '\n';
      assert t[..p][i] == '\n';
    }
  }

  /** An all-digit base of two or more digits: the lazy prefix takes only
      the first digit and the number is the rest (`"123"` gives `"1"`, `"23"`). */
  lemma MatchNumberedAllDigits(d: string)
    requires IsDigits(d) && |d| >= 2
    ensures MatchNumbered(d) == Some((d[..1], d[1..]))
  {
    assert Chomp(d) == d;
    TrailingDigitsOf([], d);
    assert [] + d == d;
  }

  /** A line-break-free prefix that does not end in a digit, followed by
      digits, is matched with exactly those groups. */
  lemma MatchNumberedComplete(prefix: string, num: string)
    requires prefix != [] && '\n' !in prefix && !IsDigit(prefix[|prefix| - 1]) && IsDigits(num)
    ensures MatchNumbered(prefix + num) == Some((prefix, num))
  {
    var t := prefix + num;
    assert t[|t| - 1] == num[|num| - 1];
    assert Chomp(t) == t;
    TrailingDigitsOf(prefix, num);
    assert t[..|prefix|] == prefix && t[|prefix|..] == num;
  }

  /** `f"{prefix}{int(num) + 1}"`: the code that follows. */
  function NextCode(prefix: string, num: string): string
    requires IsDigits(num)
  {
    prefix + NatToString(DigitsValue(num) + 1)
  }

  /** `s.split('/', 1)[0]`: the text before the first `/`. */
  function BeforeSlash(s: string): (r: string)
    requires '/' in s
    ensures |r| < |s| && s[|r|] == '/' && '/' !in r && s[..|r|] == r
  {
    s[..Find(s, '/')]
  }

  /** The successor code a base adds, when it ends in a number. */
  function Successor(base: string): set<string> {
    match MatchNumbered(base)
    case Some((prefix, num)) => {NextCode(prefix, num)}
    case None => {}
  }

  /** What a slashed code writes: its base and the base's successor. */
  function SlashedTable(base: string, subject: string): (r: Table)
    ensures forall k :: k in r ==> r[k] == subject
    ensures r.Keys == {base} + Successor(base)
  {
    match MatchNumbered(base)
    case Some((prefix, num)) => map[base := subject][NextCode(prefix, num) := subject]
    case None => map[base := subject]
  }

  /** What one row writes. Every key gets the stripped subject. A code
      without `/` writes itself, stripped. A code with `/` writes the text
      before its first `/`, unstripped, and, when that text ends in a number,
      also the same prefix with the number plus one. */
  function RowTable(row: Row): (r: Table)
    ensures forall k :: k in r ==> r[k] == Strip(row.subject)
    ensures '/' !in Strip(row.code) ==> r.Keys == {Strip(row.code)}
    ensures '/' in Strip(row.code) ==> r.Keys == {BeforeSlash(Strip(row.code))} + Successor(BeforeSlash(Strip(row.code)))
  {
    var code := Strip(row.code);
    var subject := Strip(row.subject);
    if '/' in code then SlashedTable(BeforeSlash(code), subject)
    else map[code := subject]
  }

  /** `parse_electives` after loading: the rows in order, a later row
      overwriting the keys of earlier ones. */
  function ParseElectives(rows: seq<Row>): (r: Table)
    ensures forall k :: k in r <==> exists i :: 0 <= i < |rows| && k in RowTable(rows[i])
    ensures forall i, k :: 0 <= i < |rows| && k in RowTable(rows[i])
                           && (forall j :: i < j < |rows| ==> k !in RowTable(rows[j]))
                           ==> r[k] == Strip(rows[i].subject)
  {
    var ms := RowTables(rows);
    var r := Overlay(ms);
    OverlayOfRows(rows, ms, r);
    r
  }

  /** The table each row writes, in row order. */
  function RowTables(rows: seq<Row>): (ms: seq<Table>)
    ensures |ms| == |rows| && forall i :: 0 <= i < |rows| ==> ms[i] == RowTable(rows[i])
  {
    seq(|rows|, i requires 0 <= i < |rows| => RowTable(rows[i]))
  }

  /** The overlay of the rows' tables, read back in terms of the rows. */
  lemma OverlayOfRows(rows: seq<Row>, ms: seq<Table>, r: Table)
    requires |ms| == |rows| && (forall i :: 0 <= i < |rows| ==> ms[i] == RowTable(rows[i]))
    requires Overlays(ms, r)
    ensures forall k :: k in r <==> exists i :: 0 <= i < |rows| && k in RowTable(rows[i])
    ensures forall i, k :: 0 <= i < |rows| && k in RowTable(rows[i])
                           && (forall j :: i < j < |rows| ==> k !in RowTable(rows[j]))
                           ==> r[k] == Strip(rows[i].subject)
  {
    forall i, k | 0 <= i < |rows| && k in RowTable(rows[i])
                  && (forall j :: i < j < |rows| ==> k !in RowTable(rows[j]))
      ensures r[k] == Strip(rows[i].subject)
    {
      assert LastWriter(ms, i, k);
    }
  }

  /** A numbered base is never its own successor, so a slashed row writes two keys. */
  lemma NextCodeDiffers(prefix: string, num: string)
    requires IsDigits(num)
    ensures NextCode(prefix, num) != prefix + num
  {
    if NextCode(prefix, num) == prefix + num {
      var s := NatToString(DigitsValue(num) + 1);
      assert (prefix + s)[|prefix|..] == s;
      assert (prefix + num)[|prefix|..] == num;
      NatToStringRoundTrip(DigitsValue(num) + 1);
    }
  }
}

=== FILE: events.dfy ===
/** `Event.from_string`: one timetable cell read as its type letter, the
    batches before the first `(`, the course code up to the next `)`, and a
    remainder holding the classroom and the lecturers. */
module Events {
  import opened Wrappers
  import opened Text
  import TimeSpan
  import Batches
  import CodeResolver
  import Tokens

  datatype Kind = Lecture | Tutorial | Practical | Talk

  /** The type text the event stores: the keys of the display table. */
  function Letter(k: Kind): string {
    match k
    case Lecture => "L"
    case Tutorial => "T"
    case Practical => "P"
    case Talk => "TALK"
  }

  /** The display table read backwards for a one-letter type; any other
      letter is missing from it. */
  function KindOf(c: char): (r: Option<Kind>)
    ensures r.Some? <==> c in "LTP"
    ensures r.Some? ==> Letter(r.value) == [c]
  {
    if c == 'L' then Some(Lecture)
    else if c == 'T' then Some(Tutorial)
    else if c == 'P' then Some(Practical)
    else None
  }

  /** Printing the event looks its type up in the display table; a letter
      missing there raises `KeyError`. */
  function DisplayKind(c: char): (r: Result<Kind>)
    ensures r.Success? <==> c in "LTP"
    ensures r.Success? ==> KindOf(c) == Some(r.value) && r.value != Talk && Letter(r.value) == [c]
    ensures r.Failure? ==> r.error == KeyError([c])
  {
    match KindOf(c)
    case Some(k) => Success(k)
    case None => Failure(KeyError([c]))
  }

  datatype Event = Event(
    text: string,
    kind: Kind,
    batches: seq<string>,
    eventCode: string,
    subject: string,
    classroom: string,
    lecturers: seq<string>,
    period: TimeSpan.Period,
    day: string)

  // ---------------------------------------------------------------------------
  // Cleaning and the table of literal corrections
  // ---------------------------------------------------------------------------

  const NoBreakSpace: char := '\U{A0}'

  /** `s.strip().replace("\n", " ").replace("\xa0", " ")` */
  function Clean(s: string): (r: string)
    ensures forall i :: 0 <= i < |r| ==> r[i] != '\n' && r[i] != NoBreakSpace
    ensures r == [] <==> Strip(s) == []
  {
    ReplaceChar(ReplaceChar(Strip(s), '\n', ' '), NoBreakSpace, ' ')
  }

  /** A cell with no white space at all is already clean. */
  lemma CleanKeeps(s: string)
    requires forall i :: 0 <= i < |s| ==> !IsSpace(s[i])
    ensures Clean(s) == s
  {
    StripKeeps(s, WhiteSpace);
    ReplaceCharAbsent(s, '\n', ' ');
    ReplaceCharAbsent(s, NoBreakSpace, ' ');
  }

  /** One repair of a cell text known to be mistyped in the published sheets. */
  datatype Correction =
    | Rewrite(find: string, replacement: string)
    | Overwrite(find: string, cell: string)
    | PracticalBranch
  {
    predicate Valid() {
      Rewrite? ==> find != []
    }
  }

  /** The repairs, in the order the cell parser tries them. */
  const Corrections: seq<Correction> := [
    Rewrite("C1-C3HS", "C1-C3(HS"),
    Overwrite("LC1-C3(HS211)-/FF1KMB", "LC1-C3(HS211)-/FF1/KMB"),
    PracticalBranch,
    Rewrite("A5-A6-A10", "A5,A6,A10")
  ]

  predicate AllValid(fs: seq<Correction>) {
    forall k :: 0 <= k < |fs| ==> fs[k].Valid()
  }

  predicate Fires(c: Correction, s: string) {
    match c
    case Rewrite(f, _) => Contains(s, f)
    case Overwrite(f, _) => Contains(s, f)
    case PracticalBranch => StartsWith(s, "PBG")
  }

  /** One repair. `PBG` followed by a digit loses its `B`; the cell `PBG`
      alone makes the digit test index past the end. */
  function Correct(c: Correction, s: string): (r: Result<string>)
    requires c.Valid()
    ensures !Fires(c, s) ==> r == Success(s)
    ensures r.Failure? <==> c.PracticalBranch? && s == "PBG"
  {
    match c
    case Rewrite(f, t) => if Contains(s, f) then Success(ReplaceAll(s, f, t)) else Success(s)
    case Overwrite(f, t) => if Contains(s, f) then Success(t) else Success(s)
    case PracticalBranch =>
      if !StartsWith(s, "PBG") then Success(s)
      else if |s| < 4 then Failure(IndexError("string index out of range"))
      else if IsDigit(s[3]) then Success("PG" + s[3..])
      else Success(s)
  }

  function ApplyCorrections(fs: seq<Correction>, s: string): Result<string>
    requires AllValid(fs)
  {
    if fs == [] then Success(s)
    else
      var t :- Correct(fs[0], s);
      ApplyCorrections(fs[1..], t)
  }

  /** A cell that triggers no repair passes through the table unchanged. */
  lemma {:induction false} NoCorrectionFires(fs: seq<Correction>, s: string)
    requires AllValid(fs)
    requires forall k :: 0 <= k < |fs| ==> !Fires(fs[k], s)
    ensures ApplyCorrections(fs, s) == Success(s)
  {
    if fs != [] {
      NoCorrectionFires(fs[1..], s);
    }
  }

  lemma ContainsLength(s: string, t: string)
    requires Contains(s, t)
    ensures |t| <= |s|
  {
    assert OccursAt(s, t, IndexOf(s, t));
  }

  /** A repair that can neither empty a cell nor turn one into `PBG`. */
  predicate Tame(c: Correction) {
    match c
    case Rewrite(f, t) => |f| >= 4 && |t| >= |f|
    case Overwrite(f, t) => |f| >= 4 && t != [] && t != "PBG"
    case PracticalBranch => true
  }

  lemma StepOutcome(c: Correction, s: string)
    requires Tame(c)
    ensures c.Valid()
    ensures Correct(c, s).Success? ==> (Correct(c, s).value == [] <==> s == [])
    ensures Correct(c, s).Success? ==> (Correct(c, s).value == "PBG" <==> s == "PBG")
  {
    if Fires(c, s) && !c.PracticalBranch? {
      ContainsLength(s, c.find);
    }
    if c.PracticalBranch? && Correct(c, s).Success? && StartsWith(s, "PBG") && IsDigit(s[3]) {
      assert Correct(c, s).value[1] == 'G';
    }
  }

  /** A table of tame repairs fails exactly on the cell `PBG`, when it holds
      the practical-branch repair, and keeps blank cells blank. */
  lemma {:induction false} TableOutcome(fs: seq<Correction>, s: string)
    requires forall k :: 0 <= k < |fs| ==> Tame(fs[k])
    ensures AllValid(fs)
    ensures ApplyCorrections(fs, s).Failure? <==> s == "PBG" && PracticalBranch in fs
    ensures ApplyCorrections(fs, s).Success? ==> (ApplyCorrections(fs, s).value == [] <==> s == [])
  {
    if fs != [] {
      StepOutcome(fs[0], s);
      TableOutcome(fs[1..], s);
      assert AllValid(fs) by {
        forall k | 0 <= k < |fs| ensures fs[k].Valid() {
          StepOutcome(fs[k], s);
        }
      }
      assert PracticalBranch in fs <==> fs[0] == PracticalBranch || PracticalBranch in fs[1..] by {
        assert fs == [fs[0]] + fs[1..];
      }
      match Correct(fs[0], s)
      case Failure(_) =>
      case Success(t) =>
        TableOutcome(fs[1..], t);
    }
  }

  /** The repairs reject exactly the cell `PBG`, and they never empty a
      cell or fill an empty one. */
  lemma CorrectionsOutcome(s: string)
    ensures AllValid(Corrections)
    ensures ApplyCorrections(Corrections, s).Failure? <==> s == "PBG"
    ensures ApplyCorrections(Corrections, s).Success? ==> (ApplyCorrections(Corrections, s).value == [] <==> s == [])
  {
    assert Corrections[2] == PracticalBranch;
    TableOutcome(Corrections, s);
  }

  // ---------------------------------------------------------------------------
  // The fields of a typed cell
  // ---------------------------------------------------------------------------

  datatype Fields = Fields(rawBatches: string, code: string, remainder: string)

  /** The batches run up to the first `(`, the code from just after it up to
      the next `)`, and the remainder starts at that `)`. Python's `find`
      gives -1 when the bracket is missing, which the slices read as "one
      from the end". */
  function SplitFields(s: string): Fields {
    var open := Find(s, '(');
    var rest := From(s, open);
    var close := Find(rest, ')');
    Fields(Upto(s, open), Slice(rest, 1, close), From(rest, close))
  }

  /** Batches, a bracketed code and a remainder are read back field by field. */
  lemma SplitFieldsExact(b: string, c: string, t: string)
    requires '(' !in b && ')' !in c
    ensures SplitFields(b + "(" + c + ")" + t) == Fields(b, c, ")" + t)
  {
    var rest := "(" + c + ")" + t;
    assert b + "(" + c + ")" + t == b + rest;
    OpenAt(b, rest);
    CloseFound(c, t);
    CloseAt(c, t);
    FieldsOf(b + rest, |b|, rest, |c| + 1, b, c, ")" + t);
  }

  lemma OpenAt(b: string, rest: string)
    requires '(' !in b && rest != [] && rest[0] == '('
    ensures Find(b + rest, '(') == |b| && From(b + rest, |b|) == rest && Upto(b + rest, |b|) == b
  {
    var s := b + rest;
    assert s[|b|] == '(';
    assert forall j :: 0 <= j < |b| ==> s[j] == b[j];
    SplitAfter(b, rest);
  }

  lemma CloseAt(c: string, t: string)
    ensures Slice("(" + c + ")" + t, 1, |c| + 1) == c
    ensures From("(" + c + ")" + t, |c| + 1) == ")" + t
  {
    Bracketed(c, t);
    SliceWithin("(" + c + ")" + t, 1, |c| + 1);
  }

  lemma CloseFound(c: string, t: string)
    requires ')' !in c
    ensures Find("(" + c + ")" + t, ')') == |c| + 1
  {
    assert "(" + c + ")" + t == ['('] + c + [')'] + t;
    FindAfter(['('] + c, ')', t);
  }

  lemma Bracketed(c: string, t: string)
    ensures ("(" + c + ")" + t)[1..|c| + 1] == c
    ensures ("(" + c + ")" + t)[|c| + 1..] == ")" + t
  {
    var rest := "(" + c + ")" + t;
    forall i | 0 <= i < |c| ensures rest[1..|c| + 1][i] == c[i] {
    }
    forall i | 0 <= i < |t| + 1 ensures rest[|c| + 1..][i] == (")" + t)[i] {
    }
  }

  lemma FieldsOf(s: string, open: int, rest: string, close: int, b: string, c: string, r: string)
    requires Find(s, '(') == open && From(s, open) == rest && Upto(s, open) == b
    requires Find(rest, ')') == close && Slice(rest, 1, close) == c && From(rest, close) == r
    ensures SplitFields(s) == Fields(b, c, r)
  {
  }

  lemma SplitAfter(a: string, b: string)
    ensures From(a + b, |a|) == b && Upto(a + b, |a|) == a
  {
    assert (a + b)[|a|..] == b;
  }

  /** Without a `(` the batch field is the cell minus its last character. */
  lemma SplitFieldsNoBracket(s: string)
    requires s != [] && '(' !in s
    ensures SplitFields(s).rawBatches == s[..|s| - 1]
  {
  }

  /** The batch parser already strips its output, so the extra strip keeps it. */
  lemma BatchesStripped(s: string)
    requires Batches.ParseBatches(s).Success?
    ensures StripEach(Batches.ParseBatches(s).value) == Batches.ParseBatches(s).value
  {
    var bs := Batches.ParseBatches(s).value;
    if Strip(s) != [] && !Batches.AllStringOnly(Batches.Parts(s)) {
      Batches.ParseBatchesYieldsCodes(s);
      CodesStripped(bs);
    }
  }

  lemma CodesStripped(bs: seq<string>)
    requires forall k :: 0 <= k < |bs| ==> Batches.IsBatchCode(bs[k])
    ensures StripEach(bs) == bs
  {
    forall k | 0 <= k < |bs| ensures Strip(bs[k]) == bs[k] {
      CodeStripped(bs[k]);
    }
  }

  lemma CodeStripped(b: string)
    requires Batches.IsBatchCode(b)
    ensures Strip(b) == b
  {
    assert b[|b| - 1] == b[1..][|b| - 2];
    StripKeeps(b, WhiteSpace);
  }

  /** Course codes the sheets misspell, with the code they stand for. */
  const CodeAliases: map<string, string> := map["M302" := "MA302"]

  /** The code between the brackets, stripped, with an alias replaced by the
      code it stands for. */
  function FixCode(code: string): (r: string)
    ensures r == Strip(r)
    ensures Strip(code) in CodeAliases ==> r == CodeAliases[Strip(code)]
    ensures Strip(code) !in CodeAliases ==> r == Strip(code)
  {
    var c := Strip(code);
    StripIdempotent(code);
    AliasesStripped();
    if c in CodeAliases then CodeAliases[c] else c
  }

  /** Every alias target is already stripped. */
  lemma AliasesStripped()
    ensures forall c :: c in CodeAliases ==> Strip(CodeAliases[c]) == CodeAliases[c]
  {
    forall c | c in CodeAliases
      ensures Strip(CodeAliases[c]) == CodeAliases[c]
    {
      assert c == "M302";
      UnstrippedCode("MA302");
    }
  }

  /** A code that starts and ends with a letter or digit has nothing to strip. */
  lemma UnstrippedCode(m: string)
    requires |m| > 0 && IsAlnum(m[0]) && IsAlnum(m[|m| - 1])
    ensures Strip(m) == m
  {
    StripKeeps(m, WhiteSpace);
  }

  /** The course name, or `""` when the resolver finds none, with white
      space collapsed. */
  function SubjectName(code: string, courses: map<string, string>): (r: string)
    ensures CodeResolver.LookupSub(Strip(code), courses).None? ==> r == ""
  {
    var name := CodeResolver.LookupSub(Strip(code), courses).GetOr("");
    CollapseSpaces(Strip(ReplaceChar(ReplaceChar(name, NoBreakSpace, ' '), '\n', ' ')))
  }

  /** A one-word course name stored under the code comes back as it is. */
  lemma SubjectOfKey(code: string, courses: map<string, string>)
    requires Strip(code) != [] && Strip(code) in courses
    requires courses[Strip(code)] != [] && forall i :: 0 <= i < |courses[Strip(code)]| ==> !IsSpace(courses[Strip(code)][i])
    ensures SubjectName(code, courses) == courses[Strip(code)]
  {
    var name := courses[Strip(code)];
    ReplaceCharAbsent(name, NoBreakSpace, ' ');
    ReplaceCharAbsent(name, '\n', ' ');
    StripKeeps(name, WhiteSpace);
    OneWord(name);
  }

  predicate AlnumAhead(c: char) {
    IsUpper(ToUpper(c)) || IsDigit(ToUpper(c))
  }

  lemma AlnumAheadIsAlnum(c: char)
    ensures AlnumAhead(c) <==> IsAlnum(c)
  {
  }

  /** Leading characters are dropped until one whose upper case is an ASCII
      letter or digit; running off the end indexes an empty string. */
  function SkipToAlnum(s: string): (r: Result<string>)
    ensures r.Success? <==> exists i :: 0 <= i < |s| && IsAlnum(s[i])
    ensures r.Success? ==> |r.value| <= |s| && r.value != [] && IsAlnum(r.value[0]) && r.value == s[|s| - |r.value|..]
    ensures r.Success? ==> forall i :: 0 <= i < |s| - |r.value| ==> !IsAlnum(s[i])
    decreases |s|
  {
    if s == [] then Failure(IndexError("string index out of range"))
    else
      AlnumAheadIsAlnum(s[0]);
      if AlnumAhead(s[0]) then Success(s)
      else
        AlnumLater(s);
        SkipToAlnum(s[1..])
  }

  lemma AlnumLater(s: string)
    requires s != [] && !IsAlnum(s[0])
    ensures (exists i :: 0 <= i < |s| && IsAlnum(s[i])) <==> (exists i :: 0 <= i < |s[1..]| && IsAlnum(s[1..][i]))
  {
    if i :| 0 <= i < |s| && IsAlnum(s[i]) {
      assert s[1..][i - 1] == s[i];
    }
    if i :| 0 <= i < |s[1..]| && IsAlnum(s[1..][i]) {
      assert s[i + 1] == s[1..][i];
    }
  }

  /** A classroom glued to a teacher becomes two tokens; anything else is
      split at the delimiters. */
  function Tokenise(s: string): (r: seq<string>)
    ensures Tokens.ParseClassroomTeacherFormat(s).Some? ==> |r| == 2 && r[0] + r[1] == Chomp(s)
    ensures Tokens.ParseClassroomTeacherFormat(s).None? ==> r == Tokens.ExtractSubstrings(s)
  {
    match Tokens.ParseClassroomTeacherFormat(s)
    case Some(rt) => [rt.room, rt.teacher]
    case None => Tokens.ExtractSubstrings(s)
  }

  // ---------------------------------------------------------------------------
  // The table of classroom special cases
  // ---------------------------------------------------------------------------

  /** How a known irregular cell places its classroom. */
  datatype RoomRule =
    | FirstTwoRooms(triggers: seq<string>)
    | LastTwoRooms(triggers: seq<string>)
    | NoClassroom(cell: string)
    | DotSeparated(trigger: string)
    | SpaceSeparated(trigger: string)

  /** The special cases, in the order the cell parser tries them. */
  const RoomRules: seq<RoomRule> := [
    FirstTwoRooms(["EDD/CADD0", "ACL,JBSPL", "SPL, 5G LAB/", "SPL,5G LAB/"]),
    LastTwoRooms(["BS,SHG/CL15/CL16"]),
    NoClassroom("TA18(25B31EC311)-TA13/MO"),
    DotSeparated("PL2/RAV.NFP1"),
    SpaceSeparated("SR05 NFMATHS3")
  ]

  predicate AnyIn(s: string, ts: seq<string>) {
    exists k :: 0 <= k < |ts| && Contains(s, ts[k])
  }

  /** Whether a rule applies to the remainder `s` of a cell whose cleaned
      text was `cell`. */
  predicate Applies(rule: RoomRule, s: string, cell: string) {
    match rule
    case FirstTwoRooms(ts) => AnyIn(s, ts)
    case LastTwoRooms(ts) => AnyIn(s, ts)
    case NoClassroom(c) => cell == c
    case DotSeparated(t) => Contains(s, t)
    case SpaceSeparated(t) => Contains(s, t)
  }

  predicate NoSlash(subs: seq<string>) {
    forall k :: 0 <= k < |subs| ==> '/' !in subs[k]
  }

  /** The classroom and lecturers a rule makes of the tokens. Two rooms keep
      every token, split between the classroom and the lecturers. */
  function Place(rule: RoomRule, subs: seq<string>): (r: Result<Tokens.Assignment>)
    ensures r.Failure? <==>
      || (rule.DotSeparated? && |subs| < 2)
      || (rule.SpaceSeparated? && (subs == [] || |Words(subs[0])| < 2))
    ensures r.Success? && rule.FirstTwoRooms? && |subs| >= 2 && NoSlash(subs) ==>
      Split(r.value.room, '/') + r.value.lecturers == subs
    ensures r.Success? && rule.LastTwoRooms? && |subs| >= 2 && NoSlash(subs) ==>
      r.value.lecturers + Split(r.value.room, '/') == subs
    ensures r.Success? && rule.NoClassroom? ==> r.value.lecturers == subs
    ensures r.Success? && rule.DotSeparated? ==> r.value.room == subs[0] && JoinWith(r.value.lecturers, ".") == subs[1]
  {
    match rule
    case FirstTwoRooms(_) =>
      FirstTwoSplit(subs);
      Success(Tokens.Assignment(JoinWith(Upto(subs, 2), "/"), From(subs, 2)))
    case LastTwoRooms(_) =>
      LastTwoSplit(subs);
      Success(Tokens.Assignment(JoinWith(From(subs, -2), "/"), Upto(subs, -2)))
    case NoClassroom(_) => Success(Tokens.Assignment("N/A", subs))
    case DotSeparated(_) =>
      if |subs| < 2 then Failure(IndexError("list index out of range"))
      else
        SplitJoin(subs[1], '.');
        Success(Tokens.Assignment(subs[0], Split(subs[1], '.')))
    case SpaceSeparated(_) =>
      if subs == [] then Failure(IndexError("list index out of range"))
      else
        var a := Words(subs[0]);
        if |a| < 2 then Failure(IndexError("list index out of range"))
        else Success(Tokens.Assignment(a[0], [a[1]]))
  }

  lemma FirstTwoSplit(subs: seq<string>)
    ensures |subs| >= 2 && NoSlash(subs) ==> Split(JoinWith(Upto(subs, 2), "/"), '/') + From(subs, 2) == subs
  {
    if |subs| >= 2 && NoSlash(subs) {
      var rooms := Upto(subs, 2);
      assert rooms == subs[..2];
      JoinSplit(rooms, '/');
      assert rooms + subs[2..] == subs;
    }
  }

  lemma LastTwoSplit(subs: seq<string>)
    ensures |subs| >= 2 && NoSlash(subs) ==> Upto(subs, -2) + Split(JoinWith(From(subs, -2), "/"), '/') == subs
  {
    if |subs| >= 2 && NoSlash(subs) {
      var rooms := From(subs, -2);
      assert rooms == subs[|subs| - 2..];
      JoinSplit(rooms, '/');
      assert subs[..|subs| - 2] + rooms == subs;
    }
  }

  /** The first rule that applies places the classroom; with none, the
      general classroom and faculty reading does. */
  function AssignRoom(rules: seq<RoomRule>, s: string, cell: string, subs: seq<string>): Result<Tokens.Assignment> {
    if rules == [] then Success(Tokens.ParseClassAndFaculty(subs))
    else if Applies(rules[0], s, cell) then Place(rules[0], subs)
    else AssignRoom(rules[1..], s, cell, subs)
  }

  lemma {:induction false} FirstApplicableRule(rules: seq<RoomRule>, s: string, cell: string, subs: seq<string>, k: nat)
    requires k < |rules| && Applies(rules[k], s, cell)
    requires forall j :: 0 <= j < k ==> !Applies(rules[j], s, cell)
    ensures AssignRoom(rules, s, cell, subs) == Place(rules[k], subs)
  {
    if k > 0 {
      FirstApplicableRule(rules[1..], s, cell, subs, k - 1);
    }
  }

  lemma {:induction false} NoRuleApplies(rules: seq<RoomRule>, s: string, cell: string, subs: seq<string>)
    requires forall j :: 0 <= j < |rules| ==> !Applies(rules[j], s, cell)
    ensures AssignRoom(rules, s, cell, subs) == Success(Tokens.ParseClassAndFaculty(subs))
  {
    if rules != [] {
      NoRuleApplies(rules[1..], s, cell, subs);
    }
  }

  // ---------------------------------------------------------------------------
  // Lecturers
  // ---------------------------------------------------------------------------

  /** A lecturer token: dashes and spaces trimmed, looked up in the faculty
      map (a hit is title-cased), cleaned, then rewritten when it is a
      new-faculty or teaching-assistant placeholder. */
  function NormaliseLecturer(token: string, faculties: map<string, string>, title: string -> string): string {
    var key := StripChars(token, "- ");
    var name := match Get(faculties, key) case Some(v) => title(v) case None => key;
    var clean := CollapseSpaces(StripChars(ReplaceChar(ReplaceChar(name, NoBreakSpace, ' '), '\n', ' '), "- "));
    var nf := Tokens.GetNewFaculty(clean).GetOr(clean);
    Tokens.GetTeachingAssistant(nf).GetOr(nf)
  }

  function NormaliseAll(ts: seq<string>, faculties: map<string, string>, title: string -> string): (r: seq<string>)
    ensures |r| == |ts| && forall k :: 0 <= k < |ts| ==> r[k] == NormaliseLecturer(ts[k], faculties, title)
  {
    seq(|ts|, k requires 0 <= k < |ts| => NormaliseLecturer(ts[k], faculties, title))
  }

  /** One word with no dash at either end. */
  predicate Word(w: string) {
    && w != [] && w[0] != '-' && w[|w| - 1] != '-'
    && (forall i :: 0 <= i < |w| ==> !IsSpace(w[i]))
  }

  /** A word that is no placeholder either. */
  predicate PlainName(w: string) {
    Word(w) && Tokens.MatchNewFaculty(w).None? && Tokens.MatchTeachingAssistant(w).None?
  }

  /** Cleaning leaves a word as it is. */
  lemma WordKept(w: string)
    requires Word(w)
    ensures StripChars(w, "- ") == w
    ensures CollapseSpaces(StripChars(ReplaceChar(ReplaceChar(w, NoBreakSpace, ' '), '\n', ' '), "- ")) == w
  {
    StripKeeps(w, OneOf("- "));
    ReplaceCharAbsent(w, NoBreakSpace, ' ');
    ReplaceCharAbsent(w, '\n', ' ');
    OneWord(w);
  }

  lemma PlainNameKept(w: string)
    requires PlainName(w)
    ensures StripChars(w, "- ") == w
    ensures CollapseSpaces(StripChars(ReplaceChar(ReplaceChar(w, NoBreakSpace, ' '), '\n', ' '), "- ")) == w
    ensures Tokens.GetTeachingAssistant(Tokens.GetNewFaculty(w).GetOr(w)).GetOr(w) == w
  {
    WordKept(w);
  }

  /** A plain token the faculty map does not know is kept as written. */
  lemma UnknownLecturerKept(token: string, faculties: map<string, string>, title: string -> string)
    requires PlainName(token) && token !in faculties
    ensures NormaliseLecturer(token, faculties, title) == token
  {
    PlainNameKept(token);
  }

  /** A token the faculty map knows becomes its title-cased name. */
  lemma KnownLecturerNamed(token: string, faculties: map<string, string>, title: string -> string)
    requires PlainName(token) && token in faculties && PlainName(title(faculties[token]))
    ensures NormaliseLecturer(token, faculties, title) == title(faculties[token])
  {
    PlainNameKept(token);
    PlainNameKept(title(faculties[token]));
  }

  /** A spelt-out new-faculty name is not read again as an assistant. */
  lemma SpeltOutNotAssistant(p: Tokens.Placeholder)
    ensures Tokens.GetTeachingAssistant(Tokens.NewFacultyName(p)).None?
  {
    var name := Tokens.NewFacultyName(p);
    var t := "New Faculty ";
    assert name[..|t|] == t;
    assert name[0] == 'N' && name[1] == 'e';
    assert Chomp(name)[0] == 'N';
  }

  /** The text of a placeholder whose letters hold no white space or dash is a word. */
  lemma PlaceholderWord(chars: string, number: string)
    requires forall i :: 0 <= i < |chars| ==> !IsSpace(chars[i]) && chars[i] != '-'
    requires IsDigits(number)
    ensures Word("NF" + chars + number) && '\n' !in chars
  {
    var w := "NF" + chars + number;
    assert w[0] == 'N' && w[|w| - 1] == number[|number| - 1];
    forall i | 0 <= i < |w| ensures !IsSpace(w[i]) {
      if 2 <= i < 2 + |chars| {
        assert w[i] == chars[i - 2];
      } else if i >= 2 + |chars| {
        assert w[i] == number[i - 2 - |chars|];
      }
    }
    forall i | 0 <= i < |chars| ensures chars[i] != '\n' {
      assert !IsSpace(chars[i]);
    }
  }

  /** An unknown new-faculty placeholder is spelt out. */
  lemma NewFacultyLecturer(chars: string, number: string, faculties: map<string, string>, title: string -> string)
    requires forall i :: 0 <= i < |chars| ==> !IsSpace(chars[i]) && chars[i] != '-'
    requires chars == [] || !IsDigit(chars[|chars| - 1])
    requires IsDigits(number)
    requires "NF" + chars + number !in faculties
    ensures NormaliseLecturer("NF" + chars + number, faculties, title) == Tokens.NewFacultyName(Tokens.Placeholder(chars, number))
  {
    var w := "NF" + chars + number;
    PlaceholderWord(chars, number);
    WordKept(w);
    Tokens.NewFacultyRoundTrip(chars, number);
    SpeltOutNotAssistant(Tokens.Placeholder(chars, number));
  }

  // ---------------------------------------------------------------------------
  // The cell parser
  // ---------------------------------------------------------------------------

  /** A talk: batches before the first `(`, the venue after the last `-`. */
  function ParseTalk(s: string, period: TimeSpan.Period, day: string): (r: Result<Event>)
    ensures r.Success? ==> r.value.kind == Talk && r.value.lecturers == [] && r.value.eventCode == "TALK"
    ensures r.Success? ==> r.value.text == s && r.value.period == period && r.value.day == Capitalize(day)
    ensures r.Success? ==> forall i :: 0 <= i < |r.value.classroom| ==> r.value.classroom[i] != '-'
  {
    var open := Find(s, '(');
    var batches :- Batches.ParseBatches(Upto(s, open));
    var pieces := Split(From(s, open), '-');
    var venue := Strip(Last(pieces));
    StripNoDash(Last(pieces));
    Success(Event(s, Talk, StripEach(batches), "TALK", "Talk", venue, [], period, Capitalize(day)))
  }

  lemma StripNoDash(piece: string)
    requires '-' !in piece
    ensures forall i :: 0 <= i < |Strip(piece)| ==> Strip(piece)[i] != '-'
  {
    forall i | 0 <= i < |Strip(piece)| ensures Strip(piece)[i] != '-' {
      StripWithIn(piece, WhiteSpace, i);
    }
  }

  /** A talk cell `b(mid-v)`: the batches are those of the text before the
      first `(`, each stripped, and the venue is the stripped text after the
      last `-`; the talk fails exactly when those batches fail. */
  lemma TalkParts(b: string, mid: string, v: string, period: TimeSpan.Period, day: string)
    requires '(' !in b && '-' !in v
    ensures var r := ParseTalk(b + "(" + mid + "-" + v, period, day);
      && (r.Failure? <==> Batches.ParseBatches(b).Failure?)
      && (r.Success? ==> r.value.batches == StripEach(Batches.ParseBatches(b).value) && r.value.classroom == Strip(v))
  {
    var s := b + "(" + mid + "-" + v;
    var rest := "(" + mid;
    assert s == b + ['('] + (mid + "-" + v);
    FindAfter(b, '(', mid + "-" + v);
    SliceWithin(s, 0, |b|);
    SliceWithin(s, |b|, |s|);
    assert Upto(s, |b|) == b;
    assert From(s, |b|) == rest + ['-'] + v;
    SplitByLast(rest, '-', v, ['-']);
  }

  /** A lecture, tutorial or practical cell after the corrections. */
  function ParseTyped(s: string, og: string, period: TimeSpan.Period, day: string,
                      courses: map<string, string>, faculties: map<string, string>,
                      title: string -> string): (r: Result<Event>)
    requires s != []
    ensures r.Success? ==> KindOf(s[0]) == Some(r.value.kind) && r.value.text == s
    ensures r.Success? ==> r.value.period == period && r.value.day == Capitalize(day)
    ensures r.Success? ==> r.value.kind != Talk && Letter(r.value.kind) == [s[0]]
    ensures r.Success? ==> r.value.eventCode == Strip(r.value.eventCode)
    ensures KindOf(s[0]).None? ==> r.Failure?
  {
    var f := SplitFields(s[1..]);
    var raw := if '.' in f.rawBatches then ReplaceChar(f.rawBatches, '.', ',') else f.rawBatches;
    var batches :- Batches.ParseBatches(raw);
    var code := FixCode(f.code);
    var subject := SubjectName(code, courses);
    var rest :- SkipToAlnum(f.remainder);
    var placed :- AssignRoom(RoomRules, rest, og, Tokenise(rest));
    var kind :- DisplayKind(s[0]);
    Success(Event(s, kind, StripEach(batches), code, subject, placed.room,
                  NormaliseAll(placed.lecturers, faculties, title), period, Capitalize(day)))
  }

  /** What every parsed event satisfies: a talk is recognised by its text
      and has no lecturers, any other event carries the letter its text
      starts with, and the time slot and day are the ones given. */
  predicate Shaped(e: Event, period: TimeSpan.Period, day: string) {
    && e.text != []
    && (e.kind == Talk <==> Contains(e.text, "TALK"))
    && (e.kind != Talk ==> Letter(e.kind) == [e.text[0]])
    && (e.kind == Talk ==> e.lecturers == [])
    && e.period == period && e.day == Capitalize(day)
  }

  /** `Event.from_string`: `None` for a blank cell, an event, or the
      exception the code raises. */
  function ParseEvent(cell: string, period: TimeSpan.Period, day: string,
                      courses: map<string, string>, faculties: map<string, string>,
                      title: string -> string): (r: Result<Option<Event>>)
    ensures r == Success(None) <==> Strip(cell) == []
    ensures Clean(cell) == "PBG" ==> r.Failure?
    ensures r.Success? && r.value.Some? ==> Shaped(r.value.value, period, day)
  {
    var og := Clean(cell);
    CorrectionsOutcome(og);
    var s :- ApplyCorrections(Corrections, og);
    if s == [] then Success(None)
    else if Contains(s, "TALK") then
      var e :- ParseTalk(s, period, day);
      Success(Some(e))
    else
      var e :- ParseTyped(s, og, period, day, courses, faculties, title);
      Success(Some(e))
  }

  // ---------------------------------------------------------------------------
  // The common cell layout, read back
  // ---------------------------------------------------------------------------

  predicate NoSpace(s: string) {
    forall i :: 0 <= i < |s| ==> !IsSpace(s[i])
  }

  lemma NoSpaceJoin(a: string, b: string)
    requires NoSpace(a) && NoSpace(b)
    ensures NoSpace(a + b)
  {
    forall i | 0 <= i < |a + b| ensures !IsSpace((a + b)[i]) {
      if i >= |a| {
        assert (a + b)[i] == b[i - |a|];
      }
    }
  }

  /** A lecture, tutorial or practical cell as the sheets usually write it:
      the type letter, one batch range, the course code in brackets, then a
      classroom and one lecturer separated by `/`. */
  datatype Standard = Standard(kind: Kind, range: Batches.RangeGroups, code: string,
                               roomLetters: string, roomNumber: string, lecturer: string)
  {
    function Room(): string {
      roomLetters + roomNumber
    }

    function Remainder(): string {
      Room() + "/" + lecturer
    }

    /** Everything after the type letter. */
    function Body(): string {
      range.Text() + "(" + code + ")" + Remainder()
    }

    function Text(): string {
      Letter(kind) + Body()
    }

    predicate Valid() {
      FrontValid() && RestValid()
    }

    /** A typed event, one ascending batch range, a plain code. */
    predicate FrontValid() {
      && kind != Talk
      && range.WellFormed() && (range.endLetter == "" || range.endLetter == [range.letter])
      && DigitsValue(range.first) <= DigitsValue(range.last)
      && code != [] && NoSpace(code) && ')' !in code && code !in CodeAliases
    }

    /** A classroom of letters and digits that is no placeholder, and one
        plain lecturer word. */
    predicate RestValid() {
      && Tokens.Letters(roomLetters) && IsDigits(roomNumber)
      && Tokens.GetNewFaculty(Room()).None? && Tokens.GetTeachingAssistant(Room()).None?
      && Word(lecturer) && Tokens.Undelimited(lecturer) && !Tokens.LastIsRoom(lecturer)
    }
  }

  /** The cell triggers none of the literal corrections, is no talk, and its
      remainder none of the classroom special cases. */
  predicate Ordinary(cell: string, remainder: string) {
    && (forall k :: 0 <= k < |Corrections| ==> !Fires(Corrections[k], cell))
    && !Contains(cell, "TALK")
    && (forall j :: 0 <= j < |RoomRules| ==> !Applies(RoomRules[j], remainder, cell))
  }

  lemma LettersDigitsNoSpace(letters: string, digits: string)
    requires Tokens.Letters(letters) && IsDigits(digits)
    ensures NoSpace(letters) && NoSpace(digits)
    ensures forall i :: 0 <= i < |letters + digits| ==> (letters + digits)[i] !in Tokens.Delimiters
  {
    forall i | 0 <= i < |letters + digits| ensures (letters + digits)[i] !in Tokens.Delimiters {
      if i >= |letters| {
        assert (letters + digits)[i] == digits[i - |letters|];
      }
    }
  }

  lemma StandardNoSpace(x: Standard)
    requires x.Valid()
    ensures NoSpace(x.Text())
  {
    Batches.RangeTextPlain(x.range);
    LettersDigitsNoSpace(x.roomLetters, x.roomNumber);
    NoSpaceJoin(x.roomLetters, x.roomNumber);
    NoSpaceJoin(x.Room(), "/");
    NoSpaceJoin(x.Room() + "/", x.lecturer);
    NoSpaceJoin(x.range.Text(), "(");
    NoSpaceJoin(x.range.Text() + "(", x.code);
    NoSpaceJoin(x.range.Text() + "(" + x.code, ")");
    NoSpaceJoin(x.range.Text() + "(" + x.code + ")", x.Remainder());
    NoSpaceJoin(Letter(x.kind), x.Body());
  }

  /** The fields after the type letter. */
  lemma StandardFields(x: Standard)
    requires x.FrontValid()
    ensures x.Text()[0] == Letter(x.kind)[0]
    ensures SplitFields(x.Text()[1..]) == Fields(x.range.Text(), x.code, ")" + x.Remainder())
    ensures '.' !in x.range.Text()
  {
    Batches.RangeTextPlain(x.range);
    var b := x.range.Text();
    assert '(' !in b && '.' !in b by {
      forall i | 0 <= i < |b| ensures b[i] != '(' && b[i] != '.' {
        assert IsUpper(b[i]) || IsDigit(b[i]) || b[i] == '-';
      }
    }
    assert |Letter(x.kind)| == 1;
    assert x.Text()[1..] == x.Body();
    SplitFieldsExact(b, x.code, x.Remainder());
  }

  lemma StandardCode(x: Standard)
    requires x.FrontValid()
    ensures FixCode(x.code) == x.code
  {
    StripKeeps(x.code, WhiteSpace);
  }

  lemma StandardSkip(x: Standard)
    requires x.RestValid()
    ensures SkipToAlnum(")" + x.Remainder()) == Success(x.Remainder())
  {
    var r := x.Remainder();
    assert r[0] == x.roomLetters[0];
    assert (")" + r)[1..] == r;
    AlnumAheadIsAlnum(')');
    AlnumAheadIsAlnum(r[0]);
  }

  lemma RemainderPlain(x: Standard)
    requires x.RestValid()
    ensures '\n' !in x.Remainder() && Chomp(x.Remainder()) == x.Remainder()
    ensures NoSpace(x.Room())
    ensures forall i :: 0 <= i < |x.Room()| ==> x.Room()[i] !in Tokens.Delimiters
  {
    var t := x.Remainder();
    LettersDigitsNoSpace(x.roomLetters, x.roomNumber);
    NoSpaceJoin(x.roomLetters, x.roomNumber);
    NoSpaceJoin(x.Room(), "/");
    NoSpaceJoin(x.Room() + "/", x.lecturer);
    forall i | 0 <= i < |t| ensures t[i] != '\n' {
      assert !IsSpace(t[i]);
    }
    ChompNoNewline(t);
  }

  /** Letters and digits followed by something other than a letter or
      digit do not read as a classroom glued to a teacher. */
  lemma NotGlued(letters: string, digits: string, tail: string)
    requires Tokens.Letters(letters) && IsDigits(digits)
    requires tail != [] && !IsLetter(tail[0]) && !IsDigit(tail[0])
    requires Chomp(letters + digits + tail) == letters + digits + tail
    ensures Tokens.ParseClassroomTeacherFormat(letters + digits + tail).None?
  {
    var t := letters + digits + tail;
    var a, n := |letters|, |digits|;
    assert t[a + n] == tail[0];
    assert Run(t, Alphabetic) == a by {
      assert t[..a] == letters;
      assert t[a] == digits[0];
      Tokens.RunPrefix(t, letters, Alphabetic);
    }
    assert DigitRun(t, a) == n by {
      assert t[a..a + n] == digits;
    }
  }

  lemma RemainderNotGlued(x: Standard)
    requires x.RestValid()
    ensures Tokens.ParseClassroomTeacherFormat(x.Remainder()).None?
  {
    RemainderPlain(x);
    RemainderShape(x);
    NotGlued(x.roomLetters, x.roomNumber, "/" + x.lecturer);
  }

  lemma RemainderShape(x: Standard)
    ensures x.Remainder() == x.roomLetters + x.roomNumber + ("/" + x.lecturer)
  {
  }

  /** Two delimiter-free words joined by `/` split into the two. */
  lemma SplitTwo(a: string, b: string)
    requires a != [] && b != [] && NoSpace(a) && NoSpace(b)
    requires Tokens.Undelimited(a) && Tokens.Undelimited(b)
    ensures Tokens.ExtractSubstrings(a + "/" + b) == [a, b]
  {
    OneToken(a);
    OneToken(b);
    assert a + "/" + b == a + ['/'] + b;
    Tokens.ExtractSplitsAt(a, '/', b);
  }

  lemma OneToken(a: string)
    requires a != [] && NoSpace(a) && Tokens.Undelimited(a)
    ensures Tokens.ExtractSubstrings(a) == [a]
  {
    Tokens.ExtractUndelimited(a);
    StripKeeps(a, WhiteSpace);
  }

  lemma RemainderSplits(x: Standard)
    requires x.RestValid()
    ensures Tokens.ExtractSubstrings(x.Remainder()) == [x.Room(), x.lecturer]
  {
    RemainderPlain(x);
    SplitTwo(x.Room(), x.lecturer);
  }

  /** A classroom and a lecturer joined by `/` are two tokens. */
  lemma StandardTokens(x: Standard)
    requires x.RestValid()
    ensures Tokenise(x.Remainder()) == [x.Room(), x.lecturer]
  {
    RemainderNotGlued(x);
    RemainderSplits(x);
  }

  lemma StandardRoom(x: Standard)
    requires x.Valid() && Ordinary(x.Text(), x.Remainder())
    ensures AssignRoom(RoomRules, x.Remainder(), x.Text(), [x.Room(), x.lecturer])
         == Success(Tokens.Assignment(x.Room(), [x.lecturer]))
  {
    NoRuleApplies(RoomRules, x.Remainder(), x.Text(), [x.Room(), x.lecturer]);
    assert !Tokens.StaffFirst([x.Room(), x.lecturer]);
  }

  /** What the typed parser finds in a cell: the batch text and its
      batches, the code, the remainder and the classroom and lecturer it
      splits into, and the type. */
  predicate FieldsRead(s: string, og: string, b: string, code: string, rem: string,
                       bs: seq<string>, room: string, lecturer: string, kind: Kind)
  {
    FrontRead(s, b, code, rem, bs, kind) && RestRead(og, rem, room, lecturer)
  }

  /** The type, the batches and the code. */
  predicate FrontRead(s: string, b: string, code: string, rem: string, bs: seq<string>, kind: Kind) {
    && s != [] && DisplayKind(s[0]) == Success(kind)
    && SplitFields(s[1..]) == Fields(b, code, ")" + rem) && '.' !in b
    && Batches.ParseBatches(b) == Success(bs) && StripEach(bs) == bs
    && FixCode(code) == code
  }

  /** The classroom and the lecturer. */
  predicate RestRead(og: string, rem: string, room: string, lecturer: string) {
    && SkipToAlnum(")" + rem) == Success(rem)
    && Tokenise(rem) == [room, lecturer]
    && AssignRoom(RoomRules, rem, og, [room, lecturer]) == Success(Tokens.Assignment(room, [lecturer]))
  }

  /** A typed cell whose fields read as given parses to the event built
      from them. */
  lemma TypedFromFields(s: string, og: string, b: string, code: string, rem: string,
                        bs: seq<string>, room: string, lecturer: string, kind: Kind,
                        period: TimeSpan.Period, day: string, courses: map<string, string>,
                        faculties: map<string, string>, title: string -> string)
    requires FieldsRead(s, og, b, code, rem, bs, room, lecturer, kind)
    ensures ParseTyped(s, og, period, day, courses, faculties, title)
         == Success(Event(s, kind, bs, code, SubjectName(code, courses), room,
                          NormaliseAll([lecturer], faculties, title), period, Capitalize(day)))
  {
  }

  /** One lecturer token gives one lecturer. */
  lemma SingleLecturer(lecturer: string, faculties: map<string, string>, title: string -> string)
    ensures NormaliseAll([lecturer], faculties, title) == [NormaliseLecturer(lecturer, faculties, title)]
  {
  }

  /** A clean cell no correction touches and that is no talk is read by
      the typed parser. */
  lemma EventOfTyped(cell: string, period: TimeSpan.Period, day: string, courses: map<string, string>,
                     faculties: map<string, string>, title: string -> string, e: Event)
    requires cell != [] && Clean(cell) == cell && !Contains(cell, "TALK")
    requires forall k :: 0 <= k < |Corrections| ==> !Fires(Corrections[k], cell)
    requires ParseTyped(cell, cell, period, day, courses, faculties, title) == Success(e)
    ensures ParseEvent(cell, period, day, courses, faculties, title) == Success(Some(e))
  {
    CorrectionsOutcome(cell);
    NoCorrectionFires(Corrections, cell);
  }

  /** The fields of a standard cell are its parts. */
  lemma StandardFieldsRead(x: Standard)
    requires x.Valid() && Ordinary(x.Text(), x.Remainder())
    ensures FieldsRead(x.Text(), x.Text(), x.range.Text(), x.code, x.Remainder(),
                       Batches.RangeList(x.range.letter, DigitsValue(x.range.first), DigitsValue(x.range.last)),
                       x.Room(), x.lecturer, x.kind)
  {
    StandardFront(x);
    StandardRest(x);
  }

  lemma StandardFront(x: Standard)
    requires x.FrontValid()
    ensures FrontRead(x.Text(), x.range.Text(), x.code, x.Remainder(),
                      Batches.RangeList(x.range.letter, DigitsValue(x.range.first), DigitsValue(x.range.last)), x.kind)
  {
    StandardFields(x);
    Batches.SingleRange(x.range);
    BatchesStripped(x.range.Text());
    StandardCode(x);
    StandardKind(x.kind, x.Body());
  }

  /** The type letter of a typed event reads back as its type. */
  lemma StandardKind(k: Kind, body: string)
    requires k != Talk
    ensures DisplayKind((Letter(k) + body)[0]) == Success(k)
  {
  }

  lemma StandardRest(x: Standard)
    requires x.Valid() && Ordinary(x.Text(), x.Remainder())
    ensures RestRead(x.Text(), x.Remainder(), x.Room(), x.lecturer)
  {
    StandardSkip(x);
    StandardTokens(x);
    StandardRoom(x);
  }

  /** The typed parser reads a standard cell field by field. */
  lemma StandardTyped(x: Standard, period: TimeSpan.Period, day: string, courses: map<string, string>,
                      faculties: map<string, string>, title: string -> string)
    requires x.Valid() && Ordinary(x.Text(), x.Remainder())
    ensures ParseTyped(x.Text(), x.Text(), period, day, courses, faculties, title)
         == Success(Event(x.Text(), x.kind,
                          Batches.RangeList(x.range.letter, DigitsValue(x.range.first), DigitsValue(x.range.last)),
                          x.code, SubjectName(x.code, courses), x.Room(),
                          NormaliseAll([x.lecturer], faculties, title), period, Capitalize(day)))
  {
    StandardFieldsRead(x);
    TypedFromFields(x.Text(), x.Text(), x.range.Text(), x.code, x.Remainder(),
                    Batches.RangeList(x.range.letter, DigitsValue(x.range.first), DigitsValue(x.range.last)),
                    x.Room(), x.lecturer, x.kind, period, day, courses, faculties, title);
  }

  /** Reading a standard cell gives back its parts: the type, the range's
      batches, the code, the classroom and the one lecturer, looked up. */
  lemma StandardRoundTrip(x: Standard, period: TimeSpan.Period, day: string, courses: map<string, string>,
                          faculties: map<string, string>, title: string -> string)
    requires x.Valid() && Ordinary(x.Text(), x.Remainder())
    ensures ParseEvent(x.Text(), period, day, courses, faculties, title)
         == Success(Some(Event(x.Text(), x.kind,
                               Batches.RangeList(x.range.letter, DigitsValue(x.range.first), DigitsValue(x.range.last)),
                               x.code, SubjectName(x.code, courses), x.Room(),
                               [NormaliseLecturer(x.lecturer, faculties, title)], period, Capitalize(day))))
  {
    var s := x.Text();
    StandardNoSpace(x);
    CleanKeeps(s);
    StandardTyped(x, period, day, courses, faculties, title);
    SingleLecturer(x.lecturer, faculties, title);
    EventOfTyped(s, period, day, courses, faculties, title,
                 Event(s, x.kind, Batches.RangeList(x.range.letter, DigitsValue(x.range.first), DigitsValue(x.range.last)),
                       x.code, SubjectName(x.code, courses), x.Room(),
                       NormaliseAll([x.lecturer], faculties, title), period, Capitalize(day)));
  }

  // ---------------------------------------------------------------------------
  // A worked cell
  // ---------------------------------------------------------------------------

  /** `LF2-F6(CS201)CR5/GM`: a lecture of CS201 for batches F2 to F6 in
      classroom CR5, given by GM. */
  const ExampleCell := Standard(Lecture, Batches.RangeGroups('F', "2", "F", "6"), "CS201", "CR", "5", "GM")

  lemma ExampleText()
    ensures ExampleCell.Text() == "LF2-F6(CS201)CR5/GM"
    ensures ExampleCell.Remainder() == "CR5/GM" && ExampleCell.Room() == "CR5"
  {
    var x := ExampleCell;
    RangeExampleText();
    ExampleRemainder();
    var t, u := x.Text(), "LF2-F6(CS201)CR5/GM";
    assert t == "L" + "F2-F6" + "(" + "CS201" + ")" + "CR5/GM";
    assert |t| == |u|;
    forall i | 0 <= i < |u| ensures t[i] == u[i] {
    }
  }

  lemma ExampleRemainder()
    ensures ExampleCell.Remainder() == "CR5/GM" && ExampleCell.Room() == "CR5"
  {
    assert ExampleCell.Room() == "CR5";
  }

  lemma RangeExampleText()
    ensures ExampleCell.range.Text() == "F2-F6"
  {
    assert ['F'] + "2" + "-" + "F" + "6" == "F2-F6";
  }

  lemma ExampleValid()
    ensures ExampleCell.Valid()
  {
    ExampleFront();
    ExampleRest();
  }

  lemma ExampleFront()
    ensures ExampleCell.FrontValid()
  {
    assert DigitsValue("2") == 2 && DigitsValue("6") == 6;
    assert IsDigits("2") && IsDigits("6") && AllUpper("F");
  }

  lemma ExampleRest()
    ensures ExampleCell.RestValid()
  {
    assert ExampleCell.Room() == "CR5";
    assert Chomp("CR5") == "CR5" && "CR5"[..2] == "CR";
    assert Chomp("GM") == "GM";
  }

  /** No literal correction fires on a cell with no `H`, no `A` and no
      `PBG` prefix. */
  lemma CorrectionsIdle(s: string)
    requires 'H' !in s && 'A' !in s && !StartsWith(s, "PBG")
    ensures forall k :: 0 <= k < |Corrections| ==> !Fires(Corrections[k], s)
  {
    MissingChar(s, "C1-C3HS", 'H');
    MissingChar(s, "LC1-C3(HS211)-/FF1KMB", 'H');
    MissingChar(s, "A5-A6-A10", 'A');
  }

  /** No classroom special case applies to a remainder with none of the
      letters `A`, `B`, `E`, `P` and `S`. */
  lemma RoomRulesIdle(rem: string, cell: string)
    requires 'A' !in rem && 'B' !in rem && 'E' !in rem && 'P' !in rem && 'S' !in rem
    requires cell != "TA18(25B31EC311)-TA13/MO"
    ensures forall j :: 0 <= j < |RoomRules| ==> !Applies(RoomRules[j], rem, cell)
  {
    MissingChar(rem, "EDD/CADD0", 'E');
    MissingChar(rem, "ACL,JBSPL", 'A');
    MissingChar(rem, "SPL, 5G LAB/", 'S');
    MissingChar(rem, "SPL,5G LAB/", 'S');
    MissingChar(rem, "BS,SHG/CL15/CL16", 'B');
    MissingChar(rem, "PL2/RAV.NFP1", 'P');
    MissingChar(rem, "SR05 NFMATHS3", 'S');
    assert !AnyIn(rem, ["EDD/CADD0", "ACL,JBSPL", "SPL, 5G LAB/", "SPL,5G LAB/"]);
    assert !AnyIn(rem, ["BS,SHG/CL15/CL16"]);
  }

  /** The letters the special cases look for, absent from the example. */
  lemma ExampleLetters()
    ensures 'H' !in "LF2-F6(CS201)CR5/GM" && 'A' !in "LF2-F6(CS201)CR5/GM" && 'T' !in "LF2-F6(CS201)CR5/GM"
    ensures !StartsWith("LF2-F6(CS201)CR5/GM", "PBG")
    ensures "LF2-F6(CS201)CR5/GM" != "TA18(25B31EC311)-TA13/MO"
    ensures 'A' !in "CR5/GM" && 'B' !in "CR5/GM" && 'E' !in "CR5/GM" && 'P' !in "CR5/GM" && 'S' !in "CR5/GM"
  {
    assert "LF2-F6(CS201)CR5/GM"[0] == 'L';
  }

  lemma ExampleOrdinary()
    ensures Ordinary("LF2-F6(CS201)CR5/GM", "CR5/GM")
  {
    var s, rem := "LF2-F6(CS201)CR5/GM", "CR5/GM";
    ExampleLetters();
    CorrectionsIdle(s);
    MissingChar(s, "TALK", 'T');
    RoomRulesIdle(rem, s);
  }

  lemma ExampleBatches()
    ensures var g := ExampleCell.range;
      Batches.RangeList(g.letter, DigitsValue(g.first), DigitsValue(g.last)) == ["F2", "F3", "F4", "F5", "F6"]
  {
    assert DigitsValue("2") == 2 && DigitsValue("6") == 6;
    var r := Batches.RangeList('F', 2, 6);
    assert r[0] == "F2" && r[1] == "F3" && r[2] == "F4" && r[3] == "F5" && r[4] == "F6";
  }

  /** The cell reads as one lecture event with the five batches, the code,
      the classroom and the looked-up lecturer. */
  lemma ExampleEvent(period: TimeSpan.Period, day: string, courses: map<string, string>,
                     faculties: map<string, string>, title: string -> string)
    ensures ParseEvent("LF2-F6(CS201)CR5/GM", period, day, courses, faculties, title)
         == Success(Some(Event("LF2-F6(CS201)CR5/GM", Lecture, ["F2", "F3", "F4", "F5", "F6"],
                               "CS201", SubjectName("CS201", courses), "CR5",
                               [NormaliseLecturer("GM", faculties, title)], period, Capitalize(day))))
  {
    var x := ExampleCell;
    ExampleText();
    ExampleValid();
    ExampleOrdinary();
    ExampleBatches();
    StandardRoundTrip(x, period, day, courses, faculties, title);
    assert x.kind == Lecture && x.code == "CS201" && x.lecturer == "GM";
  }
}

=== FILE: faculty.dfy ===
/** The faculty-name tables of jiit_tt_parser/parser/parse_faculty.py: the
    dedicated faculty workbooks, read as column pairs, and the faculty lists
    found under a heading cell of a timetable workbook, read down a column. */
module FacultyTable {
  import opened Wrappers
  import opened Text
  import opened Sheet
  import opened Tables

  // ---------------------------------------------------------------------------
  // Scan order
  // ---------------------------------------------------------------------------

  /** Cell `p` is met before cell `q` when the sheet is read row by row. */
  predicate RowMajorBefore(p: (int, int), q: (int, int)) {
    p.0 < q.0 || (p.0 == q.0 && p.1 < q.1)
  }

  /** Cell `p` is met before cell `q` when the sheet is read column by column. */
  predicate ColumnMajorBefore(p: (int, int), q: (int, int)) {
    p.1 < q.1 || (p.1 == q.1 && p.0 < q.0)
  }

  /** Cell `p` lies in the first `rows` rows and `cols` columns. */
  predicate InArea(p: (int, int), rows: int, cols: int) {
    1 <= p.0 <= rows && 1 <= p.1 <= cols
  }

  /** Cell `p` is met, reading rows from cell `(i, j)` on. */
  predicate RowMajorFrom(i: int, j: int, p: (int, int), rows: int, cols: int) {
    InArea(p, rows, cols) && (p.0 > i || (p.0 == i && p.1 >= j))
  }

  // ---------------------------------------------------------------------------
  // search_bounds
  // ---------------------------------------------------------------------------

  /** The text marking the end of the faculty columns. */
  const TeamMark := "Time Table Team"

  predicate IsTeamCell(g: Grid, p: (int, int)) {
    Contains(g.Str(p.0, p.1), TeamMark)
  }

  /** The first cell holding the team mark, reading rows from `(i, j)` on. */
  function TeamFrom(g: Grid, i: int, j: int, rows: int, cols: int): (p: Option<(int, int)>)
    requires 1 <= i && 1 <= j
    ensures p.Some? ==> RowMajorFrom(i, j, p.value, rows, cols) && IsTeamCell(g, p.value)
    ensures p.Some? ==> forall q :: RowMajorFrom(i, j, q, rows, cols) && RowMajorBefore(q, p.value) ==> !IsTeamCell(g, q)
    ensures p.None? <==> forall q :: RowMajorFrom(i, j, q, rows, cols) ==> !IsTeamCell(g, q)
    decreases rows + 1 - i, cols + 1 - j
  {
    if i > rows then None
    else if j > cols then
      RowEnd(i, j, rows, cols);
      TeamFrom(g, i + 1, 1, rows, cols)
    else if IsTeamCell(g, (i, j)) then
      CellFirst(i, j, rows, cols);
      Some((i, j))
    else
      CellNext(i, j, rows, cols);
      TeamFrom(g, i, j + 1, rows, cols)
  }

  /** Past the last column, reading goes on at the start of the next row. */
  lemma RowEnd(i: int, j: int, rows: int, cols: int)
    requires 1 <= i && cols < j
    ensures forall q :: RowMajorFrom(i, j, q, rows, cols) <==> RowMajorFrom(i + 1, 1, q, rows, cols)
  {
  }

  /** Reading from a cell of the area meets that cell first, then the rest. */
  lemma CellNext(i: int, j: int, rows: int, cols: int)
    requires 1 <= i <= rows && 1 <= j <= cols
    ensures forall q :: RowMajorFrom(i, j, q, rows, cols) <==> q == (i, j) || RowMajorFrom(i, j + 1, q, rows, cols)
    ensures forall q :: RowMajorFrom(i, j + 1, q, rows, cols) ==> RowMajorBefore((i, j), q)
  {
  }

  /** Nothing read from a cell of the area comes before that cell. */
  lemma CellFirst(i: int, j: int, rows: int, cols: int)
    requires 1 <= i <= rows && 1 <= j <= cols
    ensures RowMajorFrom(i, j, (i, j), rows, cols)
    ensures forall q :: RowMajorFrom(i, j, q, rows, cols) ==> !RowMajorBefore(q, (i, j))
  {
  }

  /** `search_bounds`: the used bounds, with the columns cut just before the
      first cell holding the team mark. */
  function SearchBounds(g: Grid): (b: (int, int))
    ensures b.0 == Bounds(g).0
    ensures (forall q :: InArea(q, Bounds(g).0, Bounds(g).1) ==> !IsTeamCell(g, q)) ==> b.1 == Bounds(g).1
    ensures (exists q :: InArea(q, Bounds(g).0, Bounds(g).1) && IsTeamCell(g, q)) ==>
      exists q :: InArea(q, Bounds(g).0, Bounds(g).1) && IsTeamCell(g, q) && b.1 == q.1 - 1
        && forall q' :: InArea(q', Bounds(g).0, Bounds(g).1) && RowMajorBefore(q', q) ==> !IsTeamCell(g, q')
  {
    var (rows, cols) := Bounds(g);
    match TeamFrom(g, 1, 1, rows, cols)
    case Some(p) => (rows, p.1 - 1)
    case None => (rows, cols)
  }

  // ---------------------------------------------------------------------------
  // generate_faculty_map
  // ---------------------------------------------------------------------------

  /** Both cells of the pair starting at `p` hold a value. */
  predicate FullPair(g: Grid, p: (int, int)) {
    g.Value(p.0, p.1).Some? && g.Value(p.0, p.1 + 1).Some?
  }

  /** What the pair starting at `p` writes: its code to its name, when both are present. */
  function PairTable(g: Grid, p: (int, int)): (t: Table)
    ensures FullPair(g, p) ==> t == map[g.Str(p.0, p.1) := g.Str(p.0, p.1 + 1)]
    ensures !FullPair(g, p) ==> t == map[]
  {
    if FullPair(g, p) then map[g.Str(p.0, p.1) := g.Str(p.0, p.1 + 1)] else map[]
  }

  /** Rows 1 to `rows` of column `j`, top to bottom, from row `i`. */
  function ColumnCells(i: int, rows: int, j: int): (ps: seq<(int, int)>)
    ensures forall p :: p in ps <==> i <= p.0 <= rows && p.1 == j
    ensures forall m, n :: 0 <= m < n < |ps| ==> ColumnMajorBefore(ps[m], ps[n])
    decreases rows + 1 - i
  {
    if i > rows then [] else [(i, j)] + ColumnCells(i + 1, rows, j)
  }

  /** The left cells of the column pairs `(j, j + 1)`, `(j + 2, j + 3)`, ... up
      to column `cols`, in the order `range(j, cols + 1, 2)` then
      `range(1, rows + 1)` visits them. */
  function PairCells(rows: int, cols: int, j: int): (ps: seq<(int, int)>)
    ensures forall p :: p in ps <==> 1 <= p.0 <= rows && j <= p.1 <= cols && (p.1 - j) % 2 == 0
    ensures forall m, n :: 0 <= m < n < |ps| ==> ColumnMajorBefore(ps[m], ps[n])
    decreases cols + 1 - j
  {
    if j > cols then []
    else
      var here := ColumnCells(1, rows, j);
      var rest := PairCells(rows, cols, j + 2);
      ColumnMajorAppend(here, rest);
      here + rest
  }

  lemma ColumnMajorAppend(a: seq<(int, int)>, b: seq<(int, int)>)
    requires forall m, n :: 0 <= m < n < |a| ==> ColumnMajorBefore(a[m], a[n])
    requires forall m, n :: 0 <= m < n < |b| ==> ColumnMajorBefore(b[m], b[n])
    requires forall p, q :: p in a && q in b ==> ColumnMajorBefore(p, q)
    ensures forall m, n :: 0 <= m < n < |a + b| ==> ColumnMajorBefore((a + b)[m], (a + b)[n])
  {
    var ab := a + b;
    forall m, n | 0 <= m < n < |ab| ensures ColumnMajorBefore(ab[m], ab[n]) {
      if n < |a| {
        assert ab[m] == a[m] && ab[n] == a[n];
      } else if m >= |a| {
        assert ab[m] == b[m - |a|] && ab[n] == b[n - |a|];
      } else {
        assert ab[m] in a && ab[n] in b;
      }
    }
  }

  /** The table each pair writes, in visiting order. */
  function PairTables(g: Grid, ps: seq<(int, int)>): (ts: seq<Table>)
    ensures |ts| == |ps| && forall k :: 0 <= k < |ps| ==> ts[k] == PairTable(g, ps[k])
  {
    seq(|ps|, k requires 0 <= k < |ps| => PairTable(g, ps[k]))
  }

  /** The loop of `generate_faculty_map` over the first `rows` rows and
      `cols` columns: each full pair in an odd column maps its code to its
      name, later pairs overwriting earlier ones. */
  function GenerateFacultyMap(g: Grid, rows: int, cols: int): (t: Table)
    ensures forall k :: k in t <==> exists p :: p in PairCells(rows, cols, 1) && FullPair(g, p) && g.Str(p.0, p.1) == k
  {
    var ps := PairCells(rows, cols, 1);
    var ts := PairTables(g, ps);
    var t := Overlay(ts);
    PairKeys(g, ps, ts, t);
    t
  }

  lemma PairKeys(g: Grid, ps: seq<(int, int)>, ts: seq<Table>, t: Table)
    requires |ts| == |ps| && (forall k :: 0 <= k < |ps| ==> ts[k] == PairTable(g, ps[k]))
    requires Overlays(ts, t)
    ensures forall k :: k in t <==> exists p :: p in ps && FullPair(g, p) && g.Str(p.0, p.1) == k
  {
    forall k ensures k in t <==> exists p :: p in ps && FullPair(g, p) && g.Str(p.0, p.1) == k {
      if k in t {
        var n :| 0 <= n < |ts| && k in ts[n];
        assert ps[n] in ps;
      }
      if exists p :: p in ps && FullPair(g, p) && g.Str(p.0, p.1) == k {
        var p :| p in ps && FullPair(g, p) && g.Str(p.0, p.1) == k;
        var n :| 0 <= n < |ps| && ps[n] == p;
        assert k in ts[n];
      }
    }
  }

  /** A code takes the name of the last full pair, column by column, that holds it. */
  lemma GenerateLastPair(g: Grid, rows: int, cols: int, p: (int, int))
    requires p in PairCells(rows, cols, 1) && FullPair(g, p)
    requires forall q :: q in PairCells(rows, cols, 1) && ColumnMajorBefore(p, q) && FullPair(g, q) ==> g.Str(q.0, q.1) != g.Str(p.0, p.1)
    ensures GenerateFacultyMap(g, rows, cols)[g.Str(p.0, p.1)] == g.Str(p.0, p.1 + 1)
  {
    var ps := PairCells(rows, cols, 1);
    var ts := PairTables(g, ps);
    var k := g.Str(p.0, p.1);
    var n :| 0 <= n < |ps| && ps[n] == p;
    forall m | n < m < |ts| ensures k !in ts[m] {
      assert ColumnMajorBefore(ps[n], ps[m]) && ps[m] in ps;
    }
    assert LastWriter(ts, n, k);
  }

  /** `generate_faculty_map(path)` for a workbook whose active sheet is
      `sheet`, or that has none. */
  function FacultySheetMap(sheet: Option<Grid>): (t: Table)
    ensures sheet.None? ==> t == map[]
    ensures sheet.Some? ==> t == GenerateFacultyMap(sheet.value, SearchBounds(sheet.value).0, SearchBounds(sheet.value).1)
  {
    match sheet
    case None => map[]
    case Some(g) =>
      var (rows, cols) := SearchBounds(g);
      GenerateFacultyMap(g, rows, cols)
  }

  // ---------------------------------------------------------------------------
  // Reading down a column
  // ---------------------------------------------------------------------------

  /** The first row from `r` on where column `c` is empty. */
  function RunEnd(g: Grid, r: int, c: int): (e: int)
    requires g.Valid()
    ensures r <= e && g.Value(e, c).None?
    ensures forall x :: r <= x < e ==> g.Value(x, c).Some?
    decreases g.maxRow + 1 - r
  {
    if g.Value(r, c).None? then r else RunEnd(g, r + 1, c)
  }

  /** What each row of the run gives. */
  function RunResults(r: int, e: int, read: int -> Result<Table>): (rs: seq<Result<Table>>)
    requires r <= e
    ensures |rs| == e - r && forall k :: 0 <= k < e - r ==> rs[k] == read(r + k)
  {
    seq(e - r, k => read(r + k))
  }

  /** `while (v := sheet.cell(r, c).value) is not None: ...; r += 1`: each
      row of the run down column `c` from row `r` updates the table with what
      `read` makes of it; the first row that raises is the outcome. */
  function Down(g: Grid, r: int, c: int, read: int -> Result<Table>): (t: Result<Table>)
    requires g.Valid()
    ensures t.Success? <==> forall x :: r <= x < RunEnd(g, r, c) ==> read(x).Success?
  {
    var e := RunEnd(g, r, c);
    var rs := RunResults(r, e, read);
    RunRead(r, e, read, rs);
    var ts :- Collect(rs);
    Success(Overlay(ts))
  }

  lemma RunRead(r: int, e: int, read: int -> Result<Table>, rs: seq<Result<Table>>)
    requires |rs| == e - r && forall k :: 0 <= k < e - r ==> rs[k] == read(r + k)
    ensures (forall k :: 0 <= k < |rs| ==> rs[k].Success?) <==> forall x :: r <= x < e ==> read(x).Success?
  {
    if forall k :: 0 <= k < |rs| ==> rs[k].Success? {
      forall x | r <= x < e ensures read(x).Success? {
        assert rs[x - r].Success?;
      }
    }
  }

  /** A key of a run is written by some row of it. */
  lemma DownWritten(g: Grid, r: int, c: int, read: int -> Result<Table>, k: string)
    requires g.Valid() && Down(g, r, c, read).Success? && k in Down(g, r, c, read).value
    ensures exists x :: r <= x < RunEnd(g, r, c) && k in read(x).value
  {
    var e := RunEnd(g, r, c);
    var rs := RunResults(r, e, read);
    var ts := Collect(rs).value;
    var n :| 0 <= n < |ts| && k in ts[n];
    assert rs[n] == Success(ts[n]);
  }

  /** Every key a row of a run writes is in the run's table, with the value
      of the last row writing it. */
  lemma DownKeeps(g: Grid, r: int, c: int, read: int -> Result<Table>, x: int, k: string)
    requires g.Valid() && Down(g, r, c, read).Success?
    requires r <= x < RunEnd(g, r, c) && k in read(x).value
    ensures k in Down(g, r, c, read).value
    ensures (forall y :: x < y < RunEnd(g, r, c) ==> k !in read(y).value)
      ==> Down(g, r, c, read).value[k] == read(x).value[k]
  {
    var e := RunEnd(g, r, c);
    var rs := RunResults(r, e, read);
    if forall y :: x < y < e ==> k !in read(y).value {
      forall m | x - r < m < |rs| ensures k !in rs[m].value {
        assert rs[m] == read(r + m);
      }
    }
    OverlayResults(rs, x - r, k);
    assert rs[x - r] == read(x);
    assert Down(g, r, c, read).value == Overlay(Collect(rs).value);
  }

  // ---------------------------------------------------------------------------
  // parse_down: `code - name` lines
  // ---------------------------------------------------------------------------

  /** The separator of a faculty line: `-` when there is one, else `;`
      (a known slip in the sheets), else `:`. */
  function Separator(v: string): (sep: char)
    ensures sep == '-' <==> '-' in v
    ensures sep == ';' <==> '-' !in v && ';' in v
    ensures sep == ':' <==> '-' !in v && ';' !in v
  {
    if '-' in v then '-' else if ';' in v then ';' else ':'
  }

  /** `code, fac = v.split(split_word)`: exactly two pieces, or `ValueError`. */
  function Entry(v: string): (r: Result<Table>)
    ensures r.Failure? <==> |Split(v, Separator(v))| != 2
    ensures r.Success? ==> var parts := Split(v, Separator(v));
      r.value == map[Strip(parts[0]) := Strip(parts[1])]
  {
    var parts := Split(v, Separator(v));
    if |parts| != 2 then Failure(ValueError("wrong number of values to unpack"))
    else Success(map[Strip(parts[0]) := Strip(parts[1])])
  }

  /** `code - name`: a dash wins over any `;` or `:` in either half. */
  lemma EntryDash(a: string, b: string)
    requires '-' !in a && '-' !in b
    ensures Entry(a + "-" + b) == Success(map[Strip(a) := Strip(b)])
  {
    var v := a + "-" + b;
    assert v[|a|] == '-';
    SplitAt(a, b, '-');
    SplitNoSep(b, '-');
  }

  /** `code: name`, when no dash or semicolon appears. */
  lemma EntryColon(a: string, b: string)
    requires '-' !in a + b && ';' !in a + b && ':' !in a && ':' !in b
    ensures Entry(a + ":" + b) == Success(map[Strip(a) := Strip(b)])
  {
    var v := a + ":" + b;
    assert v[|a|] == ':';
    assert forall ch :: ch in v ==> ch in a + b || ch == ':';
    SplitAt(a, b, ':');
    SplitNoSep(b, ':');
  }

  /** A line without any separator cannot be unpacked. */
  lemma EntryNoSeparator(v: string)
    requires '-' !in v && ';' !in v && ':' !in v
    ensures Entry(v).Failure?
  {
    SplitNoSep(v, ':');
  }

  /** `parse_down(sheet, curr, curc)`: the `code - name` lines down column
      `c` from row `r` until the first empty cell. */
  function FacultyDown(g: Grid, r: int, c: int): (t: Result<Table>)
    requires g.Valid()
    ensures t.Success? <==> forall x :: r <= x < RunEnd(g, r, c) ==> Entry(g.Str(x, c)).Success?
  {
    Down(g, r, c, EntryReader(g, c))
  }

  /** Reads the line of column `c` in a given row. */
  function EntryReader(g: Grid, c: int): (read: int -> Result<Table>)
    ensures forall x :: read(x) == Entry(g.Str(x, c))
  {
    x => Entry(g.Str(x, c))
  }

  // ---------------------------------------------------------------------------
  // parse_down_bca_N_128 and parse_down_128_sem4: two-column lists
  // ---------------------------------------------------------------------------

  /** The stripped text of row `x` in column `c`. */
  function Left(g: Grid, x: int, c: int): string {
    Strip(g.Str(x, c))
  }

  /** The stripped text of row `x` in column `c + 1`. */
  function Right(g: Grid, x: int, c: int): string {
    Strip(g.Str(x, c + 1))
  }

  /** The key of row `x` of a two-column list at column `c`: the left text,
      or the right one when the names come first. */
  function ListKey(g: Grid, c: int, x: int, nameFirst: bool): string {
    if nameFirst then Right(g, x, c) else Left(g, x, c)
  }

  /** The other text of row `x`. */
  function ListName(g: Grid, c: int, x: int, nameFirst: bool): string {
    if nameFirst then Left(g, x, c) else Right(g, x, c)
  }

  /** Reads row `x` of a two-column list at column `c`. */
  function ListReader(g: Grid, c: int, nameFirst: bool): (read: int -> Result<Table>)
    ensures forall x :: read(x) == Success(map[ListKey(g, c, x, nameFirst) := ListName(g, c, x, nameFirst)])
  {
    x => Success(map[ListKey(g, c, x, nameFirst) := ListName(g, c, x, nameFirst)])
  }

  /** Row `x` of the run from `r` is the last one with its key. */
  predicate LastOfKey(g: Grid, r: int, c: int, nameFirst: bool, x: int)
    requires g.Valid()
  {
    r <= x < RunEnd(g, r, c) && forall y :: x < y < RunEnd(g, r, c) ==> ListKey(g, c, y, nameFirst) != ListKey(g, c, x, nameFirst)
  }

  /** The rows of a two-column list never raise. */
  lemma ListReads(g: Grid, r: int, c: int, nameFirst: bool)
    requires g.Valid()
    ensures Down(g, r, c, ListReader(g, c, nameFirst)).Success?
  {
  }

  /** A key of a list is the key of one of its rows, and every row's key is one. */
  lemma ListKeys(g: Grid, r: int, c: int, nameFirst: bool, k: string)
    requires g.Valid()
    ensures Down(g, r, c, ListReader(g, c, nameFirst)).Success?
    ensures k in Down(g, r, c, ListReader(g, c, nameFirst)).value
      <==> exists x :: r <= x < RunEnd(g, r, c) && ListKey(g, c, x, nameFirst) == k
  {
    ListReads(g, r, c, nameFirst);
    if k in Down(g, r, c, ListReader(g, c, nameFirst)).value {
      ListWritten(g, r, c, nameFirst, k);
    }
    if exists x :: r <= x < RunEnd(g, r, c) && ListKey(g, c, x, nameFirst) == k {
      var x :| r <= x < RunEnd(g, r, c) && ListKey(g, c, x, nameFirst) == k;
      ListLast(g, r, c, nameFirst, x);
    }
  }

  /** Each key of a list is written by one of its rows. */
  lemma ListWritten(g: Grid, r: int, c: int, nameFirst: bool, k: string)
    requires g.Valid() && Down(g, r, c, ListReader(g, c, nameFirst)).Success?
    requires k in Down(g, r, c, ListReader(g, c, nameFirst)).value
    ensures exists x :: r <= x < RunEnd(g, r, c) && ListKey(g, c, x, nameFirst) == k
  {
    var read := ListReader(g, c, nameFirst);
    DownWritten(g, r, c, read, k);
    var x :| r <= x < RunEnd(g, r, c) && k in read(x).value;
    assert read(x) == Success(map[ListKey(g, c, x, nameFirst) := ListName(g, c, x, nameFirst)]);
  }

  /** Every row's key is in the list, and the last row holding a key gives
      its value. */
  lemma ListLast(g: Grid, r: int, c: int, nameFirst: bool, x: int)
    requires g.Valid() && r <= x < RunEnd(g, r, c)
    ensures Down(g, r, c, ListReader(g, c, nameFirst)).Success?
    ensures ListKey(g, c, x, nameFirst) in Down(g, r, c, ListReader(g, c, nameFirst)).value
    ensures LastOfKey(g, r, c, nameFirst, x) ==>
      Down(g, r, c, ListReader(g, c, nameFirst)).value[ListKey(g, c, x, nameFirst)] == ListName(g, c, x, nameFirst)
  {
    ListReads(g, r, c, nameFirst);
    DownKeeps(g, r, c, ListReader(g, c, nameFirst), x, ListKey(g, c, x, nameFirst));
  }

  /** A two-column list down column `c` from row `r` until it is empty. */
  function ListDown(g: Grid, r: int, c: int, nameFirst: bool): (t: Table)
    requires g.Valid()
    ensures forall k :: k in t <==> exists x :: r <= x < RunEnd(g, r, c) && ListKey(g, c, x, nameFirst) == k
    ensures forall x :: LastOfKey(g, r, c, nameFirst, x) ==>
      ListKey(g, c, x, nameFirst) in t && t[ListKey(g, c, x, nameFirst)] == ListName(g, c, x, nameFirst)
  {
    ListFacts(g, r, c, nameFirst);
    Down(g, r, c, ListReader(g, c, nameFirst)).value
  }

  lemma ListFacts(g: Grid, r: int, c: int, nameFirst: bool)
    requires g.Valid()
    ensures Down(g, r, c, ListReader(g, c, nameFirst)).Success?
    ensures var t := Down(g, r, c, ListReader(g, c, nameFirst)).value;
      forall k :: k in t <==> exists x :: r <= x < RunEnd(g, r, c) && ListKey(g, c, x, nameFirst) == k
    ensures var t := Down(g, r, c, ListReader(g, c, nameFirst)).value;
      forall x :: LastOfKey(g, r, c, nameFirst, x) ==>
        ListKey(g, c, x, nameFirst) in t && t[ListKey(g, c, x, nameFirst)] == ListName(g, c, x, nameFirst)
  {
    ListReads(g, r, c, nameFirst);
    var t := Down(g, r, c, ListReader(g, c, nameFirst)).value;
    forall k ensures k in t <==> exists x :: r <= x < RunEnd(g, r, c) && ListKey(g, c, x, nameFirst) == k {
      ListKeys(g, r, c, nameFirst, k);
    }
    forall x | LastOfKey(g, r, c, nameFirst, x)
      ensures ListKey(g, c, x, nameFirst) in t && t[ListKey(g, c, x, nameFirst)] == ListName(g, c, x, nameFirst)
    {
      ListLast(g, r, c, nameFirst, x);
    }
  }

  /** `parse_down_bca_N_128`: down column `c` from row `r` until it is empty,
      each stripped code (the left text) mapping to the stripped text beside
      it; the last row with a code gives its name. */
  function BcaDown(g: Grid, r: int, c: int): (t: Table)
    requires g.Valid()
    ensures forall k :: k in t <==> exists x :: r <= x < RunEnd(g, r, c) && ListKey(g, c, x, false) == k
    ensures forall x :: LastOfKey(g, r, c, false, x) ==> Left(g, x, c) in t && t[Left(g, x, c)] == Right(g, x, c)
  {
    ListDown(g, r, c, false)
  }

  /** `parse_down_128_sem4`: down column `c` from row `r` until it is empty,
      each stripped code of column `c + 1` (the right text) mapping to the
      stripped name beside it; the last row with a code gives its name. */
  function Sem4Down(g: Grid, r: int, c: int): (t: Table)
    requires g.Valid()
    ensures forall k :: k in t <==> exists x :: r <= x < RunEnd(g, r, c) && ListKey(g, c, x, true) == k
    ensures forall x :: LastOfKey(g, r, c, true, x) ==> Right(g, x, c) in t && t[Right(g, x, c)] == Left(g, x, c)
  {
    ListDown(g, r, c, true)
  }

  // ---------------------------------------------------------------------------
  // Heading scans and get_faculty_map
  // ---------------------------------------------------------------------------

  /** Heading cells of row `i` from column `j` to `cols`, left to right. */
  function RowHeadings(i: int, j: int, cols: int, isHeading: ((int, int)) -> bool): (ps: seq<(int, int)>)
    ensures forall p :: p in ps <==> p.0 == i && j <= p.1 <= cols && isHeading(p)
    ensures forall m, n :: 0 <= m < n < |ps| ==> RowMajorBefore(ps[m], ps[n])
    decreases cols + 1 - j
  {
    if j > cols then []
    else
      var rest := RowHeadings(i, j + 1, cols, isHeading);
      if isHeading((i, j)) then
        RowMajorAppend([(i, j)], rest);
        [(i, j)] + rest
      else rest
  }

  /** Heading cells of rows `i` to `rows`, in the order the scan meets them. */
  function Headings(i: int, rows: int, cols: int, isHeading: ((int, int)) -> bool): (ps: seq<(int, int)>)
    ensures forall p :: p in ps <==> i <= p.0 <= rows && 1 <= p.1 <= cols && isHeading(p)
    ensures forall m, n :: 0 <= m < n < |ps| ==> RowMajorBefore(ps[m], ps[n])
    decreases rows + 1 - i
  {
    if i > rows then []
    else
      var here := RowHeadings(i, 1, cols, isHeading);
      var rest := Headings(i + 1, rows, cols, isHeading);
      RowMajorAppend(here, rest);
      here + rest
  }

  lemma RowMajorAppend(a: seq<(int, int)>, b: seq<(int, int)>)
    requires forall m, n :: 0 <= m < n < |a| ==> RowMajorBefore(a[m], a[n])
    requires forall m, n :: 0 <= m < n < |b| ==> RowMajorBefore(b[m], b[n])
    requires forall p, q :: p in a && q in b ==> RowMajorBefore(p, q)
    ensures forall m, n :: 0 <= m < n < |a + b| ==> RowMajorBefore((a + b)[m], (a + b)[n])
  {
    var ab := a + b;
    forall m, n | 0 <= m < n < |ab| ensures RowMajorBefore(ab[m], ab[n]) {
      if n < |a| {
        assert ab[m] == a[m] && ab[n] == a[n];
      } else if m >= |a| {
        assert ab[m] == b[m - |a|] && ab[n] == b[n - |a|];
      } else {
        assert ab[m] in a && ab[n] in b;
      }
    }
  }

  /** What the block under each heading gives. */
  function HeadingResults(ps: seq<(int, int)>, block: ((int, int)) --> Result<Table>): (rs: seq<Result<Table>>)
    requires forall p :: block.requires(p)
    ensures |rs| == |ps| && forall k :: 0 <= k < |ps| ==> rs[k] == block(ps[k])
  {
    seq(|ps|, k requires 0 <= k < |ps| => block(ps[k]))
  }

  /** The two nested loops of the heading scanners: every cell of the first
      `rows` rows and `cols` columns that is a heading reads the block below
      it into the table, later blocks overwriting earlier ones; the first
      block that raises is the outcome. */
  function Scan(rows: int, cols: int, isHeading: ((int, int)) -> bool, block: ((int, int)) --> Result<Table>): (t: Result<Table>)
    requires forall p :: block.requires(p)
    ensures t.Success? <==> forall p :: InArea(p, rows, cols) && isHeading(p) ==> block(p).Success?
  {
    var ps := Headings(1, rows, cols, isHeading);
    var rs := HeadingResults(ps, block);
    HeadingsRead(ps, rows, cols, isHeading, block, rs);
    var ts :- Collect(rs);
    Success(Overlay(ts))
  }

  lemma HeadingsRead(ps: seq<(int, int)>, rows: int, cols: int, isHeading: ((int, int)) -> bool,
                     block: ((int, int)) --> Result<Table>, rs: seq<Result<Table>>)
    requires forall p :: block.requires(p)
    requires forall p :: p in ps <==> 1 <= p.0 <= rows && 1 <= p.1 <= cols && isHeading(p)
    requires |rs| == |ps| && forall k :: 0 <= k < |ps| ==> rs[k] == block(ps[k])
    ensures (forall k :: 0 <= k < |rs| ==> rs[k].Success?) <==> forall p :: InArea(p, rows, cols) && isHeading(p) ==> block(p).Success?
  {
    if forall k :: 0 <= k < |rs| ==> rs[k].Success? {
      forall p | InArea(p, rows, cols) && isHeading(p) ensures block(p).Success? {
        var k :| 0 <= k < |ps| && ps[k] == p;
        assert rs[k].Success?;
      }
    }
  }

  /** A key of a scan comes from the block under some heading. */
  lemma ScanWritten(rows: int, cols: int, isHeading: ((int, int)) -> bool, block: ((int, int)) --> Result<Table>, k: string)
    requires forall p :: block.requires(p)
    requires Scan(rows, cols, isHeading, block).Success? && k in Scan(rows, cols, isHeading, block).value
    ensures exists p :: InArea(p, rows, cols) && isHeading(p) && block(p).Success? && k in block(p).value
  {
    var ps := Headings(1, rows, cols, isHeading);
    var rs := HeadingResults(ps, block);
    var ts := Collect(rs).value;
    var n :| 0 <= n < |ts| && k in ts[n];
    assert rs[n] == Success(ts[n]) && ps[n] in ps;
  }

  /** Every key of the block under a heading is a key of the scan, with the
      value of the last heading, row by row, whose block writes it. */
  lemma ScanKeeps(rows: int, cols: int, isHeading: ((int, int)) -> bool, block: ((int, int)) --> Result<Table>,
                  p: (int, int), k: string)
    requires forall p :: block.requires(p)
    requires Scan(rows, cols, isHeading, block).Success?
    requires InArea(p, rows, cols) && isHeading(p) && block(p).Success? && k in block(p).value
    ensures k in Scan(rows, cols, isHeading, block).value
    ensures (forall q :: InArea(q, rows, cols) && isHeading(q) && RowMajorBefore(p, q) && block(q).Success? ==> k !in block(q).value)
      ==> Scan(rows, cols, isHeading, block).value[k] == block(p).value[k]
  {
    var ps := Headings(1, rows, cols, isHeading);
    var rs := HeadingResults(ps, block);
    var ts := Collect(rs).value;
    var n :| 0 <= n < |ps| && ps[n] == p;
    assert rs[n] == Success(ts[n]);
    if forall q :: InArea(q, rows, cols) && isHeading(q) && RowMajorBefore(p, q) && block(q).Success? ==> k !in block(q).value {
      forall m | n < m < |ts| ensures k !in ts[m] {
        assert rs[m] == Success(ts[m]) && ps[m] in ps && RowMajorBefore(ps[n], ps[m]);
      }
      assert LastWriter(ts, n, k);
    }
  }

  /** The heading over a `code - name` list in a first-semester timetable. */
  const Sem1Heading := "Faculty Abbreviation with Names"

  function Sem1Headings(g: Grid): (isHeading: ((int, int)) -> bool)
    ensures forall p :: isHeading(p) == (g.Str(p.0, p.1) == Sem1Heading)
  {
    (p: (int, int)) => g.Str(p.0, p.1) == Sem1Heading
  }

  function Sem1Blocks(g: Grid): (block: ((int, int)) --> Result<Table>)
    requires g.Valid()
    ensures forall p :: block.requires(p) && block(p) == FacultyDown(g, p.0 + 1, p.1)
  {
    (p: (int, int)) requires g.Valid() => FacultyDown(g, p.0 + 1, p.1)
  }

  /** `get_faculty_map_from_sem1(path)`: under every cell reading exactly
      the heading, the `code - name` lines below it. */
  function Sem1Map(sheet: Option<Grid>): (t: Result<Table>)
    requires sheet.Some? ==> sheet.value.Valid()
    ensures sheet.None? ==> t == Success(map[])
    ensures sheet.Some? ==> var g := sheet.value;
      t == Scan(Bounds(g).0, Bounds(g).1, Sem1Headings(g), Sem1Blocks(g))
  {
    match sheet
    case None => Success(map[])
    case Some(g) => Scan(Bounds(g).0, Bounds(g).1, Sem1Headings(g), Sem1Blocks(g))
  }

  /** The heading over a code-then-name list. */
  const BcaHeading := "Faculty Abbreviation"

  /** The heading over a name-then-code list. */
  const Sem4Heading := "Faculty Names"

  function PrefixHeadings(g: Grid, heading: string): (isHeading: ((int, int)) -> bool)
    ensures forall p :: isHeading(p) == StartsWith(Strip(g.Str(p.0, p.1)), heading)
  {
    (p: (int, int)) => StartsWith(Strip(g.Str(p.0, p.1)), heading)
  }

  /** The list under a heading at `p`. */
  function ListBlock(g: Grid, nameFirst: bool, p: (int, int)): Result<Table>
    requires g.Valid()
  {
    Success(ListDown(g, p.0 + 1, p.1, nameFirst))
  }

  function ListBlocks(g: Grid, nameFirst: bool): (block: ((int, int)) --> Result<Table>)
    requires g.Valid()
    ensures forall p :: block.requires(p) && block(p) == ListBlock(g, nameFirst, p)
  {
    (p: (int, int)) requires g.Valid() => ListBlock(g, nameFirst, p)
  }

  /** `generate_faculty_map_from_bca1_N_128(sheet, row, col)`: under every
      cell whose stripped text starts with the heading, the code-then-name
      list below it. */
  function BcaMap(g: Grid, rows: int, cols: int): (t: Table)
    requires g.Valid()
    ensures Scan(rows, cols, PrefixHeadings(g, BcaHeading), ListBlocks(g, false)) == Success(t)
  {
    Scan(rows, cols, PrefixHeadings(g, BcaHeading), ListBlocks(g, false)).value
  }

  /** `generate_faculty_map_from_128_sem4(sheet, row, col)`: under every
      cell whose stripped text starts with the heading, the name-then-code
      list below it. */
  function Sem4Map(g: Grid, rows: int, cols: int): (t: Table)
    requires g.Valid()
    ensures Scan(rows, cols, PrefixHeadings(g, Sem4Heading), ListBlocks(g, true)) == Success(t)
  {
    Scan(rows, cols, PrefixHeadings(g, Sem4Heading), ListBlocks(g, true)).value
  }

  /** `get_faculty_map_from_bca1_N_128(path)` */
  function BcaSheetMap(sheet: Option<Grid>): (t: Table)
    requires sheet.Some? ==> sheet.value.Valid()
    ensures sheet.None? ==> t == map[]
    ensures sheet.Some? ==> t == BcaMap(sheet.value, Bounds(sheet.value).0, Bounds(sheet.value).1)
  {
    match sheet
    case None => map[]
    case Some(g) => BcaMap(g, Bounds(g).0, Bounds(g).1)
  }

  /** `get_faculty_map`: the two faculty workbooks, the first-semester
      timetable and the two code-then-name timetables, merged in the order
      fac1, sem1, fac2, bca1, fac128. Only the first-semester lines can raise. */
  function GetFacultyMap(fac1: Option<Grid>, fac2: Option<Grid>, sem1: Option<Grid>,
                         bca1: Option<Grid>, fac128: Option<Grid>): (t: Result<Table>)
    requires sem1.Some? ==> sem1.value.Valid()
    requires bca1.Some? ==> bca1.value.Valid()
    requires fac128.Some? ==> fac128.value.Valid()
    ensures t.Success? <==> Sem1Map(sem1).Success?
    ensures t.Success? ==> t.value == Merge(FacultySheetMap(fac1), Sem1Map(sem1).value, FacultySheetMap(fac2),
                                            BcaSheetMap(bca1), BcaSheetMap(fac128))
    ensures t.Success? ==> LastWins(t.value, FacultySheetMap(fac1), Sem1Map(sem1).value, FacultySheetMap(fac2),
                                    BcaSheetMap(bca1), BcaSheetMap(fac128))
  {
    match Sem1Map(sem1)
    case Failure(err) => Failure(err)
    case Success(fromSem1) =>
      Success(Merge(FacultySheetMap(fac1), fromSem1, FacultySheetMap(fac2), BcaSheetMap(bca1), BcaSheetMap(fac128)))
  }

  /** `t` holds the keys of the five tables, the fifth table's entries
      unchanged, and the third table's entries wherever the fourth and the
      fifth are silent. */
  ghost predicate LastWins(t: Table, a: Table, b: Table, c: Table, d: Table, e: Table) {
    && (forall k :: k in t <==> k in a || k in b || k in c || k in d || k in e)
    && (forall k :: k in e ==> k in t && t[k] == e[k])
    && (forall k :: k in c && k !in d && k !in e ==> k in t && t[k] == c[k])
  }

  /** Five successive `update`s: a key is in the result when one of the
      dictionaries has it, and takes the value of the last one that does. */
  function Merge(a: Table, b: Table, c: Table, d: Table, e: Table): (t: Table)
    ensures forall k :: k in t <==> k in a || k in b || k in c || k in d || k in e
    ensures forall k :: k in t ==>
      t[k] == (if k in e then e[k] else if k in d then d[k] else if k in c then c[k]
               else if k in b then b[k] else a[k])
    ensures LastWins(t, a, b, c, d, e)
  {
    a + b + c + d + e
  }
}

=== FILE: sheet.dfy ===
/** The worksheet as the parsers read it, and the helpers of
    jiit_tt_parser/utils/utils.py over it: the used bounds, empty rows and
    merged rectangles. Rows and columns are 1-based, as in openpyxl. */
module Sheet {
  import opened Wrappers

  /** A merged rectangle, bounds inclusive. */
  datatype Range = Range(minRow: int, minCol: int, maxRow: int, maxCol: int) {
    predicate Contains(row: int, col: int) {
      minRow <= row <= maxRow && minCol <= col <= maxCol
    }
  }

  /** The active sheet: the text `str(v)` of every cell whose value `v` is not
      `None`, the sheet's `max_row` and `max_column`, its merged rectangles in
      the order `merged_cells.ranges` yields them, and the theme colour index of
      the cells whose fill has one. */
  datatype Grid = Grid(values: map<(int, int), string>, maxRow: nat, maxCol: nat,
                       merged: seq<Range>, themes: map<(int, int), int>)
  {
    /** openpyxl reports at least one row and one column, and every cell that
        holds a value, a fill or a merge lies within the reported size. */
    predicate Valid() {
      && maxRow >= 1 && maxCol >= 1
      && (forall p :: p in values ==> InSheet(p))
      && (forall p :: p in themes ==> InSheet(p))
      && (forall k :: 0 <= k < |merged| ==> RangeInSheet(merged[k]))
    }

    predicate InSheet(p: (int, int)) {
      1 <= p.0 <= maxRow && 1 <= p.1 <= maxCol
    }

    predicate RangeInSheet(m: Range) {
      1 <= m.minRow <= m.maxRow <= maxRow && 1 <= m.minCol <= m.maxCol <= maxCol
    }

    /** `sheet.cell(row, col).value`, as its text. */
    function Value(row: int, col: int): (r: Option<string>)
      ensures r.Some? <==> (row, col) in values
    {
      if (row, col) in values then Some(values[(row, col)]) else None
    }

    /** `str(sheet.cell(row, col).value)`: `"None"` for an empty cell. */
    function Str(row: int, col: int): (r: string)
      ensures Value(row, col).Some? ==> r == Value(row, col).value
      ensures Value(row, col).None? ==> r == "None"
    {
      match Value(row, col)
      case Some(v) => v
      case None => "None"
    }

    /** `sheet.cell(row, col).fill.start_color.theme`. */
    function Theme(row: int, col: int): (r: Option<int>)
      ensures r.Some? <==> (row, col) in themes
    {
      if (row, col) in themes then Some(themes[(row, col)]) else None
    }
  }

  /** A cell past the reported size holds nothing. */
  lemma PastSheetEmpty(g: Grid, row: int, col: int)
    requires g.Valid() && (row > g.maxRow || col > g.maxCol || row < 1 || col < 1)
    ensures g.Value(row, col).None? && g.Theme(row, col).None?
  {
  }

  // ---------------------------------------------------------------------------
  // max_bounds
  // ---------------------------------------------------------------------------

  /** Some cell of row `r` holds a value. */
  predicate RowHolds(g: Grid, r: int) {
    exists j :: 1 <= j <= g.maxCol && g.Value(r, j).Some?
  }

  /** Some cell of column `c` holds a value. */
  predicate ColumnHolds(g: Grid, c: int) {
    exists i :: 1 <= i <= g.maxRow && g.Value(i, c).Some?
  }

  /** `max_bounds`: the last row and the last column that hold a value, each
      found on its own and 1 when there is none. */
  method MaxBounds(g: Grid) returns (r: int, c: int)
    ensures 1 <= r && 1 <= c
    ensures r == 1 || (r <= g.maxRow && RowHolds(g, r))
    ensures c == 1 || (c <= g.maxCol && ColumnHolds(g, c))
    ensures forall i, j :: 1 <= i <= g.maxRow && 1 <= j <= g.maxCol && g.Value(i, j).Some? ==> i <= r && j <= c
    ensures (r, c) == Bounds(g)
  {
    r, c := 1, 1;
    var i := 1;
    while i <= g.maxRow
      invariant 1 <= i <= g.maxRow + 1
      invariant 1 <= r && 1 <= c
      invariant r == 1 || (r < i && RowHolds(g, r))
      invariant c == 1 || (c <= g.maxCol && ColumnHolds(g, c))
      invariant forall i', j :: 1 <= i' < i && 1 <= j <= g.maxCol && g.Value(i', j).Some? ==> i' <= r && j <= c
    {
      var j := 1;
      while j <= g.maxCol
        invariant 1 <= j <= g.maxCol + 1
        invariant 1 <= r && 1 <= c
        invariant r == 1 || (r <= i && RowHolds(g, r))
        invariant c == 1 || (c <= g.maxCol && ColumnHolds(g, c))
        invariant forall i', j' :: 1 <= i' < i && 1 <= j' <= g.maxCol && g.Value(i', j').Some? ==> i' <= r && j' <= c
        invariant forall j' :: 1 <= j' < j && g.Value(i, j').Some? ==> i <= r && j' <= c
      {
        if g.Value(i, j).Some? {
          if i > r {
            r := i;
          }
          if j > c {
            c := j;
          }
        }
        j := j + 1;
      }
      i := i + 1;
    }
    BoundsUnique(g, r, c);
  }

  /** The last row up to `i` holding a value, or 1 when rows 2 to `i` hold none. */
  function LastRowUpTo(g: Grid, i: int): (r: int)
    ensures 1 <= r && (r == 1 || (r <= i && RowHolds(g, r)))
    ensures forall x :: r < x <= i && x > 1 ==> !RowHolds(g, x)
    decreases i
  {
    if i <= 1 then 1 else if RowHolds(g, i) then i else LastRowUpTo(g, i - 1)
  }

  /** The last column up to `j` holding a value, or 1 when columns 2 to `j` hold none. */
  function LastColUpTo(g: Grid, j: int): (c: int)
    ensures 1 <= c && (c == 1 || (c <= j && ColumnHolds(g, c)))
    ensures forall y :: c < y <= j && y > 1 ==> !ColumnHolds(g, y)
    decreases j
  {
    if j <= 1 then 1 else if ColumnHolds(g, j) then j else LastColUpTo(g, j - 1)
  }

  /** `max_bounds` as a value: the reference the scanning method computes. */
  function Bounds(g: Grid): (b: (int, int))
    ensures 1 <= b.0 && (b.0 == 1 || (b.0 <= g.maxRow && RowHolds(g, b.0)))
    ensures 1 <= b.1 && (b.1 == 1 || (b.1 <= g.maxCol && ColumnHolds(g, b.1)))
    ensures forall i, j :: 1 <= i <= g.maxRow && 1 <= j <= g.maxCol && g.Value(i, j).Some? ==> i <= b.0 && j <= b.1
  {
    HoldersCovered(g, LastRowUpTo(g, g.maxRow), LastColUpTo(g, g.maxCol));
    (LastRowUpTo(g, g.maxRow), LastColUpTo(g, g.maxCol))
  }

  /** A cell holding a value makes its row and its column hold one. */
  lemma HoldersCovered(g: Grid, r: int, c: int)
    requires forall x :: r < x <= g.maxRow && x > 1 ==> !RowHolds(g, x)
    requires forall y :: c < y <= g.maxCol && y > 1 ==> !ColumnHolds(g, y)
    requires 1 <= r && 1 <= c
    ensures forall i, j :: 1 <= i <= g.maxRow && 1 <= j <= g.maxCol && g.Value(i, j).Some? ==> i <= r && j <= c
  {
    forall i, j | 1 <= i <= g.maxRow && 1 <= j <= g.maxCol && g.Value(i, j).Some? ensures i <= r && j <= c {
      assert RowHolds(g, i) && ColumnHolds(g, j);
    }
  }

  /** The bounds are the only pair meeting their description. */
  lemma BoundsUnique(g: Grid, r: int, c: int)
    requires 1 <= r && (r == 1 || (r <= g.maxRow && RowHolds(g, r)))
    requires 1 <= c && (c == 1 || (c <= g.maxCol && ColumnHolds(g, c)))
    requires forall i, j :: 1 <= i <= g.maxRow && 1 <= j <= g.maxCol && g.Value(i, j).Some? ==> i <= r && j <= c
    ensures (r, c) == Bounds(g)
  {
    var b := Bounds(g);
    if b.0 != 1 {
      var j :| 1 <= j <= g.maxCol && g.Value(b.0, j).Some?;
    }
    if r != 1 {
      var j :| 1 <= j <= g.maxCol && g.Value(r, j).Some?;
    }
    if b.1 != 1 {
      var i :| 1 <= i <= g.maxRow && g.Value(i, b.1).Some?;
    }
    if c != 1 {
      var i :| 1 <= i <= g.maxRow && g.Value(i, c).Some?;
    }
  }

  // ---------------------------------------------------------------------------
  // is_empty_row
  // ---------------------------------------------------------------------------

  /** Columns `from` to `cols` of the row hold nothing. */
  function EmptyFrom(g: Grid, row: int, from: int, cols: int): (r: bool)
    ensures r <==> forall j :: from <= j <= cols ==> g.Value(row, j).None?
    decreases cols - from
  {
    if from > cols then true
    else g.Value(row, from).None? && EmptyFrom(g, row, from + 1, cols)
  }

  /** `is_empty_row`: the first `cols` cells of the row are all empty. */
  function IsEmptyRow(g: Grid, row: int, cols: int): (r: bool)
    ensures r <==> forall j :: 1 <= j <= cols ==> g.Value(row, j).None?
  {
    EmptyFrom(g, row, 1, cols)
  }

  // ---------------------------------------------------------------------------
  // Merged rectangles
  // ---------------------------------------------------------------------------

  /** The first index from `k` on whose rectangle holds both cells, or -1. */
  function BothFrom(ms: seq<Range>, k: nat, r1: int, c1: int, r2: int, c2: int): (r: int)
    requires k <= |ms|
    ensures r == -1 || k <= r < |ms|
    ensures r >= 0 ==> ms[r].Contains(r1, c1) && ms[r].Contains(r2, c2)
    ensures r == -1 <==> forall i :: k <= i < |ms| ==> !(ms[i].Contains(r1, c1) && ms[i].Contains(r2, c2))
    decreases |ms| - k
  {
    if k == |ms| then -1
    else if ms[k].Contains(r1, c1) && ms[k].Contains(r2, c2) then k
    else BothFrom(ms, k + 1, r1, c1, r2, c2)
  }

  /** `are_cells_in_same_merged_group`: some merged rectangle holds both cells. */
  function SameMergedGroup(g: Grid, r1: int, c1: int, r2: int, c2: int): (r: bool)
    ensures r <==> exists i :: 0 <= i < |g.merged| && g.merged[i].Contains(r1, c1) && g.merged[i].Contains(r2, c2)
  {
    BothFrom(g.merged, 0, r1, c1, r2, c2) >= 0
  }

  /** Whether two cells share a rectangle does not depend on which is named first. */
  lemma SameMergedGroupSymmetric(g: Grid, r1: int, c1: int, r2: int, c2: int)
    ensures SameMergedGroup(g, r1, c1, r2, c2) == SameMergedGroup(g, r2, c2, r1, c1)
  {
    if SameMergedGroup(g, r1, c1, r2, c2) {
      var i :| 0 <= i < |g.merged| && g.merged[i].Contains(r1, c1) && g.merged[i].Contains(r2, c2);
      assert g.merged[i].Contains(r2, c2) && g.merged[i].Contains(r1, c1);
    }
  }

  /** The first index from `k` on whose rectangle holds the cell, or -1. */
  function HolderFrom(ms: seq<Range>, k: nat, row: int, col: int): (r: int)
    requires k <= |ms|
    ensures r == -1 || k <= r < |ms|
    ensures r >= 0 ==> ms[r].Contains(row, col) && forall i :: k <= i < r ==> !ms[i].Contains(row, col)
    ensures r == -1 <==> forall i :: k <= i < |ms| ==> !ms[i].Contains(row, col)
    decreases |ms| - k
  {
    if k == |ms| then -1
    else if ms[k].Contains(row, col) then k
    else HolderFrom(ms, k + 1, row, col)
  }

  /** `get_merged_range_for_cell`: the first merged rectangle holding the
      cell, or `None`. */
  function MergedRangeFor(g: Grid, row: int, col: int): (r: Option<Range>)
    ensures r.None? <==> forall i :: 0 <= i < |g.merged| ==> !g.merged[i].Contains(row, col)
    ensures r.Some? ==> exists i :: 0 <= i < |g.merged| && g.merged[i] == r.value
                               && r.value.Contains(row, col)
                               && forall i' :: 0 <= i' < i ==> !g.merged[i'].Contains(row, col)
  {
    var k := HolderFrom(g.merged, 0, row, col);
    if k >= 0 then Some(g.merged[k]) else None
  }

  /** A cell shares a rectangle with itself exactly when some rectangle holds it. */
  lemma SameGroupWithItself(g: Grid, row: int, col: int)
    ensures SameMergedGroup(g, row, col, row, col) <==> MergedRangeFor(g, row, col).Some?
  {
  }

  /** openpyxl's `MergedCell`: a cell inside a merged rectangle other than
      the rectangle's top-left cell, which keeps the value. */
  predicate IsMergedCell(g: Grid, row: int, col: int) {
    exists i :: 0 <= i < |g.merged| && g.merged[i].Contains(row, col)
                && (row, col) != (g.merged[i].minRow, g.merged[i].minCol)
  }
}

=== FILE: tables.dfy ===
/** Python's `d.update(...)` repeated over a sequence of small dictionaries,
    the way every table parser of the repository builds its result: a key
    written again later takes the later value. */
module Tables {
  import opened Wrappers

  /** A `dict[str, str]`. */
  type Table = map<string, string>

  /** No dictionary after index `i` writes `k`. */
  ghost predicate LastWriter(ms: seq<Table>, i: int, k: string)
    requires 0 <= i < |ms|
  {
    k in ms[i] && forall j :: i < j < |ms| ==> k !in ms[j]
  }

  /** `r` holds exactly the keys some dictionary writes, each with the
      value of its last writer. */
  ghost predicate Overlays(ms: seq<Table>, r: Table) {
    && (forall k :: k in r <==> exists i :: 0 <= i < |ms| && k in ms[i])
    && (forall i, k :: 0 <= i < |ms| && LastWriter(ms, i, k) ==> r[k] == ms[i][k])
  }

  /** `d = {}; for m in ms: d.update(m)` */
  function Overlay(ms: seq<Table>): (r: Table)
    ensures Overlays(ms, r)
  {
    if ms == [] then map[]
    else
      var rest := Overlay(ms[1..]);
      OverlayStep(ms, rest);
      ms[0] + rest
  }

  /** Updating by the first dictionary and then by the rest. */
  lemma OverlayStep(ms: seq<Table>, rest: Table)
    requires ms != [] && Overlays(ms[1..], rest)
    ensures Overlays(ms, ms[0] + rest)
  {
    var r := ms[0] + rest;
    forall k ensures k in r <==> exists i :: 0 <= i < |ms| && k in ms[i] {
      if k in rest {
        var i :| 0 <= i < |ms[1..]| && k in ms[1..][i];
        assert k in ms[i + 1];
      }
      if exists i :: 0 <= i < |ms| && k in ms[i] {
        var i :| 0 <= i < |ms| && k in ms[i];
        if i > 0 {
          assert k in ms[1..][i - 1];
        }
      }
    }
    forall i, k | 0 <= i < |ms| && LastWriter(ms, i, k) ensures r[k] == ms[i][k] {
      if i > 0 {
        assert LastWriter(ms[1..], i - 1, k) by {
          forall j | i - 1 < j < |ms[1..]| ensures k !in ms[1..][j] {
            assert ms[1..][j] == ms[j + 1];
          }
        }
      }
    }
  }

  /** The values of a run of results up to the first failure, which is the
      outcome when there is one. */
  function Collect<T>(rs: seq<Result<T>>): (r: Result<seq<T>>)
    ensures r.Success? <==> forall k :: 0 <= k < |rs| ==> rs[k].Success?
    ensures r.Success? ==> |r.value| == |rs| && forall k :: 0 <= k < |rs| ==> rs[k] == Success(r.value[k])
    ensures r.Failure? ==> exists k :: 0 <= k < |rs| && rs[k] == Failure(r.error) && forall n :: 0 <= n < k ==> rs[n].Success?
  {
    if rs == [] then Success([])
    else match rs[0]
      case Failure(e) => Failure(e)
      case Success(t) =>
        match Collect(rs[1..])
        case Failure(e) =>
          CollectFailureStep(rs, e);
          Failure(e)
        case Success(ts) =>
          assert forall k :: 0 < k < |rs| ==> rs[k] == rs[1..][k - 1];
          Success([t] + ts)
  }

  lemma CollectFailureStep<T>(rs: seq<Result<T>>, e: PyError)
    requires rs != [] && rs[0].Success?
    requires exists k :: 0 <= k < |rs[1..]| && rs[1..][k] == Failure(e) && forall n :: 0 <= n < k ==> rs[1..][n].Success?
    ensures exists k :: 0 <= k < |rs| && rs[k] == Failure(e) && forall n :: 0 <= n < k ==> rs[n].Success?
  {
    var k :| 0 <= k < |rs[1..]| && rs[1..][k] == Failure(e) && forall n :: 0 <= n < k ==> rs[1..][n].Success?;
    assert rs[k + 1] == Failure(e);
    forall n | 0 <= n < k + 1 ensures rs[n].Success? {
      if n > 0 { assert rs[n] == rs[1..][n - 1]; }
    }
  }

  /** Overlaying the tables of a run of results that all succeed keeps
      every key some result writes, with the value of the last result
      writing it. */
  lemma {:induction false} OverlayResults(rs: seq<Result<Table>>, n: int, k: string)
    requires Collect(rs).Success? && 0 <= n < |rs| && k in rs[n].value
    ensures k in Overlay(Collect(rs).value)
    ensures (forall m :: n < m < |rs| ==> k !in rs[m].value) ==> Overlay(Collect(rs).value)[k] == rs[n].value[k]
  {
    var ts := Collect(rs).value;
    assert rs[n] == Success(ts[n]);
    if forall m :: n < m < |rs| ==> k !in rs[m].value {
      forall m | n < m < |ts| ensures k !in ts[m] {
        assert rs[m] == Success(ts[m]);
      }
      assert LastWriter(ts, n, k);
    }
  }

  /** `OverlayResults` for a run of rows from `i` on, row `y` read by `read`. */
  lemma OverlayRun(rs: seq<Result<Table>>, i: int, read: int -> Result<Table>, x: int, k: string)
    requires forall m :: 0 <= m < |rs| ==> rs[m] == read(i + m)
    requires forall y :: i <= y < i + |rs| ==> read(y).Success?
    requires i <= x < i + |rs| && k in read(x).value
    ensures Collect(rs).Success? && k in Overlay(Collect(rs).value)
    ensures (forall y :: x < y < i + |rs| ==> k !in read(y).value) ==> Overlay(Collect(rs).value)[k] == read(x).value[k]
  {
    forall m | 0 <= m < |rs| ensures rs[m].Success? {
      assert rs[m] == read(i + m);
    }
    assert rs[x - i] == read(x);
    if forall y :: x < y < i + |rs| ==> k !in read(y).value {
      forall m | x - i < m < |rs| ensures k !in rs[m].value {
        assert rs[m] == read(i + m);
      }
    }
    OverlayResults(rs, x - i, k);
  }
}

=== FILE: text.dfy ===
/** The fragment of Python's `str` and `re` behaviour the parser relies on,
    over `string` (= `seq<char>`). Character classes are ASCII except for
    white space, which follows Python's `str.isspace`. */
module Text {
  import opened Wrappers

  // ---------------------------------------------------------------------------
  // Character classes
  // ---------------------------------------------------------------------------

  predicate IsUpper(c: char) { 'A' <= c <= 'Z' }
  predicate IsLower(c: char) { 'a' <= c <= 'z' }
  predicate IsLetter(c: char) { IsUpper(c) || IsLower(c) }
  predicate IsDigit(c: char) { '0' <= c <= '9' }
  predicate IsAlnum(c: char) { IsLetter(c) || IsDigit(c) }

  /** `any(ch.isalpha() for ch in s)` */
  predicate HasLetter(s: string) {
    exists i :: 0 <= i < |s| && IsLetter(s[i])
  }

  /** Python's `str.isspace()` for one character. */
  predicate IsSpace(c: char) {
    var n := c as int;
    || 9 <= n <= 13 || 28 <= n <= 32 || n == 0x85 || n == 0xA0 || n == 0x1680
    || 0x2000 <= n <= 0x200A || n == 0x2028 || n == 0x2029 || n == 0x202F
    || n == 0x205F || n == 0x3000
  }

  /** A set of characters, as `str.strip(chars)`, `str.split()` and the
      regular expressions of the parser use them. */
  datatype CharClass = WhiteSpace | NonWhiteSpace | Decimal | UpperCase | Alphabetic | OneOf(chars: string)

  predicate InClass(c: char, cc: CharClass) {
    match cc
    case WhiteSpace => IsSpace(c)
    case NonWhiteSpace => !IsSpace(c)
    case Decimal => IsDigit(c)
    case UpperCase => IsUpper(c)
    case Alphabetic => IsLetter(c)
    case OneOf(chars) => c in chars
  }

  function ToUpper(c: char): (r: char)
    ensures IsLetter(c) ==> IsUpper(r)
    ensures !IsLower(c) ==> r == c
  {
    if IsLower(c) then (c as int - 32) as char else c
  }

  function ToLower(c: char): (r: char)
    ensures IsLetter(c) ==> IsLower(r)
    ensures !IsUpper(c) ==> r == c
  {
    if IsUpper(c) then (c as int + 32) as char else c
  }

  /** `str.upper()` and `str.lower()` on ASCII letters. */
  function Upper(s: string): (r: string)
    ensures |r| == |s| && forall i :: 0 <= i < |s| ==> r[i] == ToUpper(s[i])
  {
    seq(|s|, i requires 0 <= i < |s| => ToUpper(s[i]))
  }

  function Lower(s: string): (r: string)
    ensures |r| == |s| && forall i :: 0 <= i < |s| ==> r[i] == ToLower(s[i])
  {
    seq(|s|, i requires 0 <= i < |s| => ToLower(s[i]))
  }

  /** `str.capitalize()`: first character upper case, the rest lower case. */
  function Capitalize(s: string): (r: string)
    ensures |r| == |s|
  {
    if s == [] then [] else [ToUpper(s[0])] + Lower(s[1..])
  }

  /** `str.isdigit()`: non-empty and made of digits only. */
  predicate IsDigits(s: string) {
    |s| > 0 && forall i :: 0 <= i < |s| ==> IsDigit(s[i])
  }

  predicate AllUpper(s: string) {
    forall i :: 0 <= i < |s| ==> IsUpper(s[i])
  }

  // ---------------------------------------------------------------------------
  // Numbers: `int(s)` and `str(n)`
  // ---------------------------------------------------------------------------

  function DigitValue(c: char): nat
    requires IsDigit(c)
  {
    c as int - '0' as int
  }

  function DigitChar(d: nat): (c: char)
    requires d < 10
    ensures IsDigit(c) && DigitValue(c) == d
  {
    ('0' as int + d) as char
  }

  /** The value of a string of decimal digits, most significant first. */
  function DigitsValue(s: string): nat
    requires forall i :: 0 <= i < |s| ==> IsDigit(s[i])
  {
    if s == [] then 0 else DigitsValue(s[..|s| - 1]) * 10 + DigitValue(s[|s| - 1])
  }

  /** `str(n)` for a natural number. */
  function NatToString(n: nat): (r: string)
    ensures IsDigits(r)
  {
    if n < 10 then [DigitChar(n)] else NatToString(n / 10) + [DigitChar(n % 10)]
  }

  /** `int(str(n)) == n`, and `str(n)` has no leading zero. */
  lemma {:induction false} NatToStringRoundTrip(n: nat)
    ensures DigitsValue(NatToString(n)) == n
    ensures n > 0 ==> NatToString(n)[0] != '0'
  {
    if n >= 10 {
      var s := NatToString(n);
      assert s[..|s| - 1] == NatToString(n / 10);
      NatToStringRoundTrip(n / 10);
      assert s[0] == NatToString(n / 10)[0];
    }
  }

  /** Python's `int(s)` on a `str`: optional surrounding white space, an optional
      sign, then digits with single underscores allowed between digits. */
  function PyInt(s: string): (r: Option<int>)
    ensures r.Some? && !('-' in s) ==> r.value >= 0
  {
    var t := Strip(s);
    if |t| > 0 && (t[0] == '+' || t[0] == '-') then
      var v :- UnsignedInt(t[1..]);
      assert t[0] in s by { StripWithIn(s, WhiteSpace, 0); }
      var n: int := if t[0] == '-' then -(v as int) else v;
      Some(n)
    else
      var v :- UnsignedInt(t);
      Some(v)
  }

  predicate DigitOrUnderscore(c: char) { IsDigit(c) || c == '_' }

  /** The unsigned body of an integer literal as `int()` reads it. */
  function UnsignedInt(b: string): (r: Option<nat>)
    ensures r.Some? ==> |b| > 0 && IsDigit(b[0])
  {
    if |b| > 0 && IsDigit(b[0]) && IsDigit(b[|b| - 1])
       && (forall i :: 0 <= i < |b| ==> DigitOrUnderscore(b[i]))
       && (forall i :: 0 <= i < |b| - 1 ==> !(b[i] == '_' && b[i + 1] == '_'))
    then
      var digits := RemoveChar(b, '_');
      assert forall i :: 0 <= i < |digits| ==> IsDigit(digits[i]) by {
        forall i | 0 <= i < |digits| ensures IsDigit(digits[i]) {
          assert digits[i] in b;
          var j :| 0 <= j < |b| && b[j] == digits[i];
          assert DigitOrUnderscore(b[j]);
        }
      }
      Some(DigitsValue(digits))
    else None
  }

  /** `int(s)` on a plain digit string is its decimal value. */
  lemma PyIntOfDigits(s: string)
    requires IsDigits(s)
    ensures PyInt(s) == Some(DigitsValue(s))
  {
    assert !IsSpace(s[0]) && !IsSpace(s[|s| - 1]);
    StripKeeps(s, WhiteSpace);
    UnsignedIntOfDigits(s);
  }

  lemma UnsignedIntOfDigits(s: string)
    requires IsDigits(s)
    ensures UnsignedInt(s) == Some(DigitsValue(s))
  {
    assert '_' !in s;
    RemoveCharAbsent(s, '_');
  }

  // ---------------------------------------------------------------------------
  // Stripping
  // ---------------------------------------------------------------------------

  /** Length of the longest prefix of `s` whose characters satisfy `p`. */
  function Run(s: string, cc: CharClass): (n: nat)
    ensures n <= |s|
    ensures forall i :: 0 <= i < n ==> InClass(s[i], cc)
    ensures n < |s| ==> !InClass(s[n], cc)
  {
    if s == [] || !InClass(s[0], cc) then 0 else 1 + Run(s[1..], cc)
  }

  /** Adjacent slices join up. */
  lemma SliceConcat<T>(s: seq<T>, i: nat, j: nat, k: nat)
    requires i <= j <= k <= |s|
    ensures s[i..j] + s[j..k] == s[i..k]
  {
  }

  lemma RunAll(s: string, cc: CharClass)
    requires forall i :: 0 <= i < |s| ==> InClass(s[i], cc)
    ensures Run(s, cc) == |s|
  {
  }

  /** Length of the longest digit run starting at `i`. */
  function DigitRun(s: string, i: nat): (n: nat)
    requires i <= |s|
    ensures i + n <= |s|
    ensures forall k :: i <= k < i + n ==> IsDigit(s[k])
    ensures i + n < |s| ==> !IsDigit(s[i + n])
  {
    Run(s[i..], Decimal)
  }

  /** Length of the longest run of digits at the end. */
  function TrailingDigits(s: string): (n: nat)
    ensures n <= |s|
    ensures forall i :: |s| - n <= i < |s| ==> IsDigit(s[i])
    ensures n < |s| ==> !IsDigit(s[|s| - n - 1])
  {
    if s == [] || !IsDigit(s[|s| - 1]) then 0 else 1 + TrailingDigits(s[..|s| - 1])
  }

  /** Digits after a text that does not end in one are the trailing run. */
  lemma {:induction false} TrailingDigitsOf(chars: string, number: string)
    requires chars == [] || !IsDigit(chars[|chars| - 1])
    requires forall i :: 0 <= i < |number| ==> IsDigit(number[i])
    ensures TrailingDigits(chars + number) == |number|
    decreases |number|
  {
    var s := chars + number;
    if number == [] {
      assert s == chars;
    } else {
      assert s[|s| - 1] == number[|number| - 1];
      assert s[..|s| - 1] == chars + number[..|number| - 1];
      TrailingDigitsOf(chars, number[..|number| - 1]);
    }
  }

  function TrimLeft(s: string, cc: CharClass): (r: string)
    ensures |r| <= |s| && r == s[|s| - |r|..]
    ensures r != [] ==> !InClass(r[0], cc)
  {
    s[Run(s, cc)..]
  }

  function TrimRight(s: string, cc: CharClass): (r: string)
    ensures |r| <= |s| && r == s[..|r|]
    ensures r != [] ==> !InClass(r[|r| - 1], cc)
    ensures forall i :: |r| <= i < |s| ==> InClass(s[i], cc)
    decreases |s|
  {
    if s == [] || !InClass(s[|s| - 1], cc) then s else TrimRight(s[..|s| - 1], cc)
  }

  lemma TrimRightKeeps(s: string, cc: CharClass)
    requires s == [] || !InClass(s[|s| - 1], cc)
    ensures TrimRight(s, cc) == s
  {
  }

  /** A text that neither starts nor ends with a stripped character is unchanged. */
  lemma StripKeeps(s: string, cc: CharClass)
    requires s == [] || (!InClass(s[0], cc) && !InClass(s[|s| - 1], cc))
    ensures StripWith(s, cc) == s
  {
    if s != [] {
      assert Run(s, cc) == 0;
      assert TrimLeft(s, cc) == s;
      TrimRightKeeps(s, cc);
    }
  }

  /** Python's `s.strip(chars)` with the character set given as a predicate. */
  function StripWith(s: string, cc: CharClass): (r: string)
    ensures r != [] ==> !InClass(r[0], cc) && !InClass(r[|r| - 1], cc)
    ensures Run(s, cc) + |r| <= |s| && r == s[Run(s, cc)..Run(s, cc) + |r|]
  {
    var l := TrimLeft(s, cc);
    var r := TrimRight(l, cc);
    assert r != [] ==> r[0] == l[0];
    assert r == s[Run(s, cc)..Run(s, cc) + |r|];
    r
  }

  lemma StripWithIn(s: string, cc: CharClass, i: nat)
    requires i < |StripWith(s, cc)|
    ensures StripWith(s, cc)[i] in s
  {
    var r := StripWith(s, cc);
    assert r[i] == s[Run(s, cc) + i];
  }

  /** Stripping a set of characters drops a border made of them around a
      text that neither starts nor ends with one. */
  lemma StripCharsAround(a: string, t: string, b: string, chars: string)
    requires forall c :: c in a ==> c in chars
    requires forall c :: c in b ==> c in chars
    requires t != [] && t[0] !in chars && t[|t| - 1] !in chars
    ensures StripChars(a + t + b, chars) == t
  {
    var s := a + t + b;
    var cc := OneOf(chars);
    RunPrefix(a, t + b, cc);
    assert s == a + (t + b);
    var r := StripWith(s, cc);
    assert r == s[|a|..|a| + |r|];
    if |r| < |t| {
      StripWithCovers(s, cc, |a| + |t| - 1);
    }
    assert r == t;
  }

  lemma RunPrefix(a: string, u: string, cc: CharClass)
    requires forall c :: c in a ==> InClass(c, cc)
    requires u != [] && !InClass(u[0], cc)
    ensures Run(a + u, cc) == |a|
  {
    var s := a + u;
    assert s[|a|] == u[0];
    forall i | 0 <= i < |a| ensures InClass(s[i], cc) {
      assert s[i] == a[i];
    }
    RunUpTo(s, cc, |a|);
  }

  lemma RunUpTo(s: string, cc: CharClass, n: nat)
    requires n < |s| && !InClass(s[n], cc) && forall i :: 0 <= i < n ==> InClass(s[i], cc)
    ensures Run(s, cc) == n
  {
  }

  /** Stripping stops short of any character outside the set. */
  lemma StripWithCovers(s: string, cc: CharClass, i: nat)
    requires i < |s| && !InClass(s[i], cc) && Run(s, cc) <= i
    ensures Run(s, cc) + |StripWith(s, cc)| > i
  {
    var l := TrimLeft(s, cc);
    var n := Run(s, cc);
    assert l[i - n] == s[i];
    TrimRightCovers(l, cc, i - n);
  }

  lemma TrimRightCovers(s: string, cc: CharClass, i: nat)
    requires i < |s| && !InClass(s[i], cc)
    ensures |TrimRight(s, cc)| > i
  {
  }
  /** `s.strip()` */
  function Strip(s: string): string {
    StripWith(s, WhiteSpace)
  }

  /** `s.strip(chars)` */
  function StripChars(s: string, chars: string): string {
    StripWith(s, OneOf(chars))
  }

  // ---------------------------------------------------------------------------
  // Searching and rewriting
  // ---------------------------------------------------------------------------

  predicate StartsWith(s: string, prefix: string) {
    |prefix| <= |s| && s[..|prefix|] == prefix
  }

  predicate OccursAt(s: string, t: string, i: int) {
    0 <= i && i + |t| <= |s| && s[i..i + |t|] == t
  }

  /** `s.find(t)`: the first index at which `t` occurs, or -1. */
  function IndexOf(s: string, t: string): (r: int)
    ensures -1 <= r <= |s|
    ensures r >= 0 ==> OccursAt(s, t, r)
    ensures r >= 0 ==> forall j :: 0 <= j < r ==> !OccursAt(s, t, j)
    ensures r == -1 ==> forall j :: !OccursAt(s, t, j)
    decreases |s|
  {
    if |s| < |t| then -1
    else if s[..|t|] == t then 0
    else
      var k := IndexOf(s[1..], t);
      assert forall j :: 1 <= j ==> (OccursAt(s, t, j) <==> OccursAt(s[1..], t, j - 1)) by {
        forall j | 1 <= j ensures OccursAt(s, t, j) <==> OccursAt(s[1..], t, j - 1) {
          OccursShift(s, t, j);
        }
      }
      if k < 0 then -1 else k + 1
  }

  lemma OccursShift(s: string, t: string, j: int)
    requires 1 <= j && |s| > 0
    ensures OccursAt(s, t, j) <==> OccursAt(s[1..], t, j - 1)
  {
    if j + |t| <= |s| {
      assert s[j..j + |t|] == s[1..][j - 1..j - 1 + |t|];
    }
  }

  /** Python's `t in s` for strings. */
  predicate Contains(s: string, t: string) {
    IndexOf(s, t) >= 0
  }

  /** A text holding a character that `s` lacks does not occur in `s`. */
  lemma MissingChar(s: string, t: string, c: char)
    requires c in t && c !in s
    ensures !Contains(s, t)
  {
    var i :| 0 <= i < |t| && t[i] == c;
    forall j ensures !OccursAt(s, t, j) {
      if 0 <= j && j + |t| <= |s| {
        assert s[j..j + |t|][i] == s[j + i];
      }
    }
  }

  /** `s.find(c)` for a one-character needle. */
  function Find(s: string, c: char): (r: int)
    ensures -1 <= r < |s|
    ensures r >= 0 ==> s[r] == c && forall j :: 0 <= j < r ==> s[j] != c
    ensures r == -1 <==> c !in s
  {
    if s == [] then -1
    else if s[0] == c then 0
    else
      var k := Find(s[1..], c);
      assert s == [s[0]] + s[1..];
      if k == -1 then -1 else k + 1
  }

  /** The one-character find agrees with the general one. */
  lemma FindIsIndexOf(s: string, c: char)
    ensures Find(s, c) == IndexOf(s, [c])
  {
    var r := Find(s, c);
    forall j | 0 <= j && (r == -1 || j < r) ensures !OccursAt(s, [c], j) {
      if j + 1 <= |s| {
        assert s[j..j + 1][0] == s[j];
      }
    }
    if r >= 0 {
      assert s[r..r + 1] == [c];
      assert OccursAt(s, [c], r);
    }
    var k := IndexOf(s, [c]);
    if k >= 0 && r >= 0 {
      assert !OccursAt(s, [c], k) || k >= r;
    }
  }

  /** `(a + c + b).find(c)` is the length of `a` when `a` has no `c`. */
  lemma FindAfter(a: string, c: char, b: string)
    requires c !in a
    ensures Find(a + [c] + b, c) == |a|
  {
    var s := a + [c] + b;
    assert s[|a|] == c;
    assert forall j :: 0 <= j < |a| ==> s[j] == a[j];
  }

  /** `s.replace(pat, rep)`: every non-overlapping occurrence, left to right. */
  function ReplaceAll(s: string, pat: string, rep: string): (r: string)
    requires |pat| > 0
    ensures |rep| >= |pat| ==> |r| >= |s|
    ensures s != [] && rep != [] ==> r != []
    decreases |s|
  {
    if |s| < |pat| then s
    else if s[..|pat|] == pat then rep + ReplaceAll(s[|pat|..], pat, rep)
    else [s[0]] + ReplaceAll(s[1..], pat, rep)
  }

  /** Replacing a text that does not occur changes nothing. */
  lemma {:induction false} ReplaceAbsent(s: string, pat: string, rep: string)
    requires |pat| > 0 && !Contains(s, pat)
    ensures ReplaceAll(s, pat, rep) == s
    decreases |s|
  {
    if |s| >= |pat| {
      assert !OccursAt(s, pat, 0);
      assert !Contains(s[1..], pat) by {
        forall j ensures !OccursAt(s[1..], pat, j) {
          if 0 <= j {
            OccursShift(s, pat, j + 1);
          }
        }
      }
      ReplaceAbsent(s[1..], pat, rep);
    }
  }

  /** `s.replace(a, b)` for single characters. */
  function ReplaceChar(s: string, a: char, b: char): (r: string)
    ensures |r| == |s|
    ensures forall i :: 0 <= i < |s| ==> r[i] == (if s[i] == a then b else s[i])
  {
    seq(|s|, i requires 0 <= i < |s| => if s[i] == a then b else s[i])
  }

  lemma ReplaceCharAbsent(s: string, a: char, b: char)
    requires a !in s
    ensures ReplaceChar(s, a, b) == s
  {
  }

  /** `s.replace(c, "")` */
  function RemoveChar(s: string, c: char): (r: string)
    ensures c !in r
    ensures forall x :: x in r ==> x in s
  {
    if s == [] then []
    else if s[0] == c then RemoveChar(s[1..], c)
    else [s[0]] + RemoveChar(s[1..], c)
  }

  lemma RemoveCharAbsent(s: string, c: char)
    requires c !in s
    ensures RemoveChar(s, c) == s
  {
  }

  /** Python's `$` also matches just before one final newline. */
  function Chomp(s: string): (r: string)
    ensures r == s || r + "\n" == s
  {
    if |s| > 0 && s[|s| - 1] == '\n' then s[..|s| - 1] else s
  }

  lemma ChompNoNewline(s: string)
    requires '\n' !in s
    ensures Chomp(s) == s
  {
  }

  // ---------------------------------------------------------------------------
  // Splitting and joining
  // ---------------------------------------------------------------------------

  /** Python's `s.split(sep)` where every character of `seps` is a separator
      (`re.split("[...]", s)` for a character set): empty pieces are kept and
      there is always at least one piece. */
  function SplitBy(s: string, seps: string): (r: seq<string>)
    ensures |r| >= 1
    ensures forall k, i :: 0 <= k < |r| && 0 <= i < |r[k]| ==> r[k][i] !in seps
    decreases |s|
  {
    if s == [] then [""]
    else
      var rest := SplitBy(s[1..], seps);
      if s[0] in seps then [""] + rest
      else [[s[0]] + rest[0]] + rest[1..]
  }

  /** The pieces of a text with no separator in it. */
  lemma {:induction false} SplitByNone(s: string, seps: string)
    requires forall i :: 0 <= i < |s| ==> s[i] !in seps
    ensures SplitBy(s, seps) == [s]
    decreases |s|
  {
    if s != [] {
      SplitByNone(s[1..], seps);
      assert [s[0]] + s[1..] == s;
    }
  }

  /** Splitting just after a separator-free prefix and one separator. */
  lemma {:induction false} SplitByAt(a: string, c: char, b: string, seps: string)
    requires forall i :: 0 <= i < |a| ==> a[i] !in seps
    requires c in seps
    ensures SplitBy(a + [c] + b, seps) == [a] + SplitBy(b, seps)
    decreases |a|
  {
    if a == [] {
      assert (a + [c] + b)[1..] == b;
    } else {
      assert (a + [c] + b)[1..] == a[1..] + [c] + b;
      SplitByAt(a[1..], c, b, seps);
      assert [a[0]] + a[1..] == a;
    }
  }

  /** The last piece is what follows the last separator. */
  lemma {:induction false} SplitByLast(a: string, c: char, b: string, seps: string)
    requires c in seps
    requires forall i :: 0 <= i < |b| ==> b[i] !in seps
    ensures |SplitBy(a + [c] + b, seps)| >= 2 && Last(SplitBy(a + [c] + b, seps)) == b
    decreases |a|
  {
    if a == [] {
      assert (a + [c] + b)[1..] == b;
      SplitByNone(b, seps);
    } else {
      assert (a + [c] + b)[1..] == a[1..] + [c] + b;
      SplitByLast(a[1..], c, b, seps);
    }
  }

  /** Every character of every piece comes from the split text. */
  lemma {:induction false} SplitByChars(s: string, seps: string, k: nat, i: nat)
    requires k < |SplitBy(s, seps)| && i < |SplitBy(s, seps)[k]|
    ensures SplitBy(s, seps)[k][i] in s
    decreases |s|
  {
    if s != [] {
      var rest := SplitBy(s[1..], seps);
      if s[0] in seps {
        if k > 0 {
          SplitByChars(s[1..], seps, k - 1, i);
        }
      } else if k == 0 {
        if i > 0 {
          SplitByChars(s[1..], seps, 0, i - 1);
        }
      } else {
        SplitByChars(s[1..], seps, k, i);
      }
    }
  }

  /** `s.split(c)` */
  function Split(s: string, c: char): (r: seq<string>)
    ensures |r| >= 1
    ensures forall k :: 0 <= k < |r| ==> c !in r[k]
  {
    var r := SplitBy(s, [c]);
    assert forall k :: 0 <= k < |r| ==> c !in r[k] by {
      forall k | 0 <= k < |r| ensures c !in r[k] {
        assert forall i :: 0 <= i < |r[k]| ==> r[k][i] != c;
      }
    }
    r
  }

  /** `sep.join(parts)` */
  function JoinWith(parts: seq<string>, sep: string): string {
    if |parts| == 0 then ""
    else if |parts| == 1 then parts[0]
    else parts[0] + sep + JoinWith(parts[1..], sep)
  }

  /** Joining the pieces of a split with the same separator gives back the text. */
  lemma {:induction false} SplitJoin(s: string, c: char)
    ensures JoinWith(Split(s, c), [c]) == s
    decreases |s|
  {
    if s != [] {
      SplitJoin(s[1..], c);
      var rest := Split(s[1..], c);
      if s[0] != c {
        if |rest| > 1 {
          assert JoinWith(rest, [c]) == rest[0] + [c] + JoinWith(rest[1..], [c]);
        }
      }
    }
  }

  /** A text with no separator is a single piece. */
  lemma {:induction false} SplitNoSep(s: string, c: char)
    requires c !in s
    ensures Split(s, c) == [s]
    decreases |s|
  {
    if s != [] {
      SplitNoSep(s[1..], c);
      assert [s[0]] + s[1..] == s;
    }
  }

  /** Splitting at one separator splits the pieces at that point. */
  lemma {:induction false} SplitAt(a: string, b: string, c: char)
    requires c !in a
    ensures Split(a + [c] + b, c) == [a] + Split(b, c)
    decreases |a|
  {
    if a == [] {
      assert (a + [c] + b)[1..] == b;
    } else {
      assert (a + [c] + b)[1..] == a[1..] + [c] + b;
      SplitAt(a[1..], b, c);
      assert [a[0]] + a[1..] == a;
    }
  }

  /** Splitting a join of separator-free pieces gives the pieces back. */
  lemma {:induction false} JoinSplit(parts: seq<string>, c: char)
    requires parts != []
    requires forall k :: 0 <= k < |parts| ==> c !in parts[k]
    ensures Split(JoinWith(parts, [c]), c) == parts
    decreases |parts|
  {
    if |parts| == 1 {
      SplitNoSep(parts[0], c);
    } else {
      JoinSplit(parts[1..], c);
      SplitAt(parts[0], JoinWith(parts[1..], [c]), c);
      assert [parts[0]] + parts[1..] == parts;
    }
  }

  /** `[p.strip() for p in ps]` */
  function StripEach(ps: seq<string>): (r: seq<string>)
    ensures |r| == |ps| && forall k :: 0 <= k < |ps| ==> r[k] == Strip(ps[k])
  {
    seq(|ps|, k requires 0 <= k < |ps| => Strip(ps[k]))
  }

  /** The non-empty texts, in order. */
  function DropEmpty(qs: seq<string>): (r: seq<string>)
    ensures |r| <= |qs|
    ensures forall k :: 0 <= k < |r| ==> r[k] != [] && r[k] in qs
  {
    if qs == [] then []
    else if qs[0] == [] then DropEmpty(qs[1..])
    else [qs[0]] + DropEmpty(qs[1..])
  }

  /** `[p.strip() for p in ps if p.strip()]` */
  function NonBlank(ps: seq<string>): (r: seq<string>)
    ensures AllStripped(r)
    ensures |r| <= |ps|
  {
    NonBlankStripped(ps);
    DropEmpty(StripEach(ps))
  }

  /** Every piece is non-empty and has nothing left to strip. */
  predicate AllStripped(r: seq<string>) {
    forall k :: 0 <= k < |r| ==> r[k] != [] && r[k] == Strip(r[k])
  }

  /** Each kept piece is one of the stripped inputs. */
  lemma NonBlankFrom(ps: seq<string>, k: nat)
    requires k < |DropEmpty(StripEach(ps))|
    ensures exists j :: 0 <= j < |ps| && DropEmpty(StripEach(ps))[k] == Strip(ps[j])
  {
    var q := StripEach(ps);
    var j :| 0 <= j < |q| && q[j] == DropEmpty(q)[k];
    assert q[j] == Strip(ps[j]);
  }

  lemma NonBlankStripped(ps: seq<string>)
    ensures AllStripped(DropEmpty(StripEach(ps)))
  {
    var r := DropEmpty(StripEach(ps));
    forall k | 0 <= k < |r| ensures r[k] == Strip(r[k]) {
      NonBlankFrom(ps, k);
      var j :| 0 <= j < |ps| && r[k] == Strip(ps[j]);
      StripIdempotent(ps[j]);
    }
  }

  /** What one piece contributes to the filtered list. */
  function StrippedHead(x: string): (r: seq<string>)
    ensures |r| <= 1
  {
    if Strip(x) == [] then [] else [Strip(x)]
  }

  /** A single piece is kept, stripped, unless it is blank. */
  lemma NonBlankOne(x: string)
    ensures NonBlank([x]) == StrippedHead(x)
  {
    assert StripEach([x]) == [Strip(x)];
  }

  /** Pieces that are already stripped and non-empty are kept as they are. */
  lemma NonBlankKeeps(ps: seq<string>)
    requires AllStripped(ps)
    ensures NonBlank(ps) == ps
  {
    assert StripEach(ps) == ps;
    DropEmptyKeeps(ps);
  }

  lemma {:induction false} DropEmptyKeeps(qs: seq<string>)
    requires forall k :: 0 <= k < |qs| ==> qs[k] != []
    ensures DropEmpty(qs) == qs
  {
    if qs != [] {
      DropEmptyKeeps(qs[1..]);
      assert qs == [qs[0]] + qs[1..];
    }
  }

  lemma {:induction false} DropEmptyAppend(a: seq<string>, b: seq<string>)
    ensures DropEmpty(a + b) == DropEmpty(a) + DropEmpty(b)
    decreases |a|
  {
    if a == [] {
      assert a + b == b;
    } else {
      assert (a + b)[0] == a[0];
      assert (a + b)[1..] == a[1..] + b;
      DropEmptyAppend(a[1..], b);
    }
  }

  /** Filtering distributes over concatenation. */
  lemma NonBlankAppend(a: seq<string>, b: seq<string>)
    ensures NonBlank(a + b) == NonBlank(a) + NonBlank(b)
  {
    assert StripEach(a + b) == StripEach(a) + StripEach(b);
    DropEmptyAppend(StripEach(a), StripEach(b));
  }

  lemma StripIdempotent(s: string)
    ensures Strip(Strip(s)) == Strip(s)
  {
    StripKeeps(Strip(s), WhiteSpace);
  }

  /** Python's `s.split()`: the maximal runs of non-white-space characters. */
  function Words(s: string): (r: seq<string>)
    ensures NoneEmpty(r)
    decreases |s|
  {
    var t := TrimLeft(s, WhiteSpace);
    if t == [] then []
    else
      var n := Run(t, NonWhiteSpace);
      assert n >= 1 by { assert !IsSpace(t[0]); }
      var rest := Words(t[n..]);
      NoneEmptyCons(t[..n], rest);
      [t[..n]] + rest
  }

  predicate NoneEmpty(r: seq<string>) {
    forall k :: 0 <= k < |r| ==> r[k] != []
  }

  lemma NoneEmptyCons(w: string, rest: seq<string>)
    requires w != [] && NoneEmpty(rest)
    ensures NoneEmpty([w] + rest)
  {
    forall k | 0 <= k < |[w] + rest| ensures ([w] + rest)[k] != [] {
      if k > 0 {
        assert ([w] + rest)[k] == rest[k - 1];
      }
    }
  }

  /** `" ".join(s.split())`: white space collapsed to single spaces, trimmed. */
  function CollapseSpaces(s: string): string {
    JoinWith(Words(s), " ")
  }

  lemma WordsOfRun(w: string)
    requires w != [] && TrimLeft(w, WhiteSpace) == w && Run(w, NonWhiteSpace) == |w|
    ensures Words(w) == [w]
  {
    assert w[..|w|] == w && w[|w|..] == [];
  }

  /** A non-empty text without white space is one word. */
  lemma OneWord(w: string)
    requires w != [] && forall i :: 0 <= i < |w| ==> !IsSpace(w[i])
    ensures Words(w) == [w] && CollapseSpaces(w) == w
  {
    assert TrimLeft(w, WhiteSpace) == w by {
      assert !InClass(w[0], WhiteSpace);
    }
    RunAll(w, NonWhiteSpace);
    WordsOfRun(w);
  }

  function Last<T>(s: seq<T>): T
    requires |s| > 0
  {
    s[|s| - 1]
  }

  /** A Python slice bound normalised against a length: negative bounds count
      from the end, and every bound is clamped to `0..n`. */
  function SliceBound(n: nat, i: int): (r: nat)
    ensures r <= n
  {
    if i < 0 then (if i + n < 0 then 0 else i + n) else if i > n then n else i
  }

  /** Python's `s[lo:hi]` for any sequence. */
  function Slice<T>(s: seq<T>, lo: int, hi: int): (r: seq<T>)
    ensures |r| <= |s|
  {
    var a := SliceBound(|s|, lo);
    var b := SliceBound(|s|, hi);
    if a < b then s[a..b] else []
  }

  /** Python's slices agree with Dafny's when the bounds are in range. */
  lemma SliceWithin<T>(s: seq<T>, lo: nat, hi: nat)
    requires lo <= hi <= |s|
    ensures Slice(s, lo, hi) == s[lo..hi] && From(s, lo) == s[lo..] && Upto(s, hi) == s[..hi]
  {
  }

  /** `s[lo:]` */
  function From<T>(s: seq<T>, lo: int): seq<T> {
    Slice(s, lo, |s|)
  }

  /** `s[:hi]` */
  function Upto<T>(s: seq<T>, hi: int): seq<T> {
    Slice(s, 0, hi)
  }
}

=== FILE: timespan.dfy ===
/** Period headers of the timetable (`Period` in
    jiit_tt_parser/parser/parse_events.py): a text such as `9.00-9.55` becomes a
    pair of clock times, with the afternoon heuristic applied to hours that the
    header writes on a 12-hour clock. */
module TimeSpan {
  import opened Wrappers
  import opened Text

  /** `datetime.time(hour, minute)`; seconds are always zero. */
  datatype Time = Time(hour: int, minute: int) {
    predicate Valid() {
      0 <= hour < 24 && 0 <= minute < 60
    }
  }

  /** `datetime.time.__lt__` */
  predicate Before(a: Time, b: Time) {
    a.hour < b.hour || (a.hour == b.hour && a.minute < b.minute)
  }

  predicate NotAfter(a: Time, b: Time) {
    !Before(b, a)
  }

  datatype Period = Period(start: Time, end: Time) {
    predicate Valid() {
      start.Valid() && end.Valid()
    }

    /** Both bounds of `other` lie within this period. */
    predicate Covers(other: Period) {
      NotAfter(start, other.start) && NotAfter(other.end, end)
    }
  }

  /** Start hours below this are read as afternoon hours. */
  const AfternoonStartBelow := 8
  /** End hours below this are read as afternoon hours. */
  const AfternoonEndBelow := 9

  /** `datetime.time(h, m)`, which raises `ValueError` out of range. */
  function MakeTime(h: int, m: int): (r: Result<Time>)
    ensures r.Success? <==> 0 <= h < 24 && 0 <= m < 60
    ensures r.Success? ==> r.value == Time(h, m) && r.value.Valid()
  {
    if 0 <= h < 24 && 0 <= m < 60 then Success(Time(h, m))
    else Failure(ValueError("hour or minute out of range"))
  }

  /** `int(s)`, raising `ValueError` on text that is not an integer. */
  function ToInt(s: string): (r: Result<int>)
    ensures r.Success? <==> PyInt(s).Some?
    ensures r.Success? ==> r.value == PyInt(s).value
  {
    match PyInt(s)
    case Some(v) => Success(v)
    case None => Failure(ValueError("invalid literal for int()"))
  }

  /** The separators of `re.split(r"[:.]", ...)`. */
  const HourSeparators := ":."

  /** `split_hour_min`: `h`, `h.mm` or `h:mm`, the minute stripped of `AMP `. */
  function SplitHourMin(s: string): (r: Result<(int, int)>)
    ensures r.Success? && '-' !in s ==> r.value.0 >= 0 && r.value.1 >= 0
    ensures r.Success? && ':' !in s && '.' !in s ==> r.value.1 == 0
  {
    if ':' in s || '.' in s then
      var parts := SplitBy(s, HourSeparators);
      var hour :- ToInt(parts[0]);
      var minute :- if |parts| > 1 then ToInt(StripChars(parts[1], "AMP ")) else Success(0);
      PiecesAvoidDash(s, parts);
      Success((hour, minute))
    else
      var hour :- ToInt(s);
      Success((hour, 0))
  }

  lemma PiecesAvoidDash(s: string, parts: seq<string>)
    requires parts == SplitBy(s, HourSeparators)
    ensures '-' !in s ==> '-' !in parts[0]
    ensures '-' !in s && |parts| > 1 ==> '-' !in StripChars(parts[1], "AMP ")
  {
    if '-' !in s {
      forall k, i | 0 <= k < |parts| && 0 <= i < |parts[k]|
        ensures parts[k][i] != '-'
      {
        SplitByChars(s, HourSeparators, k, i);
      }
      if |parts| > 1 {
        NoDashAfterStrip(parts[1], "AMP ");
      }
    }
  }

  /** Adds twelve hours to an hour below the threshold. */
  function Afternoon(hour: int, below: int): int {
    if hour < below then hour + 12 else hour
  }

  /** `Period.from_string`: exactly one `-`; the start clause is stripped of
      ` NO` and the end clause of `APM `, then each is read as hour and minute
      and shifted into the afternoon when below its threshold. */
  function FromString(fmt: string): (r: Result<Period>)
    ensures r.Success? ==> |Split(fmt, '-')| == 2
    ensures r.Success? ==> r.value.Valid()
    ensures r.Success? ==> AfternoonStartBelow <= r.value.start.hour
    ensures r.Success? ==> AfternoonEndBelow <= r.value.end.hour
  {
    var pieces := Split(fmt, '-');
    if |pieces| != 2 then Failure(ValueError("expected exactly one '-'"))
    else
      NoDashAfterStrip(pieces[0], " NO");
      NoDashAfterStrip(pieces[1], "APM ");
      FromClauses(StripChars(pieces[0], " NO"), StripChars(pieces[1], "APM "))
  }

  /** The part of `from_string` after the split: the end clause is read
      first, then the start clause, then both times are built. */
  function FromClauses(startText: string, endText: string): (r: Result<Period>)
    requires '-' !in startText && '-' !in endText
    ensures r.Success? ==> r.value.Valid()
    ensures r.Success? ==> AfternoonStartBelow <= r.value.start.hour
    ensures r.Success? ==> AfternoonEndBelow <= r.value.end.hour
  {
    var e :- SplitHourMin(endText);
    var s :- SplitHourMin(startText);
    var start :- MakeTime(Afternoon(s.0, AfternoonStartBelow), s.1);
    var end :- MakeTime(Afternoon(e.0, AfternoonEndBelow), e.1);
    Success(Period(start, end))
  }

  lemma NoDashAfterStrip(s: string, chars: string)
    requires '-' !in s
    ensures '-' !in StripChars(s, chars)
  {
  }

  /** `Period.__add__`: the earlier start and the later end. */
  function Add(p: Period, q: Period): (r: Period)
    ensures r.Covers(p) && r.Covers(q)
    ensures (r.start == p.start || r.start == q.start) && (r.end == p.end || r.end == q.end)
  {
    var start := if Before(p.start, q.start) then p.start else q.start;
    var end := if Before(q.end, p.end) then p.end else q.end;
    Period(start, end)
  }

  /** The union is the smallest period covering both operands. */
  lemma AddIsLeastCover(p: Period, q: Period, c: Period)
    requires c.Covers(p) && c.Covers(q)
    ensures c.Covers(Add(p, q))
  {
  }

  lemma AddCommutes(p: Period, q: Period)
    ensures Add(p, q) == Add(q, p)
  {
  }

  lemma AddIdempotent(p: Period)
    ensures Add(p, p) == p
  {
  }

  lemma AddAssociates(p: Period, q: Period, s: Period)
    ensures Add(Add(p, q), s) == Add(p, Add(q, s))
  {
  }

  // ---------------------------------------------------------------------------
  // Rendering a header the way the timetables write it, and reading it back
  // ---------------------------------------------------------------------------

  /** The hour as a 12-hour clock shows it. */
  function ClockHour(h: nat): nat {
    if h > 12 then h - 12 else h
  }

  function TwoDigits(m: nat): (r: string)
    requires m < 100
    ensures IsDigits(r)
  {
    if m < 10 then "0" + NatToString(m) else NatToString(m)
  }

  /** `h.mm` on a 12-hour clock, without AM/PM. */
  function ShowTime(t: Time): (r: string)
    requires t.Valid()
  {
    NatToString(ClockHour(t.hour)) + "." + TwoDigits(t.minute)
  }

  function ShowPeriod(p: Period): string
    requires p.Valid()
  {
    ShowTime(p.start) + "-" + ShowTime(p.end)
  }

  lemma TwoDigitsValue(m: nat)
    requires m < 100
    ensures DigitsValue(TwoDigits(m)) == m
  {
    NatToStringRoundTrip(m);
    if m < 10 {
      assert TwoDigits(m) == ['0', DigitChar(m)];
      assert TwoDigits(m)[..1] == ['0'];
    }
  }

  /** `h.mm` and `h:mm` read back as the two digit strings' values. */
  lemma ReadHourMinute(h: string, sep: char, m: string)
    requires IsDigits(h) && IsDigits(m) && sep in HourSeparators
    ensures SplitHourMin(h + [sep] + m) == Success((DigitsValue(h), DigitsValue(m)))
  {
    var s := h + [sep] + m;
    assert s[|h|] == sep;
    SeparatedPieces(h, sep, m);
    DigitPieces(h, m);
    ReadPieces(s, h, m, DigitsValue(h), DigitsValue(m));
  }

  /** The hour piece and the stripped minute piece read as their values. */
  lemma DigitPieces(h: string, m: string)
    requires IsDigits(h) && IsDigits(m)
    ensures ToInt(h) == Success(DigitsValue(h)) && ToInt(StripChars(m, "AMP ")) == Success(DigitsValue(m))
  {
    ToIntOfDigits(h);
    MinuteUnstripped(m);
    ToIntOfDigits(m);
  }

  /** The `AMP ` strip of a minute leaves its digits alone. */
  lemma MinuteUnstripped(m: string)
    requires IsDigits(m)
    ensures StripChars(m, "AMP ") == m
  {
    DigitsUnstripped(m, "AMP ");
  }

  lemma ToIntOfDigits(h: string)
    requires IsDigits(h)
    ensures ToInt(h) == Success(DigitsValue(h))
  {
    PyIntOfDigits(h);
  }

  /** A separated time whose two pieces read as numbers. */
  lemma ReadPieces(s: string, a: string, b: string, x: int, y: int)
    requires (':' in s || '.' in s) && SplitBy(s, HourSeparators) == [a, b]
    requires ToInt(a) == Success(x) && ToInt(StripChars(b, "AMP ")) == Success(y)
    ensures SplitHourMin(s) == Success((x, y))
  {
  }

  lemma SeparatedPieces(h: string, sep: char, m: string)
    requires IsDigits(h) && IsDigits(m) && sep in HourSeparators
    ensures SplitBy(h + [sep] + m, HourSeparators) == [h, m]
  {
    assert forall i :: 0 <= i < |m| ==> m[i] !in HourSeparators;
    assert forall i :: 0 <= i < |h| ==> h[i] !in HourSeparators;
    SplitByNone(m, HourSeparators);
    SplitByAt(h, sep, m, HourSeparators);
  }

  /** Stripping characters that are not digits leaves a digit string as it is. */
  lemma DigitsUnstripped(m: string, chars: string)
    requires IsDigits(m)
    requires forall i :: 0 <= i < |chars| ==> !IsDigit(chars[i])
    ensures StripChars(m, chars) == m
  {
    assert m[0] !in chars && m[|m| - 1] !in chars;
    StripKeeps(m, OneOf(chars));
  }

  /** A bare hour reads as that hour with minute 0. */
  lemma ReadPlain(h: string)
    requires IsDigits(h)
    ensures SplitHourMin(h) == Success((DigitsValue(h), 0))
  {
    assert ':' !in h && '.' !in h by {
      forall i | 0 <= i < |h| ensures h[i] != ':' && h[i] != '.' {
        assert IsDigit(h[i]);
      }
    }
    PyIntOfDigits(h);
  }

  /** The whole-hour period a header of bare hours stands for, or the
      `ValueError` of `datetime.time` when a shifted hour is past 23. */
  function WholeHours(startHour: int, endHour: int): Result<Period> {
    var sh, eh := Afternoon(startHour, AfternoonStartBelow), Afternoon(endHour, AfternoonEndBelow);
    if 0 <= sh < 24 && 0 <= eh < 24 then Success(Period(Time(sh, 0), Time(eh, 0)))
    else Failure(ValueError("hour or minute out of range"))
  }

  /** A header of bare hours, such as `9-10`, reads as whole hours after the
      afternoon shift, and fails when a shifted hour is past 23. */
  lemma PlainHeader(a: string, b: string)
    requires IsDigits(a) && IsDigits(b)
    ensures FromString(a + "-" + b) == WholeHours(DigitsValue(a), DigitsValue(b))
  {
    PlainPieces(a, b);
    DigitsUnstripped(a, " NO");
    DigitsUnstripped(b, "APM ");
    NoDash(a);
    NoDash(b);
    PlainClauses(a, b);
  }

  lemma PlainPieces(a: string, b: string)
    requires IsDigits(a) && IsDigits(b)
    ensures Split(a + "-" + b, '-') == [a, b]
  {
    NoDash(a);
    NoDash(b);
    SplitNoSep(b, '-');
    SplitAt(a, b, '-');
  }

  lemma NoDash(a: string)
    requires IsDigits(a)
    ensures '-' !in a
  {
    forall i | 0 <= i < |a| ensures a[i] != '-' {
      assert IsDigit(a[i]);
    }
  }

  lemma PlainClauses(a: string, b: string)
    requires IsDigits(a) && IsDigits(b) && '-' !in a && '-' !in b
    ensures FromClauses(a, b) == WholeHours(DigitsValue(a), DigitsValue(b))
  {
    ReadPlain(a);
    ReadPlain(b);
  }

  /** `9-10` is 09:00 to 10:00: missing minutes default to zero. */
  lemma BareHourHeader()
    ensures FromString("9-10") == Success(Period(Time(9, 0), Time(10, 0)))
  {
    var a, b := "9", "10";
    assert a + "-" + b == "9-10";
    assert IsDigits(a) && IsDigits(b);
    assert DigitsValue(a) == 9 by { assert a[..0] == ""; }
    assert DigitsValue(b) == 10 by {
      assert b[..1] == "1" && "1"[..0] == "";
    }
    PlainHeader(a, b);
  }

  /** Reading back a rendered clause gives the 12-hour clock hour and minute. */
  lemma ReadShownTime(t: Time)
    requires t.Valid()
    ensures SplitHourMin(ShowTime(t)) == Success((ClockHour(t.hour), t.minute))
  {
    ReadHourMinute(NatToString(ClockHour(t.hour)), '.', TwoDigits(t.minute));
    NatToStringRoundTrip(ClockHour(t.hour));
    TwoDigitsValue(t.minute);
  }

  lemma ShownTimeNoDash(t: Time)
    requires t.Valid()
    ensures '-' !in ShowTime(t)
    ensures ShowTime(t) != [] && IsDigit(ShowTime(t)[0]) && IsDigit(ShowTime(t)[|ShowTime(t)| - 1])
  {
    var h := NatToString(ClockHour(t.hour));
    var m := TwoDigits(t.minute);
    assert ShowTime(t) == h + ['.'] + m;
    assert forall i :: 0 <= i < |h| ==> IsDigit(h[i]);
    assert forall i :: 0 <= i < |m| ==> IsDigit(m[i]);
    assert forall i :: 0 <= i < |ShowTime(t)| ==> ShowTime(t)[i] != '-' by {
      forall i | 0 <= i < |ShowTime(t)| ensures ShowTime(t)[i] != '-' {
        if i < |h| { assert ShowTime(t)[i] == h[i]; }
        else if i > |h| { assert ShowTime(t)[i] == m[i - |h| - 1]; }
      }
    }
  }

  /** Headers written on a 12-hour clock round-trip for a teaching day that
      starts at 8:00 or later and ends by 20:59: this is exactly the range in
      which the afternoon thresholds recover the 24-hour times. */
  lemma {:induction false} FromStringRoundTrip(p: Period)
    requires p.Valid()
    requires AfternoonStartBelow <= p.start.hour < AfternoonStartBelow + 12
    requires AfternoonEndBelow <= p.end.hour < AfternoonEndBelow + 12
    ensures FromString(ShowPeriod(p)) == Success(p)
  {
    var a := ShowTime(p.start);
    var b := ShowTime(p.end);
    HeaderPieces(p);
    var pieces := Split(ShowPeriod(p), '-');
    ShownTimeUnstripped(p.start, " NO");
    ShownTimeUnstripped(p.end, "APM ");
    assert StripChars(pieces[0], " NO") == a;
    assert StripChars(pieces[1], "APM ") == b;
    ShownTimeNoDash(p.start);
    ShownTimeNoDash(p.end);
    ReadBackClauses(p);
  }

  lemma ReadBackClauses(p: Period)
    requires p.Valid()
    requires AfternoonStartBelow <= p.start.hour < AfternoonStartBelow + 12
    requires AfternoonEndBelow <= p.end.hour < AfternoonEndBelow + 12
    requires '-' !in ShowTime(p.start) && '-' !in ShowTime(p.end)
    ensures FromClauses(ShowTime(p.start), ShowTime(p.end)) == Success(p)
  {
    ReadShownTime(p.start);
    ReadShownTime(p.end);
    ClockHourBack(p.start.hour, AfternoonStartBelow);
    ClockHourBack(p.end.hour, AfternoonEndBelow);
  }

  /** The afternoon shift undoes the 12-hour clock within its window. */
  lemma ClockHourBack(h: nat, below: int)
    requires 1 <= below <= 12 && below <= h < below + 12
    ensures Afternoon(ClockHour(h), below) == h
  {
  }

  lemma HeaderPieces(p: Period)
    requires p.Valid()
    ensures Split(ShowPeriod(p), '-') == [ShowTime(p.start), ShowTime(p.end)]
  {
    var a := ShowTime(p.start);
    var b := ShowTime(p.end);
    ShownTimeNoDash(p.start);
    ShownTimeNoDash(p.end);
    SplitNoSep(b, '-');
    SplitAt(a, b, '-');
    assert ShowPeriod(p) == a + ['-'] + b;
  }

  /** A rendered clause starts and ends with a digit, so stripping letters
      and spaces leaves it as it is. */
  lemma ShownTimeUnstripped(t: Time, chars: string)
    requires t.Valid()
    requires forall i :: 0 <= i < |chars| ==> !IsDigit(chars[i])
    ensures StripChars(ShowTime(t), chars) == ShowTime(t)
  {
    ShownTimeNoDash(t);
    var s := ShowTime(t);
    assert s[0] !in chars && s[|s| - 1] !in chars;
    StripKeeps(s, OneOf(chars));
  }

  /** `9.00-9.55` is 09:00 to 09:55. */
  lemma MorningHeader()
    ensures FromString("9.00-9.55") == Success(Period(Time(9, 0), Time(9, 55)))
  {
    var p := Period(Time(9, 0), Time(9, 55));
    assert ShowPeriod(p) == "9.00-9.55";
    FromStringRoundTrip(p);
  }

  /** `2.00-2.55` is 14:00 to 14:55: the afternoon shift. */
  lemma AfternoonHeader()
    ensures FromString("2.00-2.55") == Success(Period(Time(14, 0), Time(14, 55)))
  {
    var p := Period(Time(14, 0), Time(14, 55));
    assert ShowPeriod(p) == "2.00-2.55";
    FromStringRoundTrip(p);
  }

  /** A header with no `-` or with two of them is rejected. */
  lemma DashCountMatters(fmt: string)
    requires '-' !in fmt
    ensures FromString(fmt).Failure?
    ensures FromString(fmt + "-" + fmt + "-" + fmt).Failure?
  {
    SplitNoSep(fmt, '-');
    SplitNoSep(fmt, '-');
    SplitAt(fmt, fmt + "-" + fmt, '-');
    SplitAt(fmt, fmt, '-');
    assert fmt + "-" + fmt + "-" + fmt == fmt + ['-'] + (fmt + ['-'] + fmt);
  }
}

=== FILE: timetable.dfy ===
/** `parse_events` of jiit_tt_parser/parser/parse_events.py: the time row,
    the periods, the sheet's course table merged into the curriculum, and the
    walk of every day of the week that the sheet names. */
module Timetable {
  import opened Wrappers
  import opened Sheet
  import opened Tables
  import TimeSpan
  import Events
  import Walker
  import CourseTable

  /** A course the curriculum lacks, added under its code after the merge. */
  const ExtraCode := "EC112"
  const ExtraSubject := "Basic Electronics for Biotechnology"

  /** What every day's walk shares: the sheet, its bounds as the time row
      leaves them, the periods, the merged rectangles in sorted order, the
      course and faculty tables and `str.title`. */
  datatype Setting = Setting(g: Grid, rows: int, cols: int, periods: seq<TimeSpan.Period>, ranges: seq<Range>,
                             courses: Table, faculties: Table, title: string -> string)

  /** The walk of one day: each cell's text cleaned, then read by
      `Event.from_string` for that day. */
  function DayWalk(s: Setting, day: string): (w: Walker.Walk)
    ensures w.g == s.g && w.cols == s.cols && w.periods == s.periods && w.day == day && w.ranges == s.ranges
  {
    Walker.Walk(s.g, s.cols, s.periods, day, s.ranges, Walker.CellText,
                (cell, p) => Events.ParseEvent(cell, p, day, s.courses, s.faculties, s.title))
  }

  /** `f` is an event of `day`: the sheet names the day, and `f` parses from
      a cell of a column from 2 on, at or below the day's first row and
      above its end. */
  predicate FromDay(s: Setting, day: string, f: Walker.Found) {
    var start := Walker.DayRow(s.g, s.rows, day);
    && start != -1
    && var w := DayWalk(s, day);
    && var first := Walker.FirstRow(s.g, start);
    && 2 <= f.col <= s.cols && first <= f.row && Walker.FoundAt(w, f) && Walker.Open(w, f.col, first, f.row)
  }

  /** Every entry of `fs` is an event of `day`. */
  predicate AllFromDay(s: Setting, day: string, fs: seq<Walker.Found>) {
    forall k :: 0 <= k < |fs| ==> FromDay(s, day, fs[k])
  }

  /** One turn of the day loop: nothing when the sheet does not name the
      day, otherwise `parse_day` from the row that names it. */
  function DayEvents(s: Setting, day: string): (r: Result<seq<Walker.Found>>)
    requires s.g.Valid()
    ensures Walker.DayRow(s.g, s.rows, day) == -1 ==> r == Success([])
    ensures r.Success? ==> AllFromDay(s, day, r.value)
  {
    var start := Walker.DayRow(s.g, s.rows, day);
    if start == -1 then Success([])
    else
      var fs :- Walker.ParseDay(DayWalk(s, day), start);
      DayEventsFound(s, day, start, fs);
      Success(fs)
  }

  lemma DayEventsFound(s: Setting, day: string, start: int, fs: seq<Walker.Found>)
    requires start == Walker.DayRow(s.g, s.rows, day) && start != -1
    requires Walker.DayFound(DayWalk(s, day), Walker.FirstRow(s.g, start), 2, fs)
    ensures AllFromDay(s, day, fs)
  {
  }

  /** The day loop, given each day's outcome in week order: the days'
      events one after another; the first day that raises is the outcome. */
  function Week(rs: seq<Result<seq<Walker.Found>>>): (r: Result<seq<Walker.Found>>)
    ensures r.Success? <==> forall i :: 0 <= i < |rs| ==> rs[i].Success?
    ensures r.Success? ==> forall k :: 0 <= k < |r.value| ==>
      exists i :: 0 <= i < |rs| && rs[i].Success? && r.value[k] in rs[i].value
  {
    if rs == [] then Success([])
    else
      match rs[0]
      case Failure(err) => Failure(err)
      case Success(fs) =>
        match Week(rs[1..])
        case Failure(err) =>
          WeekFailure(rs);
          Failure(err)
        case Success(rest) =>
          WeekAppend(rs, fs, rest);
          Success(fs + rest)
  }

  lemma WeekFailure(rs: seq<Result<seq<Walker.Found>>>)
    requires rs != [] && !(forall i :: 0 <= i < |rs| - 1 ==> rs[1..][i].Success?)
    ensures !(forall i :: 0 <= i < |rs| ==> rs[i].Success?)
  {
    var i :| 0 <= i < |rs| - 1 && !rs[1..][i].Success?;
    assert rs[1..][i] == rs[i + 1];
  }

  lemma WeekAppend(rs: seq<Result<seq<Walker.Found>>>, fs: seq<Walker.Found>, rest: seq<Walker.Found>)
    requires rs != [] && rs[0] == Success(fs)
    requires forall i :: 0 <= i < |rs| - 1 ==> rs[1..][i].Success?
    requires forall k :: 0 <= k < |rest| ==>
      exists i :: 0 <= i < |rs| - 1 && rs[1..][i].Success? && rest[k] in rs[1..][i].value
    ensures forall i :: 0 <= i < |rs| ==> rs[i].Success?
    ensures forall k :: 0 <= k < |fs + rest| ==>
      exists i :: 0 <= i < |rs| && rs[i].Success? && (fs + rest)[k] in rs[i].value
  {
    forall i | 0 < i < |rs| ensures rs[i].Success? {
      assert rs[i] == rs[1..][i - 1];
    }
    var all := fs + rest;
    forall k | 0 <= k < |all|
      ensures exists i :: 0 <= i < |rs| && rs[i].Success? && all[k] in rs[i].value
    {
      if k < |fs| {
        assert all[k] == fs[k] && all[k] in rs[0].value;
      } else {
        assert all[k] == rest[k - |fs|];
        var i :| 0 <= i < |rs| - 1 && rs[1..][i].Success? && rest[k - |fs|] in rs[1..][i].value;
        assert rs[1..][i] == rs[i + 1];
      }
    }
  }

  /** The first day's events open the week, ahead of every later day's. */
  lemma WeekOrder(rs: seq<Result<seq<Walker.Found>>>)
    requires rs != [] && Week(rs).Success?
    ensures Week(rs).value == rs[0].value + Week(rs[1..]).value
  {
  }

  /** A week whose days all read keeps every event of every day. */
  lemma {:induction false} WeekKeeps(rs: seq<Result<seq<Walker.Found>>>, i: int, f: Walker.Found)
    requires 0 <= i < |rs| && Week(rs).Success? && rs[i].Success? && f in rs[i].value
    ensures f in Week(rs).value
    decreases |rs|
  {
    WeekOrder(rs);
    if i > 0 {
      assert rs[1..][i - 1] == rs[i];
      WeekKeeps(rs[1..], i - 1, f);
    }
  }

  /** The outcome of each of `days` over one setting, in order. */
  function DayResults(s: Setting, days: seq<string>): (rs: seq<Result<seq<Walker.Found>>>)
    requires s.g.Valid()
    ensures |rs| == |days| && forall i :: 0 <= i < |days| ==> rs[i] == DayEvents(s, days[i])
  {
    if days == [] then []
    else
      var rest := DayResults(s, days[1..]);
      DayResultsStep(s, days, rest);
      [DayEvents(s, days[0])] + rest
  }

  lemma DayResultsStep(s: Setting, days: seq<string>, rest: seq<Result<seq<Walker.Found>>>)
    requires s.g.Valid() && days != []
    requires |rest| == |days| - 1 && forall i :: 0 <= i < |days| - 1 ==> rest[i] == DayEvents(s, days[1..][i])
    ensures forall i :: 0 <= i < |days| ==> ([DayEvents(s, days[0])] + rest)[i] == DayEvents(s, days[i])
  {
    forall i | 0 < i < |days| ensures ([DayEvents(s, days[0])] + rest)[i] == DayEvents(s, days[i]) {
      assert days[1..][i - 1] == days[i];
    }
  }

  /** A day the sheet names whose walk reads finds every cell of its columns,
      from its first row down to its end, that parses to an event. */
  lemma DayKeeps(s: Setting, day: string, x: int, col: int, e: Events.Event)
    requires s.g.Valid() && DayEvents(s, day).Success? && Walker.DayRow(s.g, s.rows, day) != -1
    requires var w := DayWalk(s, day);
      var first := Walker.FirstRow(s.g, Walker.DayRow(s.g, s.rows, day));
      && 2 <= col <= s.cols && first <= x <= s.g.maxRow
      && Walker.Open(w, col, first, x) && Walker.FoundAt(w, Walker.Found(x, col, e))
    ensures Walker.Found(x, col, e) in DayEvents(s, day).value
  {
    Walker.DayComplete(DayWalk(s, day), Walker.FirstRow(s.g, Walker.DayRow(s.g, s.rows, day)), 2, x, col, e);
  }

  /** The part of `parse_events` before the day loop: the time row fixes
      the last column, the periods are read from it, and the sheet's course
      table is merged over the curriculum's with one course added. */
  function Prepare(g: Grid, rows: int, cols: int, ranges: seq<Range>, curriculum: Table,
                   faculties: Table, title: string -> string): (r: Result<Setting>)
    ensures r.Success? <==> Walker.Periods(g, Walker.TimeRow(g, rows, cols).1, Walker.TimeRow(g, rows, cols).0).Success?
                            && CourseTable.ParseCourses(g, rows, Walker.TimeRow(g, rows, cols).1).Success?
    ensures r.Success? ==> var s := r.value;
      && s.g == g && s.rows == rows && s.cols == Walker.TimeRow(g, rows, cols).1 && s.ranges == ranges
      && s.periods == Walker.Periods(g, s.cols, Walker.TimeRow(g, rows, cols).0).value
      && s.courses == AllCourses(curriculum, CourseTable.ParseCourses(g, rows, s.cols).value)
      && s.faculties == faculties && s.title == title
  {
    var (timeRow, last) := Walker.TimeRow(g, rows, cols);
    match Walker.Periods(g, last, timeRow)
    case Failure(err) => Failure(err)
    case Success(periods) =>
      match CourseTable.ParseCourses(g, rows, last)
      case Failure(err) => Failure(err)
      case Success(courses) =>
        Success(Setting(g, rows, last, periods, ranges, AllCourses(curriculum, courses), faculties, title))
  }

  /** Every day of the week reads without raising. */
  predicate WeekReads(s: Setting)
    requires s.g.Valid()
  {
    forall i :: 0 <= i < |Walker.Days| ==> DayEvents(s, Walker.Days[i]).Success?
  }

  /** Every entry of `fs` is read by some day of the week. */
  predicate WeekFrom(s: Setting, fs: seq<Walker.Found>)
    requires s.g.Valid()
  {
    forall k :: 0 <= k < |fs| ==> exists i :: 0 <= i < |Walker.Days| && InDay(s, Walker.Days[i], fs[k])
  }

  /** `parse_events`: the setting, then every day of the week the sheet
      names, walked in week order. It raises exactly when the setting or
      one of the days does, and each event it yields is one a day reads. */
  function ParseEvents(g: Grid, rows: int, cols: int, ranges: seq<Range>, curriculum: Table,
                       faculties: Table, title: string -> string): (r: Result<seq<Walker.Found>>)
    requires g.Valid() && multiset(ranges) == multiset(g.merged)
    ensures var p := Prepare(g, rows, cols, ranges, curriculum, faculties, title);
      r.Success? <==> p.Success? && WeekReads(p.value)
    ensures var p := Prepare(g, rows, cols, ranges, curriculum, faculties, title);
      r.Success? ==> WeekFrom(p.value, r.value)
  {
    match Prepare(g, rows, cols, ranges, curriculum, faculties, title)
    case Failure(err) => Failure(err)
    case Success(s) =>
      WeekOfDays(s);
      Week(DayResults(s, Walker.Days))
  }

  /** The loop over a setting's week reads exactly when every day does,
      and each event it yields is one that some day reads. */
  lemma WeekOfDays(s: Setting)
    requires s.g.Valid()
    ensures Week(DayResults(s, Walker.Days)).Success? <==> WeekReads(s)
    ensures Week(DayResults(s, Walker.Days)).Success? ==> WeekFrom(s, Week(DayResults(s, Walker.Days)).value)
  {
    var rs := DayResults(s, Walker.Days);
    var r := Week(rs);
    if r.Success? {
      forall k | 0 <= k < |r.value| ensures exists i :: 0 <= i < |Walker.Days| && InDay(s, Walker.Days[i], r.value[k]) {
        var i :| 0 <= i < |rs| && rs[i].Success? && r.value[k] in rs[i].value;
        assert InDay(s, Walker.Days[i], r.value[k]);
      }
    }
  }

  /** Nothing a day reads is lost: every event of every day of the week is
      among those `parse_events` yields. */
  lemma ParseEventsKeeps(g: Grid, rows: int, cols: int, ranges: seq<Range>, curriculum: Table,
                         faculties: Table, title: string -> string, i: int, f: Walker.Found)
    requires g.Valid() && multiset(ranges) == multiset(g.merged)
    requires ParseEvents(g, rows, cols, ranges, curriculum, faculties, title).Success?
    requires 0 <= i < |Walker.Days|
    requires InDay(Prepare(g, rows, cols, ranges, curriculum, faculties, title).value, Walker.Days[i], f)
    ensures f in ParseEvents(g, rows, cols, ranges, curriculum, faculties, title).value
  {
    var s := Prepare(g, rows, cols, ranges, curriculum, faculties, title).value;
    var rs := DayResults(s, Walker.Days);
    WeekKeeps(rs, i, f);
  }

  /** `f` is one of the events `day` reads. */
  predicate InDay(s: Setting, day: string, f: Walker.Found)
    requires s.g.Valid()
  {
    DayEvents(s, day).Success? && f in DayEvents(s, day).value
  }

  /** Each event a day reads is an event of that day. */
  lemma DayMember(s: Setting, day: string, f: Walker.Found)
    requires s.g.Valid() && InDay(s, day, f)
    ensures FromDay(s, day, f)
  {
    var fs := DayEvents(s, day).value;
    var n :| 0 <= n < |fs| && fs[n] == f;
  }

  /** The curriculum's courses updated by the sheet's, then the extra course. */
  function AllCourses(curriculum: Table, courses: Table): (t: Table)
    ensures t.Keys == curriculum.Keys + courses.Keys + {ExtraCode}
    ensures t[ExtraCode] == ExtraSubject
    ensures forall k :: k in courses && k != ExtraCode ==> t[k] == courses[k]
    ensures forall k :: k in curriculum && k !in courses && k != ExtraCode ==> t[k] == curriculum[k]
  {
    (curriculum + courses)[ExtraCode := ExtraSubject]
  }
}

=== FILE: tokens.dfy ===
/** The token classifier of jiit_tt_parser/parser/parse_events.py: the
    remainder of a cell is cut into tokens (`extract_substrings`), and the
    tokens are told apart into one classroom and a list of lecturers
    (`parse_class_and_faculty`, `check_classroom_concatenation`,
    `is_classroom_code`, `parse_classroom_teacher_format`). New-faculty and
    teaching-assistant placeholders (`get_new_faculty`,
    `get_teaching_assistant`) are recognised and spelled out. */
module Tokens {
  import opened Wrappers
  import opened Text

  // ---------------------------------------------------------------------------
  // extract_substrings
  // ---------------------------------------------------------------------------

  /** The default delimiters: comma, slash and backslash. */
  const Delimiters: string := ",/\\"

  predicate Undelimited(t: string) {
    forall i :: 0 <= i < |t| ==> t[i] !in Delimiters
  }

  /** `extract_substrings(s)`: split at runs of delimiters, strip each piece,
      drop the blank ones. */
  function ExtractSubstrings(s: string): (r: seq<string>)
    ensures forall k :: 0 <= k < |r| ==> r[k] != [] && r[k] == Strip(r[k]) && Undelimited(r[k])
  {
    var pieces := SplitBy(s, Delimiters);
    NonBlankUndelimited(pieces);
    NonBlank(pieces)
  }

  lemma NonBlankUndelimited(ps: seq<string>)
    requires forall k :: 0 <= k < |ps| ==> Undelimited(ps[k])
    ensures forall k :: 0 <= k < |NonBlank(ps)| ==> Undelimited(NonBlank(ps)[k])
  {
    var r := NonBlank(ps);
    forall k | 0 <= k < |r| ensures Undelimited(r[k]) {
      NonBlankFrom(ps, k);
      var j :| 0 <= j < |ps| && r[k] == Strip(ps[j]);
      forall i | 0 <= i < |r[k]| ensures r[k][i] !in Delimiters {
        StripWithIn(ps[j], WhiteSpace, i);
      }
    }
  }

  /** A text without delimiters is one token, or none when blank. */
  lemma ExtractUndelimited(s: string)
    requires Undelimited(s)
    ensures ExtractSubstrings(s) == (if Strip(s) == [] then [] else [Strip(s)])
  {
    SplitByNone(s, Delimiters);
    NonBlankOne(s);
  }

  /** A delimiter after a delimiter-free text cuts the tokens there: with
      `ExtractUndelimited` this determines the tokens of every text. */
  lemma ExtractSplitsAt(a: string, c: char, b: string)
    requires Undelimited(a) && c in Delimiters
    ensures ExtractSubstrings(a + [c] + b) == ExtractSubstrings(a) + ExtractSubstrings(b)
  {
    SplitByAt(a, c, b, Delimiters);
    NonBlankAppend([a], SplitBy(b, Delimiters));
    SplitByNone(a, Delimiters);
  }

  // ---------------------------------------------------------------------------
  // Single-token shapes
  // ---------------------------------------------------------------------------

  predicate Letters(s: string) {
    s != [] && forall i :: 0 <= i < |s| ==> IsLetter(s[i])
  }

  /** `re.match(r"^[A-Z]{2,}\d+$", s)` */
  predicate IsClassroomCode(s: string) {
    var t := Chomp(s);
    Run(t, UpperCase) >= 2 && IsDigits(t[Run(t, UpperCase)..])
  }

  /** Group 1 of `re.match(r"^([A-Z]+)(\d+)$", s)`: the letters of a
      classroom code. */
  function RoomLetters(s: string): (r: string)
    requires IsClassroomCode(s)
    ensures 2 <= |r| <= |Chomp(s)| && AllUpper(r)
    ensures IsDigits(Chomp(s)[|r|..]) && Chomp(s) == r + Chomp(s)[|r|..]
  {
    var t := Chomp(s);
    t[..Run(t, UpperCase)]
  }

  /** `is_standalone_number` */
  predicate IsStandaloneNumber(s: string) {
    IsDigits(s)
  }

  /** `re.match(r"^([A-Z]{2})(\d+)$", s)` with group 1 neither `NF` nor `TA`. */
  predicate LastIsRoom(s: string) {
    var t := Chomp(s);
    |t| >= 3 && IsUpper(t[0]) && IsUpper(t[1]) && IsDigits(t[2..]) && t[..2] != "NF" && t[..2] != "TA"
  }

  // ---------------------------------------------------------------------------
  // parse_classroom_teacher_format
  // ---------------------------------------------------------------------------

  datatype RoomTeacher = RoomTeacher(room: string, teacher: string)

  /** `re.match(r"^([A-Za-z]+)(\d+)([A-Za-z].*)$", s)`: the classroom is
      group 1 followed by group 2, the teacher is group 3. */
  function ParseClassroomTeacherFormat(s: string): (r: Option<RoomTeacher>)
    ensures r.Some? ==> r.value.room + r.value.teacher == Chomp(s)
    ensures r.Some? ==> r.value.teacher != [] && IsLetter(r.value.teacher[0]) && '\n' !in r.value.teacher
  {
    var t := Chomp(s);
    var a := Run(t, Alphabetic);
    if a == 0 then None
    else
      var n := DigitRun(t, a);
      if n == 0 || a + n >= |t| then None
      else
        var teacher := t[a + n..];
        if IsLetter(teacher[0]) && '\n' !in teacher then
          assert t == t[..a + n] + teacher;
          Some(RoomTeacher(t[..a + n], teacher))
        else None
  }

  /** Letters, digits, then a teacher starting with a letter, are read back
      as classroom and teacher. */
  lemma ClassroomTeacherRoundTrip(letters: string, digits: string, teacher: string)
    requires Letters(letters) && IsDigits(digits)
    requires teacher != [] && IsLetter(teacher[0]) && '\n' !in teacher
    ensures ParseClassroomTeacherFormat(letters + digits + teacher) == Some(RoomTeacher(letters + digits, teacher))
  {
    var t := letters + digits + teacher;
    assert t[|t| - 1] == teacher[|teacher| - 1];
    assert Chomp(t) == t;
    RunPrefix(t, letters, Alphabetic);
    var a := |letters|;
    assert t[a..] == digits + teacher;
    RunPrefix(t[a..], digits, Decimal);
    assert t[a + |digits|..] == teacher;
    assert t[..a + |digits|] == letters + digits;
  }

  /** The run of a class over a text that starts with a run of that class
      ended by a character outside it. */
  lemma RunPrefix(t: string, p: string, cc: CharClass)
    requires |p| < |t| && t[..|p|] == p
    requires forall i :: 0 <= i < |p| ==> InClass(p[i], cc)
    requires !InClass(t[|p|], cc)
    ensures Run(t, cc) == |p|
    decreases |p|
  {
    if p != [] {
      assert t[1..][..|p| - 1] == p[1..];
      RunPrefix(t[1..], p[1..], cc);
    }
  }

  // ---------------------------------------------------------------------------
  // get_new_faculty and get_teaching_assistant
  // ---------------------------------------------------------------------------

  datatype Placeholder = Placeholder(chars: string, number: string)

  /** `re.match(r"^NF(.*?)(\d+)$", s)`: the lazy group stops where the
      longest trailing digit run starts. */
  function MatchNewFaculty(s: string): (r: Option<Placeholder>)
    ensures r.Some? ==> Chomp(s) == "NF" + r.value.chars + r.value.number
    ensures r.Some? ==> IsDigits(r.value.number) && '\n' !in r.value.chars
    ensures r.Some? && r.value.chars != [] ==> !IsDigit(r.value.chars[|r.value.chars| - 1])
  {
    var t := Chomp(s);
    if |t| < 3 || t[..2] != "NF" then None
    else
      var body := t[2..];
      var n := TrailingDigits(body);
      var chars := body[..|body| - n];
      if n == 0 || '\n' in chars then None
      else
        CutInThree(t, 2, |body| - n);
        Some(Placeholder(chars, body[|body| - n..]))
  }

  /** A text is its first `i` characters, the next `m`, and the rest. */
  lemma CutInThree(t: string, i: nat, m: nat)
    requires i + m <= |t|
    ensures t == t[..i] + t[i..][..m] + t[i..][m..]
  {
    var u := t[..i] + t[i..][..m] + t[i..][m..];
    forall k | 0 <= k < |t| ensures u[k] == t[k] {
    }
  }

  /** The spelled-out name of a new-faculty placeholder: `P` is Physics and
      `M` is Maths. */
  function NewFacultyName(p: Placeholder): string {
    if p.chars == [] then "New Faculty " + p.number
    else if p.chars == "P" then "New Faculty Physics " + p.number
    else if p.chars == "M" then "New Faculty Maths " + p.number
    else "New Faculty " + p.chars + " " + p.number
  }

  /** `get_new_faculty`; `None` stands for the `False` flag. */
  function GetNewFaculty(s: string): (r: Option<string>)
    ensures r.Some? <==> MatchNewFaculty(s).Some?
    ensures r.Some? ==> r.value == NewFacultyName(MatchNewFaculty(s).value)
  {
    if s == [] then None
    else
      match MatchNewFaculty(s)
      case Some(p) => Some(NewFacultyName(p))
      case None => None
  }

  /** `NF`, any newline-free text not ending in a digit, and digits are read
      back as that text and those digits. */
  lemma NewFacultyRoundTrip(chars: string, number: string)
    requires '\n' !in chars && (chars == [] || !IsDigit(chars[|chars| - 1]))
    requires IsDigits(number)
    ensures MatchNewFaculty("NF" + chars + number) == Some(Placeholder(chars, number))
  {
    var t := "NF" + chars + number;
    assert t[|t| - 1] == number[|number| - 1];
    assert Chomp(t) == t;
    assert t[..2] == "NF";
    var body := t[2..];
    assert body == chars + number;
    TrailingDigitsOf(chars, number);
    assert body[..|body| - |number|] == chars;
    assert body[|body| - |number|..] == number;
  }

  /** `re.match(r"^TA-?(\d+)$", s)`: the number. */
  function MatchTeachingAssistant(s: string): (r: Option<string>)
    ensures r.Some? ==> IsDigits(r.value)
    ensures r.Some? ==> Chomp(s) == "TA" + r.value || Chomp(s) == "TA-" + r.value
  {
    var t := Chomp(s);
    if |t| < 3 || t[..2] != "TA" then None
    else
      var d := if t[2] == '-' then t[3..] else t[2..];
      if IsDigits(d) then
        assert t == "TA" + t[2..];
        assert t[2] == '-' ==> t[2..] == "-" + t[3..];
        Some(d)
      else None
  }

  /** `get_teaching_assistant`; `None` stands for the `False` flag. */
  function GetTeachingAssistant(s: string): (r: Option<string>)
    ensures r.Some? <==> MatchTeachingAssistant(s).Some?
    ensures r.Some? ==> r.value == "Teaching Assistant " + MatchTeachingAssistant(s).value
  {
    if s == [] then None
    else
      match MatchTeachingAssistant(s)
      case Some(n) => Some("Teaching Assistant " + n)
      case None => None
  }

  /** `TA n` and `TA-n` both spell out as teaching assistant `n`. */
  lemma TeachingAssistantRoundTrip(number: string, dash: bool)
    requires IsDigits(number)
    ensures GetTeachingAssistant((if dash then "TA-" else "TA") + number) == Some("Teaching Assistant " + number)
  {
    var t := (if dash then "TA-" else "TA") + number;
    assert t[|t| - 1] == number[|number| - 1];
    assert Chomp(t) == t;
    assert t[..2] == "TA";
    if dash {
      assert t[3..] == number;
    } else {
      assert t[2] == number[0];
      assert t[2..] == number;
    }
  }

  // ---------------------------------------------------------------------------
  // check_classroom_concatenation and parse_class_and_faculty
  // ---------------------------------------------------------------------------

  /** A classroom and the lecturers of a cell. */
  datatype Assignment = Assignment(room: string, lecturers: seq<string>)

  /** A classroom code at index `i >= 1`, followed only by standalone
      numbers, of which there is at least one. */
  predicate ConcatAt(ss: seq<string>, i: int) {
    1 <= i < |ss| - 1 && IsClassroomCode(ss[i]) && forall k :: i < k < |ss| ==> IsStandaloneNumber(ss[k])
  }

  /** `[f"{base}{num}" for num in nums]` */
  function PrefixEach(base: string, nums: seq<string>): (r: seq<string>)
    ensures |r| == |nums| && forall k :: 0 <= k < |nums| ==> r[k] == base + nums[k]
  {
    seq(|nums|, k requires 0 <= k < |nums| => base + nums[k])
  }

  /** `CL10, 11, 12` after the lecturers becomes the classroom
      `CL10/CL11/CL12`; the lecturers are the tokens before it. */
  function Concatenated(ss: seq<string>, i: int): Assignment
    requires ConcatAt(ss, i)
  {
    var rooms := [ss[i]] + PrefixEach(RoomLetters(ss[i]), ss[i + 1..]);
    Assignment(JoinWith(rooms, "/"), ss[..i])
  }

  /** At most one index qualifies: the tokens after it are numbers, and a
      number is not a classroom code. */
  lemma ConcatAtUnique(ss: seq<string>, i: int, j: int)
    requires ConcatAt(ss, i) && ConcatAt(ss, j)
    ensures i == j
  {
    if i < j {
      NumberIsNotRoom(ss[j]);
    } else if j < i {
      NumberIsNotRoom(ss[i]);
    }
  }

  lemma NumberIsNotRoom(s: string)
    requires IsDigits(s)
    ensures !IsClassroomCode(s)
  {
    var t := Chomp(s);
    if t != [] {
      assert t[0] == s[0];
    }
  }

  /** The loop of `check_classroom_concatenation` from index `i`. */
  function ConcatFrom(ss: seq<string>, i: nat): (r: Option<Assignment>)
    requires i >= 1
    ensures r.None? ==> forall j :: i <= j ==> !ConcatAt(ss, j)
    ensures r.Some? ==> exists j :: i <= j && ConcatAt(ss, j) && r.value == Concatenated(ss, j)
    decreases |ss| - i
  {
    if i + 1 >= |ss| then None
    else if ConcatAt(ss, i) then Some(Concatenated(ss, i))
    else ConcatFrom(ss, i + 1)
  }

  /** `check_classroom_concatenation` */
  function CheckClassroomConcatenation(ss: seq<string>): (r: Option<Assignment>)
    ensures r.None? <==> forall i :: !ConcatAt(ss, i)
    ensures forall i :: ConcatAt(ss, i) ==> r == Some(Concatenated(ss, i))
  {
    var r := if |ss| < 3 then None else ConcatFrom(ss, 1);
    forall i | ConcatAt(ss, i) ensures r == Some(Concatenated(ss, i)) {
      var j :| 1 <= j && ConcatAt(ss, j) && r.value == Concatenated(ss, j);
      ConcatAtUnique(ss, i, j);
    }
    r
  }

  /** The first token is a new-faculty or teaching-assistant placeholder. */
  predicate StaffFirst(ss: seq<string>)
    requires ss != []
  {
    GetNewFaculty(ss[0]).Some? || GetTeachingAssistant(ss[0]).Some?
  }

  /** `parse_class_and_faculty` */
  function ParseClassAndFaculty(ss: seq<string>): (r: Assignment)
    ensures ss == [] ==> r == Assignment("", [])
    ensures |ss| == 1 ==> r == Assignment(ss[0], [])
    ensures |ss| >= 2 ==> forall i :: ConcatAt(ss, i) ==> r == Concatenated(ss, i)
    ensures |ss| >= 2 && (forall i :: !ConcatAt(ss, i)) ==>
      if StaffFirst(ss) || LastIsRoom(ss[|ss| - 1]) then r == Assignment(ss[|ss| - 1], ss[..|ss| - 1])
      else r == Assignment(ss[0], ss[1..])
  {
    if ss == [] then Assignment("", [])
    else if |ss| == 1 then Assignment(ss[0], [])
    else
      match CheckClassroomConcatenation(ss)
      case Some(a) => a
      case None =>
        if StaffFirst(ss) || LastIsRoom(Last(ss)) then Assignment(Last(ss), ss[..|ss| - 1])
        else Assignment(ss[0], ss[1..])
  }

  /** Outside a classroom concatenation no token is lost or invented: the
      classroom and the lecturers are a rearrangement of the tokens. */
  lemma ParseClassAndFacultyPermutes(ss: seq<string>)
    requires ss != [] && forall i :: !ConcatAt(ss, i)
    ensures multiset([ParseClassAndFaculty(ss).room] + ParseClassAndFaculty(ss).lecturers) == multiset(ss)
  {
    var r := ParseClassAndFaculty(ss);
    if |ss| == 1 {
      assert [r.room] + r.lecturers == ss;
    } else if StaffFirst(ss) || LastIsRoom(ss[|ss| - 1]) {
      assert r == Assignment(ss[|ss| - 1], ss[..|ss| - 1]);
      LastFirstPermutes(ss);
    } else {
      assert r == Assignment(ss[0], ss[1..]);
      assert [r.room] + r.lecturers == ss;
    }
  }

  /** Moving the last token to the front keeps the tokens. */
  lemma LastFirstPermutes(ss: seq<string>)
    requires ss != []
    ensures multiset([ss[|ss| - 1]] + ss[..|ss| - 1]) == multiset(ss)
  {
    assert ss == ss[..|ss| - 1] + [ss[|ss| - 1]];
  }

  /** Lecturers, then a classroom code, then numbers: the numbers become
      further classrooms with the code's letters, and every token before the
      code is a lecturer. */
  lemma ClassroomConcatenation(lecturers: seq<string>, code: string, numbers: seq<string>)
    requires lecturers != [] && numbers != []
    requires IsClassroomCode(code)
    requires forall k :: 0 <= k < |numbers| ==> IsStandaloneNumber(numbers[k])
    ensures ParseClassAndFaculty(lecturers + [code] + numbers)
         == Assignment(JoinWith([code] + PrefixEach(RoomLetters(code), numbers), "/"), lecturers)
  {
    var ss := lecturers + [code] + numbers;
    var i := |lecturers|;
    assert ss[i] == code;
    assert ss[i + 1..] == numbers;
    assert ss[..i] == lecturers;
    assert forall k :: i < k < |ss| ==> ss[k] == numbers[k - i - 1];
    assert ConcatAt(ss, i);
  }

  /** A classroom must sit after at least one lecturer to be concatenated:
      with the classroom first, `CL10, 11, KN` keeps `CL10` as classroom and
      the rest as lecturers. */
  lemma LeadingClassroomNotConcatenated()
    ensures ParseClassAndFaculty(["CL10", "11", "KN"]) == Assignment("CL10", ["11", "KN"])
  {
    var ss := ["CL10", "11", "KN"];
    forall i ensures !ConcatAt(ss, i) {
      NumberIsNotRoom("11");
    }
    assert !LastIsRoom("KN");
    assert GetNewFaculty("CL10").None? by {
      assert "CL10"[..2][0] == 'C';
    }
    assert GetTeachingAssistant("CL10").None? by {
      assert "CL10"[..2][0] == 'C';
    }
  }
}

=== FILE: walker.dfy ===
/** The grid walk of jiit_tt_parser/parser/parse_events.py: find the row of
    time headers and the row where each day starts, then read every column of
    each day downwards until the day ends, turning each cell into an event. */
module Walker {
  import opened Wrappers
  import opened Text
  import opened Sheet
  import TimeSpan
  import Events

  /** `days_of_the_week_names`, in the order the walk visits them. */
  const Days: seq<string> := ["monday", "tuesday", "wednesday", "thursday", "friday", "saturday", "sunday"]

  /** Cells that are notes to the reader rather than classes. */
  const SpamEntries: seq<string> := [
    "LUNCH",
    "ALL BATCH FREE FOR MEETING",
    "FREE TS11",
    "/NFMATH3",
    "BLOCKED",
    "LECTURE AND TUTORIAL CLASSES ARE BLOCKED FOR TALKS."
  ]

  /** Headings of the elective blocks; the column of a day stops at one. */
  const ElectiveCategories: seq<string> := [
    "SE",
    "HSS 1", "HSS1", "HSS-1",
    "HSS 2", "HSS2", "HSS-2",
    "OE 2", "OE2", "OE-2",
    "DE 1", "DE1", "DE-1",
    "DE 2", "DE2", "DE-2",
    "DE 3", "DE3", "DE-3",
    "DE 4", "DE4", "DE-4",
    "DE 5", "DE5", "DE-5",
    "DE 6", "DE6", "DE-6"
  ]

  // ---------------------------------------------------------------------------
  // get_time_row
  // ---------------------------------------------------------------------------

  /** Column 2 of the row starts like a morning time header. */
  predicate IsTimeHeader(g: Grid, i: int) {
    StartsWith(g.Str(i, 2), "9") || StartsWith(g.Str(i, 2), "8")
  }

  /** The first row from `i` to `rows` that is a time header, or -1. */
  function HeaderFrom(g: Grid, i: int, rows: int): (r: int)
    requires 1 <= i
    ensures r == -1 || (i <= r <= rows && IsTimeHeader(g, r))
    ensures r == -1 <==> forall k :: i <= k <= rows ==> !IsTimeHeader(g, k)
    ensures r != -1 ==> forall k :: i <= k < r ==> !IsTimeHeader(g, k)
    decreases rows + 1 - i
  {
    if i > rows then -1
    else if IsTimeHeader(g, i) then i
    else HeaderFrom(g, i + 1, rows)
  }

  /** The first column from `j` to `cols` of the row that is empty, or `cols + 1`. */
  function EmptyCellFrom(g: Grid, row: int, j: int, cols: int): (r: int)
    requires j <= cols + 1
    ensures j <= r <= cols + 1
    ensures forall k :: j <= k < r ==> g.Value(row, k).Some?
    ensures r <= cols ==> g.Value(row, r).None?
    decreases cols + 1 - j
  {
    if j > cols then cols + 1
    else if g.Value(row, j).None? then j
    else EmptyCellFrom(g, row, j + 1, cols)
  }

  /** `get_time_row`: the first row among the first `rows` whose column 2
      starts with `9` or `8`, with the last column before the first empty
      cell of that row from column 2 on; row 2 and all `cols` columns when
      no row qualifies. */
  function TimeRow(g: Grid, rows: int, cols: int): (r: (int, int))
    ensures (forall k :: 1 <= k <= rows ==> !IsTimeHeader(g, k)) ==> r == (2, cols)
    ensures (exists k :: 1 <= k <= rows && IsTimeHeader(g, k)) ==>
      && 1 <= r.0 <= rows && IsTimeHeader(g, r.0)
      && (forall k :: 1 <= k < r.0 ==> !IsTimeHeader(g, k))
      && r.1 <= cols
      && (forall k :: 2 <= k <= r.1 ==> g.Value(r.0, k).Some?)
      && (r.1 == cols || (r.1 < cols && g.Value(r.0, r.1 + 1).None?))
  {
    var i := HeaderFrom(g, 1, rows);
    if i == -1 then (2, cols)
    else if cols < 2 then (i, cols)
    else (i, EmptyCellFrom(g, i, 2, cols) - 1)
  }

  /** A header row holds its first time in column 2, so its last column is
      at least 2 whenever the sheet is that wide. */
  lemma TimeRowSpansAColumn(g: Grid, rows: int, cols: int)
    requires 2 <= cols && exists k :: 1 <= k <= rows && IsTimeHeader(g, k)
    ensures 2 <= TimeRow(g, rows, cols).1
  {
    var r := TimeRow(g, rows, cols);
    assert !StartsWith("None", "9") && !StartsWith("None", "8") by {
      assert "None"[..1] == "N";
    }
    assert IsTimeHeader(g, r.0);
  }

  // ---------------------------------------------------------------------------
  // get_day_row
  // ---------------------------------------------------------------------------

  /** The day's name begins with the text of column 1 of the row, both lower-cased. */
  predicate NamesDay(g: Grid, i: int, day: string) {
    StartsWith(Lower(day), Lower(g.Str(i, 1)))
  }

  /** The first row from `i` to `rows` that names the day, or -1. */
  function DayFrom(g: Grid, i: int, rows: int, day: string): (r: int)
    requires 1 <= i
    ensures r == -1 || (i <= r <= rows && NamesDay(g, r, day))
    ensures r == -1 <==> forall k :: i <= k <= rows ==> !NamesDay(g, k, day)
    ensures r != -1 ==> forall k :: i <= k < r ==> !NamesDay(g, k, day)
    decreases rows + 1 - i
  {
    if i > rows then -1
    else if NamesDay(g, i, day) then i
    else DayFrom(g, i + 1, rows, day)
  }

  /** `get_day_row`: the first of the first `rows` rows whose column 1 the
      lower-cased day name starts with, or -1. */
  function DayRow(g: Grid, rows: int, day: string): (r: int)
    ensures r == -1 <==> forall k :: 1 <= k <= rows ==> !NamesDay(g, k, day)
    ensures r != -1 ==> 1 <= r <= rows && NamesDay(g, r, day)
                        && forall k :: 1 <= k < r ==> !NamesDay(g, k, day)
  {
    DayFrom(g, 1, rows, day)
  }

  /** An empty cell reads as `none`, which no day name starts with, so a
      row that names a day holds a value in column 1. */
  lemma DayRowHoldsValue(g: Grid, rows: int, day: string)
    requires day in Days && DayRow(g, rows, day) != -1
    ensures g.Value(DayRow(g, rows, day), 1).Some?
  {
    assert day[0] != 'n' && !IsUpper(day[0]);
  }

  // ---------------------------------------------------------------------------
  // get_periods
  // ---------------------------------------------------------------------------

  /** Every header from column `j` to `cols` of the row reads as a period. */
  predicate HeadersRead(g: Grid, row: int, j: int, cols: int) {
    forall k :: j <= k <= cols ==> TimeSpan.FromString(g.Str(row, k)).Success?
  }

  /** `ps` holds the period of each column from `j` to `cols`, in order. */
  predicate PeriodsOf(g: Grid, row: int, j: int, cols: int, ps: seq<TimeSpan.Period>) {
    && |ps| == cols + 1 - j
    && forall i :: 0 <= i < |ps| ==> TimeSpan.FromString(g.Str(row, j + i)) == Success(ps[i])
  }

  /** Column `j` reads, and so do the columns after it. */
  lemma HeadersStep(g: Grid, row: int, j: int, cols: int)
    requires j <= cols
    ensures HeadersRead(g, row, j, cols) <==> TimeSpan.FromString(g.Str(row, j)).Success? && HeadersRead(g, row, j + 1, cols)
  {
  }

  /** Reading column `j` and then the columns after it. */
  lemma PeriodsStep(g: Grid, row: int, j: int, cols: int, p: TimeSpan.Period, rest: seq<TimeSpan.Period>)
    requires j <= cols && TimeSpan.FromString(g.Str(row, j)) == Success(p) && PeriodsOf(g, row, j + 1, cols, rest)
    ensures PeriodsOf(g, row, j, cols, [p] + rest)
  {
    var ps := [p] + rest;
    forall i | 0 <= i < |ps| ensures TimeSpan.FromString(g.Str(row, j + i)) == Success(ps[i]) {
      if i > 0 {
        assert ps[i] == rest[i - 1] && j + i == (j + 1) + (i - 1);
      }
    }
  }

  /** The headers of columns `j` to `cols` of the time row, read as periods;
      the first header that does not read raises its error. */
  function PeriodsFrom(g: Grid, row: int, j: int, cols: int): (r: Result<seq<TimeSpan.Period>>)
    requires j <= cols + 1
    ensures r.Success? <==> HeadersRead(g, row, j, cols)
    ensures r.Success? ==> PeriodsOf(g, row, j, cols, r.value)
    decreases cols + 1 - j
  {
    if j > cols then Success([])
    else
      HeadersStep(g, row, j, cols);
      match TimeSpan.FromString(g.Str(row, j))
      case Failure(e) => Failure(e)
      case Success(p) =>
        match PeriodsFrom(g, row, j + 1, cols)
        case Failure(e) => Failure(e)
        case Success(rest) =>
          PeriodsStep(g, row, j, cols, p, rest);
          Success([p] + rest)
  }

  /** `get_periods`: the period of every column from 2 to `cols`; column
      `j` lands at index `j - 2`. */
  function Periods(g: Grid, cols: int, timeRow: int): (r: Result<seq<TimeSpan.Period>>)
    ensures r.Success? <==> HeadersRead(g, timeRow, 2, cols)
    ensures r.Success? ==> |r.value| == (if cols < 2 then 0 else cols - 1)
    ensures r.Success? && cols >= 2 ==> PeriodsOf(g, timeRow, 2, cols, r.value)
    ensures r.Success? ==> forall k :: 0 <= k < |r.value| ==> r.value[k].Valid()
  {
    if cols < 2 then Success([])
    else
      var r := PeriodsFrom(g, timeRow, 2, cols);
      if r.Success? then PeriodsValid(g, timeRow, 2, cols, r.value); r else r
  }

  /** Every period read from a header is a valid pair of clock times. */
  lemma PeriodsValid(g: Grid, row: int, j: int, cols: int, ps: seq<TimeSpan.Period>)
    requires PeriodsOf(g, row, j, cols, ps)
    ensures forall k :: 0 <= k < |ps| ==> ps[k].Valid()
  {
    forall k | 0 <= k < |ps| ensures ps[k].Valid() {
      assert TimeSpan.FromString(g.Str(row, j + k)) == Success(ps[k]);
    }
  }

  // ---------------------------------------------------------------------------
  // is_end_of_day
  // ---------------------------------------------------------------------------

  /** `is_end_of_day`: on a weekday the day ends at `curr` when column 1 of
      the next row holds any value. On Saturday it ends at
      a cell coloured with theme 1, at a merged cell whose rectangle does not
      reach the next row, or at an unmerged row whose first `cols` cells are
      all empty. */
  function IsEndOfDay(g: Grid, curr: int, day: string, cols: int): (r: bool)
    ensures Lower(day) != "saturday" ==> (r <==> g.Value(curr + 1, 1).Some?)
    ensures Lower(day) == "saturday" && g.Theme(curr, 1) == Some(1) ==> r
    ensures Lower(day) == "saturday" && g.Theme(curr, 1) != Some(1) && IsMergedCell(g, curr, 1) ==>
      (r <==> forall k :: 0 <= k < |g.merged| ==> !(g.merged[k].Contains(curr, 1) && g.merged[k].Contains(curr + 1, 1)))
    ensures Lower(day) == "saturday" && g.Theme(curr, 1) != Some(1) && !IsMergedCell(g, curr, 1) ==>
      (r <==> forall j :: 1 <= j <= cols ==> g.Value(curr, j).None?)
  {
    if Lower(day) != "saturday" then g.Value(curr + 1, 1).Some?
    else if g.Theme(curr, 1) == Some(1) then true
    else if IsMergedCell(g, curr, 1) then !SameMergedGroup(g, curr, 1, curr + 1, 1)
    else IsEmptyRow(g, curr, cols)
  }

  /** Below the sheet nothing changes from row to row: Saturday has ended
      there and every other day never does. */
  lemma EndOfDayPastSheet(g: Grid, curr: int, day: string, cols: int)
    requires g.Valid() && curr > g.maxRow
    ensures IsEndOfDay(g, curr, day, cols) <==> Lower(day) == "saturday"
  {
    PastSheetEmpty(g, curr + 1, 1);
    PastSheetEmpty(g, curr, 1);
    if Lower(day) == "saturday" {
      assert !IsMergedCell(g, curr, 1) by {
        forall k | 0 <= k < |g.merged| ensures !g.merged[k].Contains(curr, 1) {
          assert g.RangeInSheet(g.merged[k]);
        }
      }
      forall j | 1 <= j <= cols ensures g.Value(curr, j).None? {
        PastSheetEmpty(g, curr, j);
      }
    }
  }

  // ---------------------------------------------------------------------------
  // search_merged_cells
  // ---------------------------------------------------------------------------

  /** A rectangle one row high, on the cell's row, spanning the cell's column. */
  predicate RowSpan(m: Range, row: int, col: int) {
    m.minRow == m.maxRow == row && m.minCol <= col <= m.maxCol
  }

  /** `search_merged_cells`: the last column of the first one-row rectangle
      that spans the cell, or `None`. */
  function SearchMerged(ms: seq<Range>, row: int, col: int): (r: Option<int>)
    ensures r.None? <==> forall k :: 0 <= k < |ms| ==> !RowSpan(ms[k], row, col)
    ensures r.Some? ==> col <= r.value
    ensures r.Some? ==> exists k :: 0 <= k < |ms| && RowSpan(ms[k], row, col) && r.value == ms[k].maxCol
                                    && forall k' :: 0 <= k' < k ==> !RowSpan(ms[k'], row, col)
  {
    if ms == [] then None
    else if RowSpan(ms[0], row, col) then Some(ms[0].maxCol)
    else
      var r := SearchMerged(ms[1..], row, col);
      assert forall k :: 1 <= k < |ms| ==> ms[k] == ms[1..][k - 1];
      r
  }

  /** No cell lies in two of the rectangles, as in any worksheet. */
  ghost predicate Disjoint(ms: seq<Range>) {
    forall a, b, row, col :: 0 <= a < b < |ms| && ms[a].Contains(row, col) ==> !ms[b].Contains(row, col)
  }

  /** With disjoint rectangles the answer does not depend on their order:
      any one-row rectangle spanning the cell gives its last column. */
  lemma SearchMergedAny(ms: seq<Range>, row: int, col: int, k: nat)
    requires Disjoint(ms) && k < |ms| && RowSpan(ms[k], row, col)
    ensures SearchMerged(ms, row, col) == Some(ms[k].maxCol)
  {
    var r := SearchMerged(ms, row, col);
    var k' :| 0 <= k' < |ms| && RowSpan(ms[k'], row, col) && r.value == ms[k'].maxCol
              && forall i :: 0 <= i < k' ==> !RowSpan(ms[i], row, col);
    if k' != k {
      assert ms[k].Contains(row, col) && ms[k'].Contains(row, col);
    }
  }

  // ---------------------------------------------------------------------------
  // parse_day
  // ---------------------------------------------------------------------------

  /** Line breaks and no-break spaces turned into plain spaces. */
  function Unbroken(v: string): (r: string)
    ensures |r| == |v|
    ensures forall i :: 0 <= i < |r| ==> r[i] != '\n' && r[i] != Events.NoBreakSpace
  {
    ReplaceChar(ReplaceChar(v, Events.NoBreakSpace, ' '), '\n', ' ')
  }

  /** Stripping keeps a text free of line breaks and no-break spaces. */
  lemma StripUnbroken(t: string)
    requires forall i :: 0 <= i < |t| ==> t[i] != '\n' && t[i] != Events.NoBreakSpace
    ensures forall i :: 0 <= i < |Strip(t)| ==> Strip(t)[i] != '\n' && Strip(t)[i] != Events.NoBreakSpace
  {
    forall i | 0 <= i < |Strip(t)| ensures Strip(t)[i] != '\n' && Strip(t)[i] != Events.NoBreakSpace {
      StripWithIn(t, WhiteSpace, i);
    }
  }

  /** `str(v).replace("\xa0", " ").replace("\n", " ").strip().upper()`: the
      text of a cell as the walk compares and parses it. */
  function CellText(v: string): (r: string)
    ensures forall i :: 0 <= i < |r| ==> r[i] != '\n' && r[i] != Events.NoBreakSpace && !IsLower(r[i])
    ensures r != [] ==> !IsSpace(r[0]) && !IsSpace(r[|r| - 1])
  {
    var t := Strip(Unbroken(v));
    StripUnbroken(Unbroken(v));
    Upper(t)
  }

  /** `Event.from_string` cleans its input again; the cell text is already clean. */
  lemma CellTextClean(v: string)
    ensures Events.Clean(CellText(v)) == CellText(v)
  {
    var s := CellText(v);
    StripKeeps(s, WhiteSpace);
    ReplaceCharAbsent(s, '\n', ' ');
    ReplaceCharAbsent(s, Events.NoBreakSpace, ' ');
  }

  /** The period of column `j`, widened to the last column of a one-row
      rectangle when the cell spans one; `IndexError` when either column has
      no header. */
  function PeriodAt(periods: seq<TimeSpan.Period>, j: int, m: Option<int>): (r: Result<TimeSpan.Period>)
    requires 2 <= j && (m.Some? ==> j <= m.value)
    ensures r.Success? <==> j - 2 < |periods| && (m.Some? ==> m.value - 2 < |periods|)
    ensures r.Success? ==> r.value.Covers(periods[j - 2]) && (m.Some? ==> r.value.Covers(periods[m.value - 2]))
    ensures r.Success? && m.None? ==> r.value == periods[j - 2]
    ensures r.Failure? ==> r.error.IndexError?
  {
    if j - 2 >= |periods| then Failure(IndexError("list index out of range"))
    else match m
      case None => Success(periods[j - 2])
      case Some(last) =>
        if last - 2 >= |periods| then Failure(IndexError("list index out of range"))
        else Success(TimeSpan.Add(periods[j - 2], periods[last - 2]))
  }

  /** A merged header spans the periods of every column in between: the
      widened period is the least one covering both ends. */
  lemma PeriodAtLeast(periods: seq<TimeSpan.Period>, j: int, m: int, c: TimeSpan.Period)
    requires 2 <= j <= m && m - 2 < |periods|
    requires c.Covers(periods[j - 2]) && c.Covers(periods[m - 2])
    ensures c.Covers(PeriodAt(periods, j, Some(m)).value)
  {
    TimeSpan.AddIsLeastCover(periods[j - 2], periods[m - 2], c);
  }

  /** Everything one day's walk reads: the sheet, its column count, the
      periods, the day, the merged rectangles in sorted order, how a cell's
      value becomes its text, and the cell parser. The walk of the timetable
      instantiates the last two with `CellText` and with `Event.from_string`
      for the day and its lookup tables. */
  datatype Walk = Walk(g: Grid, cols: int, periods: seq<TimeSpan.Period>, day: string,
                       ranges: seq<Range>, text: string -> string,
                       parse: (string, TimeSpan.Period) -> Result<Option<Events.Event>>)

  /** One event together with the cell it came from. */
  datatype Found = Found(row: int, col: int, event: Events.Event)

  /** The cell holds an elective heading, which ends its column. */
  predicate StopsAt(w: Walk, row: int, j: int) {
    w.g.Value(row, j).Some? && w.text(w.g.Value(row, j).value) in ElectiveCategories
  }

  /** A cell text the walk passes over without parsing. */
  predicate Ignored(s: string) {
    s in SpamEntries || !HasLetter(s)
  }

  /** The day neither ends nor meets an elective heading in column `j`
      on rows `from` to `to - 1`. */
  predicate Open(w: Walk, j: int, from: int, to: int) {
    forall x :: from <= x < to ==> !IsEndOfDay(w.g, x, w.day, w.cols) && !StopsAt(w, x, j)
  }

  /** `f` is what its cell parses to: a non-empty cell whose text is neither
      an elective heading nor ignored, read over the period of its column. */
  predicate FoundAt(w: Walk, f: Found) {
    && 2 <= f.col
    && w.g.Value(f.row, f.col).Some?
    && var s := w.text(w.g.Value(f.row, f.col).value);
    && s !in ElectiveCategories && !Ignored(s)
    && var m := SearchMerged(w.ranges, f.row, f.col);
    && PeriodAt(w.periods, f.col, m).Success?
    && w.parse(s, PeriodAt(w.periods, f.col, m).value) == Success(Some(f.event))
  }

  /** Each entry of `fs` is an event parsed from a cell of column `j` at or below `row`. */
  predicate Parsed(w: Walk, j: int, row: int, fs: seq<Found>) {
    forall k :: 0 <= k < |fs| ==> fs[k].col == j && row <= fs[k].row && FoundAt(w, fs[k])
  }

  /** Each entry of `fs` lies above the end of the day, counted from `row`. */
  predicate BeforeEnd(w: Walk, j: int, row: int, fs: seq<Found>) {
    forall k :: 0 <= k < |fs| ==> Open(w, j, row, fs[k].row)
  }

  /** The entries of `fs` go down the column. */
  predicate Descending(fs: seq<Found>) {
    forall a, b :: 0 <= a < b < |fs| ==> fs[a].row < fs[b].row
  }

  /** `fs` lists events of column `j` found from row `row` on, top to
      bottom, each parsed from its cell and each above the end of the day. */
  predicate Column(w: Walk, j: int, row: int, fs: seq<Found>) {
    Parsed(w, j, row, fs) && BeforeEnd(w, j, row, fs) && Descending(fs)
  }

  /** The head cell of a column step: nothing, or the event of cell `(row, j)`. */
  predicate HeadAt(w: Walk, j: int, row: int, head: seq<Found>) {
    head == [] || (|head| == 1 && head[0].col == j && head[0].row == row && FoundAt(w, head[0]))
  }

  lemma ParsedCons(w: Walk, j: int, row: int, head: seq<Found>, rest: seq<Found>)
    requires Parsed(w, j, row + 1, rest) && HeadAt(w, j, row, head)
    ensures Parsed(w, j, row, head + rest)
  {
    var fs := head + rest;
    forall k | 0 <= k < |fs| ensures fs[k].col == j && row <= fs[k].row && FoundAt(w, fs[k]) {
      if k >= |head| {
        assert fs[k] == rest[k - |head|];
      }
    }
  }

  lemma BeforeEndCons(w: Walk, j: int, row: int, head: seq<Found>, rest: seq<Found>)
    requires BeforeEnd(w, j, row + 1, rest) && HeadAt(w, j, row, head)
    requires rest != [] ==> !IsEndOfDay(w.g, row, w.day, w.cols) && !StopsAt(w, row, j)
    ensures BeforeEnd(w, j, row, head + rest)
  {
    var fs := head + rest;
    forall k | 0 <= k < |fs| ensures Open(w, j, row, fs[k].row) {
      if k >= |head| {
        assert fs[k] == rest[k - |head|];
        assert Open(w, j, row + 1, fs[k].row);
      }
    }
  }

  lemma DescendingCons(w: Walk, j: int, row: int, head: seq<Found>, rest: seq<Found>)
    requires Descending(rest) && HeadAt(w, j, row, head)
    requires forall k :: 0 <= k < |rest| ==> row < rest[k].row
    ensures Descending(head + rest)
  {
    var fs := head + rest;
    forall a, b | 0 <= a < b < |fs| ensures fs[a].row < fs[b].row {
      if a >= |head| {
        assert fs[a] == rest[a - |head|] && fs[b] == rest[b - |head|];
      } else {
        assert fs[b] == rest[b - |head|];
      }
    }
  }

  /** Prepending the cell of `row`, which did not end the day when more follows. */
  lemma ColumnCons(w: Walk, j: int, row: int, head: seq<Found>, rest: seq<Found>)
    requires Column(w, j, row + 1, rest) && HeadAt(w, j, row, head)
    requires rest != [] ==> !IsEndOfDay(w.g, row, w.day, w.cols) && !StopsAt(w, row, j)
    ensures Column(w, j, row, head + rest)
  {
    ParsedCons(w, j, row, head, rest);
    BeforeEndCons(w, j, row, head, rest);
    DescendingCons(w, j, row, head, rest);
  }

  /** What the loop body makes of cell `(row, j)` when it is not an
      elective heading: nothing for an empty or ignored cell, otherwise the
      event the cell parses to, or the error parsing it raises. */
  function CellEvent(w: Walk, j: int, row: int): (r: Result<seq<Found>>)
    requires 2 <= j && !StopsAt(w, row, j)
    ensures r.Success? ==> HeadAt(w, j, row, r.value)
    ensures r.Success? && r.value == [] <==>
      || w.g.Value(row, j).None?
      || Ignored(w.text(w.g.Value(row, j).value))
      || (var p := PeriodAt(w.periods, j, SearchMerged(w.ranges, row, j));
          p.Success? && w.parse(w.text(w.g.Value(row, j).value), p.value) == Success(None))
  {
    match w.g.Value(row, j)
    case None => Success([])
    case Some(v) =>
      var s := w.text(v);
      if Ignored(s) then Success([])
      else
        var p :- PeriodAt(w.periods, j, SearchMerged(w.ranges, row, j));
        var ev :- w.parse(s, p);
        if ev.Some? then Success([Found(row, j, ev.value)]) else Success([])
  }

  /** One column of the day's `while not reached_end` loop, from `row` on:
      an elective heading ends the column, and so does a row that ends the
      day, once its own cell has been read. Past the bottom of the sheet
      every cell is empty, so the loop either ends there at once or never does. */
  function ColumnFrom(w: Walk, j: int, row: int): (r: Result<seq<Found>>)
    requires w.g.Valid() && 2 <= j
    ensures r.Success? ==> Column(w, j, row, r.value)
    decreases w.g.maxRow + 1 - row
  {
    if row > w.g.maxRow then
      if IsEndOfDay(w.g, row, w.day, w.cols) then Success([]) else Failure(Diverges("the day never ends"))
    else if StopsAt(w, row, j) then Success([])
    else
      var head :- CellEvent(w, j, row);
      var rest :- if IsEndOfDay(w.g, row, w.day, w.cols) then Success([]) else ColumnFrom(w, j, row + 1);
      ColumnCons(w, j, row, head, rest);
      Success(head + rest)
  }

  /** Below the sheet a Saturday column ends at once and any other day's
      column loops forever. */
  lemma ColumnPastSheet(w: Walk, j: int, row: int)
    requires w.g.Valid() && 2 <= j && row > w.g.maxRow
    ensures Lower(w.day) == "saturday" ==> ColumnFrom(w, j, row) == Success([])
    ensures Lower(w.day) != "saturday" ==> ColumnFrom(w, j, row).Failure? && ColumnFrom(w, j, row).error.Diverges?
  {
    EndOfDayPastSheet(w.g, row, w.day, w.cols);
  }

  /** An elective heading ends its column: nothing at or below it is read. */
  lemma ColumnStopsAtElective(w: Walk, j: int, row: int)
    requires w.g.Valid() && 2 <= j && row <= w.g.maxRow && StopsAt(w, row, j)
    ensures ColumnFrom(w, j, row) == Success([])
  {
  }

  /** A row that neither ends the day nor stops the column passes on to the
      next row, and whatever is found from there is found from this row too. */
  lemma ColumnStep(w: Walk, j: int, row: int, f: Found)
    requires w.g.Valid() && 2 <= j && row <= w.g.maxRow
    requires !IsEndOfDay(w.g, row, w.day, w.cols) && !StopsAt(w, row, j)
    requires ColumnFrom(w, j, row).Success?
    ensures ColumnFrom(w, j, row + 1).Success?
    ensures f in ColumnFrom(w, j, row + 1).value ==> f in ColumnFrom(w, j, row).value
  {
    var head := CellEvent(w, j, row).value;
    assert ColumnFrom(w, j, row).value == head + ColumnFrom(w, j, row + 1).value;
  }

  /** A cell that parses to an event heads the list read from its row. */
  lemma ColumnHead(w: Walk, j: int, row: int, e: Events.Event)
    requires w.g.Valid() && 2 <= j && row <= w.g.maxRow && FoundAt(w, Found(row, j, e))
    requires ColumnFrom(w, j, row).Success?
    ensures ColumnFrom(w, j, row).value != [] && ColumnFrom(w, j, row).value[0] == Found(row, j, e)
  {
  }

  /** The first row of an open stretch neither ends the day nor stops the
      column, and the stretch goes on from the next row. */
  lemma OpenStep(w: Walk, j: int, row: int, x: int)
    requires row < x && Open(w, j, row, x)
    ensures !IsEndOfDay(w.g, row, w.day, w.cols) && !StopsAt(w, row, j) && Open(w, j, row + 1, x)
  {
  }

  /** Every cell above the end of the day that parses to an event is found. */
  lemma {:induction false} ColumnComplete(w: Walk, j: int, row: int, x: int, e: Events.Event)
    requires w.g.Valid() && 2 <= j && row <= x <= w.g.maxRow
    requires Open(w, j, row, x) && FoundAt(w, Found(x, j, e))
    requires ColumnFrom(w, j, row).Success?
    ensures Found(x, j, e) in ColumnFrom(w, j, row).value
    decreases x - row
  {
    if row < x {
      OpenStep(w, j, row, x);
      ColumnStep(w, j, row, Found(x, j, e));
      ColumnComplete(w, j, row + 1, x, e);
    } else {
      ColumnHead(w, j, row, e);
    }
  }

  // ---------------------------------------------------------------------------
  // All the columns of one day
  // ---------------------------------------------------------------------------

  /** Column-major order: by column, then by row within a column. */
  predicate InOrder(fs: seq<Found>) {
    forall a, b :: 0 <= a < b < |fs| ==> fs[a].col < fs[b].col || (fs[a].col == fs[b].col && fs[a].row < fs[b].row)
  }

  /** Each entry of `fs` is an event parsed from a cell of a column from
      `j` to the last one, at or below `start` and above the end of the day. */
  predicate DayFound(w: Walk, start: int, j: int, fs: seq<Found>) {
    forall k :: 0 <= k < |fs| ==> j <= fs[k].col <= w.cols && start <= fs[k].row
                                  && FoundAt(w, fs[k]) && Open(w, fs[k].col, start, fs[k].row)
  }

  lemma DayFoundAppend(w: Walk, start: int, j: int, c: seq<Found>, rest: seq<Found>)
    requires j <= w.cols && Column(w, j, start, c) && DayFound(w, start, j + 1, rest)
    ensures DayFound(w, start, j, c + rest)
  {
    var fs := c + rest;
    forall k | 0 <= k < |fs| ensures j <= fs[k].col <= w.cols && start <= fs[k].row
                                     && FoundAt(w, fs[k]) && Open(w, fs[k].col, start, fs[k].row) {
      if k >= |c| {
        assert fs[k] == rest[k - |c|];
      } else {
        assert fs[k] == c[k];
      }
    }
  }

  lemma InOrderAppend(w: Walk, start: int, j: int, c: seq<Found>, rest: seq<Found>)
    requires Column(w, j, start, c) && DayFound(w, start, j + 1, rest) && InOrder(rest)
    ensures InOrder(c + rest)
  {
    var fs := c + rest;
    forall a, b | 0 <= a < b < |fs| ensures fs[a].col < fs[b].col || (fs[a].col == fs[b].col && fs[a].row < fs[b].row) {
      if a >= |c| {
        assert fs[a] == rest[a - |c|] && fs[b] == rest[b - |c|];
      } else if b >= |c| {
        assert fs[a] == c[a] && fs[b] == rest[b - |c|];
      } else {
        assert fs[a] == c[a] && fs[b] == c[b];
      }
    }
  }

  /** `for j in range(2, col + 1)` from column `j` on: each column read from
      `start`, in order, the first error ending the walk. */
  function ColumnsFrom(w: Walk, start: int, j: int): (r: Result<seq<Found>>)
    requires w.g.Valid() && 2 <= j
    ensures r.Success? ==> DayFound(w, start, j, r.value) && InOrder(r.value)
    decreases w.cols + 1 - j
  {
    if j > w.cols then Success([])
    else
      var c :- ColumnFrom(w, j, start);
      var rest :- ColumnsFrom(w, start, j + 1);
      DayFoundAppend(w, start, j, c, rest);
      InOrderAppend(w, start, j, c, rest);
      Success(c + rest)
  }

  /** The first row of the day's classes: the day's own row, or the row
      below it when the day's row carries the time headers. */
  function FirstRow(g: Grid, start: int): (r: int)
    ensures r == start || r == start + 1
    ensures r == start + 1 <==> StartsWith(g.Str(start, 2), "9")
  {
    if StartsWith(g.Str(start, 2), "9") then start + 1 else start
  }

  /** `parse_day`: every column from 2 on, read down from the first row of the day. */
  function ParseDay(w: Walk, start: int): (r: Result<seq<Found>>)
    requires w.g.Valid()
    ensures r.Success? ==> DayFound(w, FirstRow(w.g, start), 2, r.value) && InOrder(r.value)
  {
    ColumnsFrom(w, FirstRow(w.g, start), 2)
  }

  /** A day whose columns all read finds every cell above its end that parses to an event. */
  lemma {:induction false} DayComplete(w: Walk, start: int, j: int, x: int, col: int, e: Events.Event)
    requires w.g.Valid() && 2 <= j <= col <= w.cols && start <= x <= w.g.maxRow
    requires Open(w, col, start, x) && FoundAt(w, Found(x, col, e))
    requires ColumnsFrom(w, start, j).Success?
    ensures Found(x, col, e) in ColumnsFrom(w, start, j).value
    decreases w.cols + 1 - j
  {
    var c := ColumnFrom(w, j, start);
    var rest := ColumnsFrom(w, start, j + 1);
    assert c.Success? && rest.Success? && ColumnsFrom(w, start, j).value == c.value + rest.value;
    if j == col {
      ColumnComplete(w, j, start, x, e);
    } else {
      DayComplete(w, start, j + 1, x, col, e);
    }
  }
}

=== FILE: wrappers.dfy ===
/** Failure-carrying datatypes: `Option` for Python's `None`-or-value returns and
    `Result` for code paths that may raise a Python exception. Both work with `:-`. */
module Wrappers {

  datatype Option<+T> = None | Some(value: T) {

    predicate IsFailure() {
      None?
    }

    function PropagateFailure<U>(): Option<U>
      requires None?
    {
      None
    }

    function Extract(): T
      requires Some?
    {
      value
    }

    /** Python's `x or default` when `None` is the only falsy value. */
    function GetOr(default: T): T {
      match this
      case Some(v) => v
      case None => default
    }
  }

  /** The Python exception a code path raises; the text is informative only. */
  datatype PyError =
    | ValueError(reason: string)
    | IndexError(reason: string)
    | KeyError(key: string)
    | Diverges(reason: string)

  datatype Result<+R> = Success(value: R) | Failure(error: PyError) {

    predicate IsFailure() {
      Failure?
    }

    function PropagateFailure<U>(): Result<U>
      requires Failure?
    {
      Failure(error)
    }

    function Extract(): R
      requires Success?
    {
      value
    }
  }

  /** Python's `d.get(k)`. */
  function Get<K, V>(m: map<K, V>, k: K): (r: Option<V>)
    ensures r.Some? <==> k in m
    ensures r.Some? ==> r.value == m[k]
  {
    if k in m then Some(m[k]) else None
  }
}
